=== FILE: README.md ===
# OLX scraper: a Dafny model

This project models the core of `olx-scrapper`, a desktop tool that searches the
Polish classifieds site olx.pl and exports the results. The model covers these parts:

- **Search descriptors** (`URLBuilder`). Each one renders a result-page URL and the
  label its results are stored under. The older `urlbuilder.URLBuilder` and
  `utils.get_url` are modelled too.
- **The scraper** (`Scraping/Scraper.py`).
  - It reads the result count from the "Znaleźliśmy … ogłoszeń" banner.
  - It turns listing cards into records: title, integer price, location, date,
    absolute item URL and photo.
  - It keys each query's records by the query's label.
  - It saves the date of the last successful scrape.
  - The older `scraper.py` is modelled alongside.
- **Field normalisation** in both versions: price cleaning, the location/date split
  with the "dzisiaj" (today) rule, and the `=HYPERLINK(...)` formula.
- **The search-query editor**: `setData` normalisation and validation, adding rows, and
  deleting the selected rows.
- **The results table view**: its three-click sort cycle and the `data` display rule.
- **The Excel export**, both managers:
  - sheet-name truncation;
  - hyperlink cells;
  - the column-width rule;
  - the order of the steps.
- **The settings validators.**
- **The module names derived by the documentation script.**

All modelled operations are pure functions over immutable values; the one exception is
the row deletion of the query editor, which is a method with a loop. A Python exception
becomes the error side of a `Result`, named after the exception class (`ValueError`,
`AttributeError`, …). The inputs the source gets from outside become parameters:

| Outside input | Becomes |
|---|---|
| Network | a function from URL to response |
| HTML page | the banner text plus a list of cards with optional parts |
| Clock and the `pl_PL` locale | an already formatted `today` string, and a `now` timestamp |
| `datetime.fromisoformat` | a parameter |
| `last_scrape.json` | a value of a small file datatype |
| Excel workbook | a list of sheets of cell grids |
| Directory walk and imports of the documentation script | inputs |

Modules, one per file:

| File | Module | Contents |
|---|---|---|
| `wrappers.dfy` | `Wrappers` | `Option`, `Result`, and `MapAll` ("map, or fail with the first failure") |
| `text.dfy` | `Text` | the string functions Python provides (`strip`, `lower`, `capitalize`, `split`, `replace`, `in`) and decimal digits |
| `config.dfy` | `Config` | one query dictionary of the configuration |
| `url_builder.dfy` | `UrlBuilder` | descriptors, URLs and labels |
| `formatting.dfy` | `Formatting` | price, location/date and hyperlink formula |
| `table.dfy` | `Table` | a data frame as columns plus rows of cells |
| `keyed.dfy` | `Keyed` | an insertion-ordered dictionary |
| `url_join.dfy` | `UrlJoin` | `urljoin` against the site's base URL |
| `scraper.dfy` | `Scraper` | the current scraper |
| `legacy_scraper.dfy` | `LegacyScraper` | the older scraper |
| `validation.dfy` | `InputValidation` | the settings validators |
| `search_queries.dfy` | `SearchQueries` | the query editor |
| `dataframe_model.dfy` | `DataFrameView` | the results table and its sort cycle |
| `spreadsheet.dfy` | `Spreadsheet` | both Excel managers |
| `generate_docs.dfy` | `DocGeneration` | module names for the documentation |

Where the written design of the system and the code disagree, the model follows the code:

- **Only page 1 is fetched.** There is no pagination loop and no page limit. The cards
  are cut to the banner's count, so there is no over-fetch.
- **A status other than 200 gives an empty result** instead of a failure.
- **A card without a title, price or link raises, and that aborts the whole scrape.**
  The card is not skipped.
- **A missing or unmatched count banner raises AttributeError.**
- **The location/date text is split on " - ".**
  - The current version takes the first two parts and raises when there are fewer.
  - `utils.py` requires exactly two parts.
- **The history file is overwritten** with one object `{"last_scrape_date": …}`. Nothing
  is appended.
- **A failing scrape still clears `data_frames` first**, so the previous results are not
  kept. The saved date is unchanged.
- **The label has ` - <distance>km` whenever the distance is truthy**, even without a
  city. The URL has a radius exactly when the city is not None.
- **There is no progress reporting in the code.**

## Model

| member | source | states |
|---|---|---|
| Wrappers.MapAll | src/Scraping/Scraper.py:34-36 | the mapped list exists exactly when every element succeeds, has the same length and the element-wise results; a failure is the error of an element all of whose predecessors succeeded (gather's order, first failure in list order) |
| UrlBuilder.BuildUrl | src/Scraping/URLBuilder.py:11-29 | the URL starts with the origin, the location segment and `/q-`, and ends with the radius parameter (if any) and the newest-first order parameter |
| UrlBuilder.FirstPageUrl | src/Scraping/URLBuilder.py:26-29 | the page-1 URL is the origin, the path and `?` followed directly by the radius parameter (if any) and the order parameter, with no page parameter |
| UrlBuilder.PageAtMostOneIsFirstPage | src/Scraping/URLBuilder.py:24-27 | any page number up to 1 gives the same URL as page 1 |
| UrlBuilder.PageParamInsertedAfterQuestionMark | src/Scraping/URLBuilder.py:24-27 | for page > 1 the URL is the page-1 URL with `page=<page>&` inserted right after the `?` |
| UrlBuilder.NoCityIgnoresDistance | src/Scraping/URLBuilder.py:17-19 | without a city the path segment is `oferty`, there is no radius parameter, and the distance has no influence on the URL |
| UrlBuilder.CityEmitsDistance | src/Scraping/URLBuilder.py:20-22 | with any city that is not None, the city with hyphens forms the path and `search%5Bdist%5D=<distance>&` precedes the order parameter |
| UrlBuilder.DistanceDistinguishesUrls | src/Scraping/URLBuilder.py:20-22 | with a city, two descriptors whose distances print differently give different URLs |
| UrlBuilder.EmptyCityAsymmetry | src/Scraping/URLBuilder.py:17-38 | an empty-string city yields an empty path segment in the URL but is dropped from the label like a missing city |
| UrlBuilder.DataKey | src/Scraping/URLBuilder.py:31-41 | the label of a query begins with its capitalised query |
| UrlBuilder.DataKeyShape | src/Scraping/URLBuilder.py:31-41 | the whole label in each of the four cases: the capitalised query, then ` - <City>` when the city is truthy, then ` - <distance>km` when the distance is truthy, independently of the city |
| UrlBuilder.CitylessLabelHasRadius | src/Scraping/URLBuilder.py:36-40 | a default descriptor's label ends in ` - 100km` although its URL carries no radius |
| UrlBuilder.LegacyBuildUrl | src/urlbuilder.py:13-26 | the older URL is the page-1 URL with the literal `monitor ` (raw space included) inserted after `/q-` |
| UrlBuilder.LegacyDataKey | src/urlbuilder.py:28-33 | the older label is a prefix of the current one, equal to it exactly when the distance is falsy |
| UrlBuilder.GetUrl | src/utils.py:23-34 | `get_url` builds the same string as the current builder's page-1 URL |
| UrlBuilder.FromConfig | src/Scraping/Scraper.py:97 | `URLBuilder(**query)` succeeds exactly for a string query and a city that is missing, null or a string; a missing or null city becomes None and a missing distance 100 |
| Formatting.FormatPrice | src/Exporting/formatting.py:8-12 | the price is the decimal value of the text's digit characters in order, 0 when there are none |
| Formatting.FormatPriceIdempotent | src/Exporting/formatting.py:10-12 | cleaning the printed result again gives the same price |
| Formatting.FormatPriceExamples | src/Exporting/formatting.py:10-12 | `"do negocjacji"` and `""` are worth 0 |
| Formatting.ThousandsExample | src/Exporting/formatting.py:10-12 | `"1 200"` followed by any digit-free qualifier such as `" do negocjacji zł"` is worth 1200 |
| Formatting.ResolveToday | src/Exporting/formatting.py:18-21 | the date becomes today's date exactly when some stretch of it reads `dzisiaj` in any mix of case, and is kept otherwise |
| Formatting.MentionsTodayIff | src/Exporting/formatting.py:18 | searching the lower-cased date for `dzisiaj` finds it exactly when some stretch of the date lower-cases to it |
| Formatting.TodayRuleIgnoresCase | src/Exporting/formatting.py:18 | a date and its lower-cased form are both replaced by today's date or both kept |
| Formatting.FormatLocationDate | src/Exporting/formatting.py:15-22 | succeeds exactly when the text contains " - "; the location is the text before the first separator and the date the text between the first and second |
| Formatting.LocationIsFirstField | src/Exporting/formatting.py:17 | the location contains no separator and the text starts with location + " - " |
| Formatting.SimpleLocationDate | src/Exporting/formatting.py:15-22 | `loc - date` with a space-free location and a hyphen-free date splits back into the two, the date passing the today rule |
| Formatting.TodayExamples | src/Exporting/formatting.py:18-21 | "Dzisiaj o 12:30" becomes today's date; "10 marca 2024" passes through |
| Formatting.NoSeparatorExample | src/Exporting/formatting.py:17 | "Legnica" alone raises ValueError |
| Formatting.FormatLocationDateStrict | src/utils.py:13-20 | the `utils.py` split succeeds exactly when the text has one separator and no second one |
| Formatting.StrictAgreesWhenDefined | src/utils.py:15 | whenever the strict split succeeds, the current split succeeds with the same result |
| Text.RemoveAll | src/utils.py:9 | `replace(pat, "")` returns text without `pat` as is; otherwise it keeps the text before the leftmost copy, drops that copy and treats the rest the same way |
| Text.RemoveTrailing | src/utils.py:9 | text ending with `pat`, whose part before it lacks `pat`'s first character, loses exactly that `pat` |
| Formatting.LegacyFormatPrice | src/utils.py:6-10 | the older price is the text unchanged when `do negocjacji` is absent; otherwise the text before its first occurrence followed by the rest with every further occurrence removed; the digits are the same as the input's |
| Formatting.LegacyPriceDropsPhrase | src/formatting.py:10-14 | an amount without "d" followed by `do negocjacji` gives back the amount, trailing space included |
| Formatting.LegacyPriceExample | src/formatting.py:10-14 | "100 zł do negocjacji" becomes "100 zł " |
| Formatting.PriceVersionsAgree | src/formatting.py:10-14 | the current integer price is the value of the digits the older string price keeps |
| Formatting.CreateHyperlink | src/utils.py:37-39 | the formula starts with `=HYPERLINK("`, ends with `")` and is 18 characters longer than target and name together |
| Formatting.HyperlinkRoundTrip | src/formatting.py:27-29 | a target without a double quote and any name are read back from the formula |
| Formatting.HyperlinkNotInjective | src/formatting.py:27-29 | without escaping, two different target/name pairs give the same formula |
| Keyed.PutKeys | src/Scraping/Scraper.py:39 | `d[key] = v` appends a new key at the end and keeps the key order when the key exists |
| Keyed.PutLookup | src/Scraping/Scraper.py:39 | after `d[key] = v`, `d[key]` is v and every other key reads as before |
| Keyed.PutAll | src/Scraping/Scraper.py:37-39 | writing keys in order keeps keys distinct; the keys afterwards are the old ones plus the written ones |
| Keyed.LastWriteWins | src/scraper.py:28-30 | a written key holds the value of its last write; an unwritten key keeps its old value |
| Keyed.DistinctKeysKeepOrder | src/Scraping/Scraper.py:37-39 | from an empty dictionary, distinct keys come out in the order written |
| UrlJoin.JoinToOriginShape | src/Scraping/Scraper.py:71 | `urljoin` against `https://www.olx.pl`: an empty reference gives the base, one under another scheme is returned as is, and an `https` one gives an `https` URL that stays under the base when it names no host |
| UrlJoin.PlainPathJoined | src/Scraping/Scraper.py:71 | an absolute path of plain characters is appended to `https://www.olx.pl` |
| UrlJoin.NetworkPathJoined | src/Scraping/Scraper.py:71 | `//host/path` takes the base's scheme and keeps its own host and path |
| UrlJoin.AbsoluteUrlKept | src/Scraping/Scraper.py:71 | an absolute `https://host/path` URL with a plain host and path comes back unchanged |
| UrlJoin.SchemeCaseIgnored | src/scraper.py:56 | the scheme is compared without regard to case: `HTTPS:x` resolves like `https:x` |
| UrlJoin.SameSchemeRelative | src/scraper.py:56 | `https:b` without a host is relative to the base and resolves to `https://www.olx.pl/b` |
| UrlJoin.DotDotDropsSegment | src/Scraping/Scraper.py:71 | `/a/../b` resolves to `https://www.olx.pl/b` |
| UrlJoin.DotSegmentSkipped | src/Scraping/Scraper.py:71 | `./b` resolves to `https://www.olx.pl/b` |
| Scraper.FindCount | src/Scraping/Scraper.py:76-81 | fails with AttributeError exactly when the span is missing or no position matches the count pattern; otherwise the count is the number of the leftmost match |
| Scraper.BannerRoundTrip | src/Scraping/Scraper.py:22 | any banner "Znaleźliśmy [ponad] n ogłoszeń/ogłoszenie/ogłoszenia", with any text after it and 'Z'-free text before it, reads back as n |
| Scraper.NoBannerWordNoCount | src/Scraping/Scraper.py:79 | a span without "Znaleźliśmy" raises instead of giving 0 |
| Scraper.ResolveUrl | src/Scraping/Scraper.py:71 | `urljoin("https://www.olx.pl", href)`: a missing or empty href gives the base; a reference whose scheme is not `https` comes back unchanged; any other gives an `https` URL, which lies under `https://www.olx.pl` when the reference names no host |
| Scraper.ResolveUrlStable | src/Scraping/Scraper.py:71 | for a missing or empty href and for a reference under another scheme, resolving the result once more changes nothing |
| Scraper.ProcessItem | src/Scraping/Scraper.py:63-74 | a card gives a record exactly when it has a title, a price and a link and its location-date text (if any) has a separator; a missing heading or paragraph raises AttributeError and a separator-free location-date ValueError; the title is the stripped heading, the price the value of the paragraph's digits, the location the text before the first " - ", the date the next field after the today rule, the URL the `urljoin` of the href; a missing location-date gives ("", ""), a missing image the photo "" |
| Scraper.ProcessAll | src/Scraping/Scraper.py:58 | all cards give records in order, or the first failing card's error |
| Scraper.ToFrame | src/Scraping/Scraper.py:58 | one row per record holding its six fields under the six named columns in dictionary order, a missing photo as a null cell; no records give a frame without columns |
| Scraper.FrameRoundTrip | src/Scraping/Scraper.py:73-74 | every row of the frame reads back as the record it came from, so the frame loses nothing |
| Scraper.ProcessFirst | src/Scraping/Scraper.py:57-58 | a zero count yields no records; otherwise exactly the first min(count, cards) cards are processed, in order, and the result fails iff one of them fails |
| Scraper.ReadPage | src/Scraping/Scraper.py:56-58 | a count is recorded exactly when the banner matches; without a match the banner's error is raised, and with one the first min(count, cards) cards become the records |
| UrlJoin.SiteGetUrl | src/Scraping/Scraper.py:49-50 | `urlparse(url).geturl()` of a URL under `https://www.olx.pl/` keeps the site as authority and starts with `https://www.olx.pl` |
| UrlJoin.SiteGetUrlIgnoresControls | src/Scraping/Scraper.py:49-50 | tabs, carriage returns and line feeds in such a URL make no difference to what `geturl` gives |
| UrlJoin.SiteGetUrlKept | src/Scraping/Scraper.py:49-50 | a URL under the site whose path has no tab, line break, '?', '#' or ';' and whose non-empty query has no tab, line break or '#' comes back unchanged |
| Scraper.RequestUrl | src/Scraping/Scraper.py:49-50 | the URL requested is the page-1 URL as `geturl` rebuilds it, which starts with `https://www.olx.pl` |
| Scraper.DescriptorUrlText | src/Scraping/URLBuilder.py:17-29 | with such a query, city and distance the built path has no tab, line break, '?', '#' or ';', and the built query no tab, line break or '#' |
| Scraper.RequestUrlAsBuilt | src/Scraping/Scraper.py:49-50 | for a query, city and distance without tabs, line breaks, '?', '#' or ';' (the distance may hold '?' and ';') the requested URL is the page-1 URL exactly |
| Scraper.FetchQuery | src/Scraping/Scraper.py:46-61 | only the page-1 URL, as `geturl` rebuilds it, is requested; a transport failure raises, another status gives an empty result, and on 200 the first min(count, cards) cards are processed after the count is recorded |
| Scraper.RecordsBoundedByCount | src/Scraping/Scraper.py:56-58 | a query never yields more records than the banner's count |
| Scraper.OnlyFirstPageFetched | src/Scraping/Scraper.py:49-50 | two networks that agree on the requested URL give the same result |
| Scraper.SaveLastScrapeDate | src/Scraping/Scraper.py:83-85 | the file holds exactly one field, the timestamp |
| Scraper.LoadLastScrapeDate | src/Scraping/Scraper.py:87-94 | a missing file, invalid JSON, a missing key or an unparsable value give None; non-object JSON or a non-string value raise TypeError |
| Scraper.SaveLoadRoundTrip | src/Scraping/Scraper.py:83-94 | saving a timestamp and loading it gives it back |
| Scraper.NewScraper | src/Scraping/Scraper.py:19-25 | a new scraper has the given URLs, no frames and no counts, and the loaded last date |
| Scraper.AddUrl | src/Scraping/Scraper.py:27-29 | the descriptor is appended and nothing else changes |
| Scraper.FromConfigAll | src/Scraping/Scraper.py:97 | the descriptors exist exactly when every query dictionary makes one, and then there is one per dictionary, in order |
| Scraper.UpdateUrlList | src/Scraping/Scraper.py:96-97 | a missing `search_queries` raises KeyError; otherwise the list becomes one descriptor per entry in order, or nothing changes when an entry is malformed |
| Scraper.FetchAll | src/Scraping/Scraper.py:34-36 | one fetch result per descriptor, in list order |
| Scraper.Counts | src/Scraping/Scraper.py:80 | a value is among the appended counts exactly when some fetch reached `find_count` with it; all fetches' counts in fetch order when every fetch got there, none when none did |
| Scraper.CountsAppend | src/Scraping/Scraper.py:80 | the counts of consecutive runs of fetches are the runs' counts one after the other, so the appended counts keep the fetch order |
| Scraper.CountsOfOne | src/Scraping/Scraper.py:79-80 | a fetch that reached `find_count` appends exactly its count, any other appends nothing |
| Scraper.Gathered | src/Scraping/Scraper.py:36 | the gathered results exist exactly when every fetch succeeded, in order; otherwise the error is one of the fetch errors |
| Scraper.ScrapeData | src/Scraping/Scraper.py:31-44 | the frames are cleared first; on failure they stay empty and the date is unchanged; on success they hold one entry per distinct label of the URL list and the date is set and saved; counts are only appended |
| Scraper.StoreResults | src/Scraping/Scraper.py:37-42 | the stored labels are exactly those of the URL list, without duplicates, and only frames, date and file change |
| Scraper.ScrapeSucceedsIff | src/Scraping/Scraper.py:34-39 | a scrape succeeds exactly when every query's fetch succeeds, and a failure carries one of their errors |
| Scraper.ScrapeLastWriteWins | src/Scraping/Scraper.py:37-39 | a label holds the records of the last query with that label |
| Scraper.ScrapeThenLoad | src/Scraping/Scraper.py:41-42 | the date saved by a successful scrape is what the next start loads |
| LegacyScraper.LegacyProcessItem | src/scraper.py:49-61 | the older card processing succeeds exactly when title, price, location-date (with a separator), image and link are all present; it raises AttributeError or ValueError otherwise; the title is stripped, the price kept as cleaned text, location and date split as in the current version, the URL the `urljoin` of the href and the photo the image's `src` |
| LegacyScraper.LegacyRecordAgrees | src/scraper.py:49-61 | every card the older version accepts, the current one accepts with the same fields and the price read from the older text |
| LegacyScraper.LegacyRequestUrl | src/scraper.py:37-38 | the older scraper requests its URL as `geturl` rebuilds it, which starts with `https://www.olx.pl` |
| LegacyScraper.LegacyRequestUrlAsBuilt | src/scraper.py:37-38 | for plain query, city and distance text the older URL is requested exactly as built, the raw space of `q-monitor ` included |
| LegacyScraper.LegacyReadPage | src/scraper.py:40-44 | a 200 page without cards raises IndexError at `items[0]`; otherwise the records exist exactly when every card is processed, are the cards' records in order, and a failure is the error of the first failing card |
| LegacyScraper.LegacyFetch | src/scraper.py:34-47 | only the older URL, as `geturl` rebuilds it, is requested; a transport failure raises, a non-200 status gives an empty result, and a 200 page is read as `LegacyReadPage` states |
| LegacyScraper.LegacyScrape | src/scraper.py:22-32 | a failure leaves the state unchanged; the scrape succeeds exactly when every query's fetch does, and then the stored labels are exactly the earlier ones and the current queries' labels |
| LegacyScraper.LegacyScrapeLastWriteWins | src/scraper.py:28-30 | after a successful scrape, a query's label holds that query's records when no later query has the same label, whatever the label held before |
| LegacyScraper.LegacyKeysPersist | src/scraper.py:16-30 | labels the current queries do not produce keep the frames of earlier scrapes |
| InputValidation.ValidateFilename | src/Resources/input_validation.py:4-12 | the filename is returned unchanged exactly when the pattern `^[a-zA-Z0-9_]+$` matches, otherwise ValueError |
| InputValidation.FilenameCharacterisation | src/Resources/input_validation.py:11 | the pattern accepts exactly non-empty runs of word characters, optionally followed by a single line feed |
| InputValidation.FilenameExamples | src/Resources/input_validation.py:11-12 | "olx_results2024" and "results\n" pass; "" and "my results" raise |
| InputValidation.ValidatePageLimit | src/Resources/input_validation.py:15-23 | accepted and returned exactly for 1..10 |
| InputValidation.ValidateDimension | src/Resources/input_validation.py:26-34 | accepted and returned exactly for 100..3000 |
| InputValidation.ValidateFontsize | src/Resources/input_validation.py:37-45 | accepted and returned exactly for 8..24 |
| SearchQueries.RemovePolishSigns | src/GUI/SearchQueriesDialog.py:81-86 | the result has the same length and no lower-case Polish letter |
| SearchQueries.RemovePolishSignsPointwise | src/GUI/SearchQueriesDialog.py:81-86 | the nine sequential replacements amount to replacing each character by its plain letter and leaving all others |
| SearchQueries.RemovePolishSignsIdempotent | src/GUI/SearchQueriesDialog.py:81-86 | removing the signs twice is removing them once |
| SearchQueries.Normalize | src/GUI/SearchQueriesDialog.py:50 | the stored form is the stripped input with each character lower-cased and its Polish letter folded; it has no surrounding white space and no upper-case or lower-case Polish letter |
| SearchQueries.NormalizeIdempotent | src/GUI/SearchQueriesDialog.py:50 | normalising a stored value again gives it back |
| SearchQueries.NormalizeOfClean | src/GUI/SearchQueriesDialog.py:50 | a value without surrounding white space, upper-case letters or Polish letters is stored exactly as given |
| SearchQueries.BlankIsInvalid | src/GUI/SearchQueriesDialog.py:50-53 | a value that is blank after stripping is rejected |
| SearchQueries.FoldExample | src/GUI/SearchQueriesDialog.py:50 | "Łódź" is stored as "lodz" |
| SearchQueries.ValidatedIsPathText | src/GUI/SearchQueriesDialog.py:76-79 | a validated value holds no '?', '#' or ';', and it passes into a URL path whole exactly when it also holds no tab, carriage return or line feed, which the class admits through `\s` |
| SearchQueries.TabIsValid | src/GUI/SearchQueriesDialog.py:76-79 | "a\tb" passes validation |
| SearchQueries.RowCount | src/GUI/SearchQueriesDialog.py:15-16 | one row per stored query, and the rows Qt may address are exactly those below the count |
| SearchQueries.ColumnCount | src/GUI/SearchQueriesDialog.py:18-19 | there are three columns, and in a non-empty table the addressable columns are exactly those below the count |
| SearchQueries.SetData | src/GUI/SearchQueriesDialog.py:48-64 | accepted exactly for a valid index, the edit role and a normalised value that validates; then only that cell changes and holds the normalised text, otherwise nothing changes |
| SearchQueries.StoredValueIsClean | src/GUI/SearchQueriesDialog.py:50-61 | an accepted value is stored valid and without Polish letters |
| SearchQueries.AddQuery | src/GUI/SearchQueriesDialog.py:66-69 | the row is appended and the count grows by one |
| SearchQueries.RemoveQuery | src/GUI/SearchQueriesDialog.py:71-74 | the row is removed and the later rows move up |
| SearchQueries.AddThenRemove | src/GUI/SearchQueriesDialog.py:66-74 | adding a row and removing it restores the table |
| SearchQueries.AddBlankQuery | src/GUI/SearchQueriesDialog.py:149-152 | the appended row has three empty fields |
| SearchQueries.DeleteSelected | src/GUI/SearchQueriesDialog.py:154-161 | removing the selected rows from the highest index down leaves exactly the unselected rows in order |
| DataFrameView.SortRows | src/GUI/DataFrameModel.py:85 | the sorted rows are a permutation of the rows, ordered on the key column in the chosen direction with missing values last |
| DataFrameView.SetDataFrame | src/GUI/DataFrameModel.py:16-22 | both frames become copies of the data and nothing is recorded as sorted |
| DataFrameView.ResetSorting | src/GUI/DataFrameModel.py:88-91 | the displayed frame becomes the original again |
| DataFrameView.Sort | src/GUI/DataFrameModel.py:64-86 | the requested order is ignored: a new column sorts ascending, the same column goes to descending and then back to the original rows with the state cleared; the saved copy (`_original_dataframe`) is never changed |
| DataFrameView.ThreeClicksRestore | src/GUI/DataFrameModel.py:64-86 | three sorts on a column that is not the sort column restore the original rows and clear the sort state |
| DataFrameView.RowCount | src/GUI/DataFrameModel.py:38-41 | 0 under a valid parent; for the root the displayed frame's rows, which in every reachable state number exactly the rows `setDataFrame` received |
| DataFrameView.ColumnCount | src/GUI/DataFrameModel.py:43-46 | 0 under a valid parent; for the root the displayed frame's columns, which in every reachable state are the columns `setDataFrame` received |
| DataFrameView.SortKeepsCounts | src/GUI/DataFrameModel.py:64-91 | sorting and resetting the sort keep the row and the column count |
| DataFrameView.Data | src/GUI/DataFrameModel.py:48-62 | an invalid or out-of-range index gives nothing; in range, the display role gives text, the value role the raw cell, the dtype role the column's type and any other role nothing; each kind of answer comes only from its own role |
| DataFrameView.DataNothingIff | src/GUI/DataFrameModel.py:48-62 | `data` gives nothing exactly when the index is outside the frame or the role is none of display, value and dtype, and these three roles are distinct |
| DataFrameView.DisplayIsStr | src/GUI/DataFrameModel.py:54-57 | every in-range cell displays as `str(value)`; the link branch returns the same string |
| Spreadsheet.SheetName | src/Exporting/SpreadsheetManager.py:37 | the sheet name is the key's prefix of at most 31 characters, the key itself when it is short enough |
| Spreadsheet.SheetNamesCollide | src/Exporting/SpreadsheetManager.py:35-38 | two labels that agree on their first 31 characters get the same sheet name: the export makes one sheet, the second frame written over the first, or fails with ValueError when that name is refused |
| Spreadsheet.Stored | src/Exporting/SpreadsheetManager.py:38 | an empty text is stored as a cell without a value, any other text as itself |
| Spreadsheet.Written | src/Exporting/SpreadsheetManager.py:38 | a cell is left without a value exactly for a missing value or the empty string; otherwise it holds the value's non-empty text |
| Spreadsheet.WriteFrame | src/Exporting/SpreadsheetManager.py:38 | the sheet has a header row of labels followed by one row per frame row, cell by cell as stored, an empty label or text or a missing value leaving its cell empty |
| Spreadsheet.Overlay | src/Exporting/SpreadsheetManager.py:37-38 | a frame written into a sheet that already has its title replaces the cells it covers, the rest of the sheet showing through |
| Spreadsheet.OverlayCovered | src/Exporting/SpreadsheetManager.py:37-38 | a grid written over one it covers row by row replaces it entirely |
| Spreadsheet.WriteSheetsFails | src/Exporting/SpreadsheetManager.py:35-38 | writing the frames fails exactly when some title is refused as a sheet title, and then with ValueError |
| Spreadsheet.WriteSheetsNames | src/Exporting/SpreadsheetManager.py:35-38 | writing keeps sheet titles distinct, ends with exactly the earlier titles and the frames' titles, and sets no width |
| Spreadsheet.WriteSheetsFresh | src/Exporting/SpreadsheetManager.py:35-38 | with distinct accepted titles new to the workbook, every frame gets a new sheet of its own, in order |
| Spreadsheet.CreateSheets | src/Exporting/SpreadsheetManager.py:29-38 | no frame gives IndexError; otherwise it fails exactly when some truncated key is refused as a title, with ValueError; on success the sheet titles are distinct and are exactly the truncated keys, and with distinct titles sheet i is frame i written out |
| Spreadsheet.ColumnWidth | src/Exporting/SpreadsheetManager.py:80-88 | an empty header leaves the column alone; a link title gives 25; otherwise the width is the longest `str` of the column's cells, header included |
| Spreadsheet.FormatColumns | src/Exporting/SpreadsheetManager.py:73-88 | every column with a header gets its width and no other width changes |
| Spreadsheet.LinkColumnsAreFixed | src/Exporting/SpreadsheetManager.py:80-81 | a written `Item URL` or `Photo` column is 25 wide |
| Spreadsheet.LinkColumnsCells | src/Exporting/SpreadsheetManager.py:61-68 | where the targets are accepted, exactly rows 2..n+1 of each requested column present in the frame become "LINK" with the value as target; every other cell is unchanged |
| Spreadsheet.HyperlinkChecked | src/Exporting/SpreadsheetManager.py:60-67 | one frame's hyperlinking fails with TypeError exactly when a link cell's value is an integer, which openpyxl refuses as a hyperlink; otherwise it gives the linked grid, and an empty frame changes nothing |
| Spreadsheet.HyperlinkOrderIrrelevant | src/Exporting/SpreadsheetManager.py:61 | the result does not depend on the order in which the set of column names is iterated |
| Spreadsheet.HyperlinkSheet | src/Exporting/SpreadsheetManager.py:60 | an empty frame changes no cell |
| Spreadsheet.LinkSheets | src/Exporting/SpreadsheetManager.py:57-67 | the loop over the frames keeps every sheet's name and widths; it fails only with KeyError for a missing sheet or TypeError for a refused target |
| Spreadsheet.ApplyHyperlinking | src/Exporting/SpreadsheetManager.py:50-71 | sheet names and widths are kept; a failure is KeyError or TypeError, and a frame with an integer link target always makes it fail |
| Spreadsheet.BadTargetFails | src/Exporting/SpreadsheetManager.py:64-67 | an integer value in a hyperlinked column of any frame makes the whole loop fail |
| Spreadsheet.LinkSheetsSucceeds | src/Exporting/SpreadsheetManager.py:57-59 | when every frame's truncated key names a sheet, the lookup never raises: the only possible failure is a refused target, and with none the loop succeeds |
| Spreadsheet.LinkSheetsFrom | src/Exporting/SpreadsheetManager.py:57-68 | when frame i finds sheet m + i and every target is accepted, exactly those sheets are rewritten from their frames and the others are untouched |
| Spreadsheet.CreatedSheetsLinked | src/Exporting/SpreadsheetManager.py:57-68 | with distinct truncated keys and no integer link target, linking the created sheets succeeds and rewrites sheet i from frame i |
| Table.FirstIndexAt | src/Exporting/SpreadsheetManager.py:59 | a sheet name that does not occur earlier is found at its own position |
| Spreadsheet.InitializeSpreadsheets | src/Exporting/SpreadsheetManager.py:17-27 | no frame gives IndexError; on success the sheet titles are distinct and exactly the truncated keys, and widths are set only when asked |
| Spreadsheet.InitializeSucceeds | src/Exporting/SpreadsheetManager.py:24-38 | every sheet the hyperlink step looks up was created, so KeyError never arises: the export succeeds exactly when there is a frame, every truncated key is an accepted title and no link target is an integer; it fails with IndexError, ValueError or TypeError in those cases |
| Spreadsheet.EmptyLabelRefused | src/Exporting/SpreadsheetManager.py:35-38 | a frame under the empty label makes the export fail with ValueError |
| Spreadsheet.InitializedSheets | src/Exporting/SpreadsheetManager.py:24-38 | with distinct sheet names, the export succeeds exactly when there is a frame, every title is accepted and no link target is an integer, and then sheet i is frame i written out with its link cells |
| Spreadsheet.LinkFrame | src/formatting.py:35-45 | rewriting keeps the column labels and the shape of every row |
| Spreadsheet.LinkFrameCells | src/spreadsheet_manager.py:36-42 | each value under a requested label becomes `create_hyperlink(str(v), label + ", click to access")` exactly once, and every other value is kept |
| Spreadsheet.LinkFrames | src/formatting.py:35-45 | every stored frame is rewritten and the labels stay |
| Spreadsheet.LegacyInitialize | src/spreadsheet_manager.py:11-22 | no frame gives IndexError and a key refused as a title gives ValueError, exactly then; otherwise, with distinct keys, older sheets are named by the whole key and hold the frames as they were before the in-memory link rewrite; widths are set only when asked |
| DocGeneration.PathJoin | src/generate_docs.py:12 | the joined path ends with the name and, for a relative name, starts with the directory |
| DocGeneration.StripLeadingDots | src/generate_docs.py:17-18 | the result is the input without its leading dots and never starts with a dot |
| DocGeneration.ModuleName | src/generate_docs.py:13-18 | the derived name never starts with a dot and is no longer than the path; when ".py" occurs in the dotted path it is at least three characters shorter, and when it does not the name is the dotted path without its leading dots |
| DocGeneration.NamesAgree | src/generate_docs.py:13 | the name as written and the intended name coincide whenever ".py" occurs in the dotted path only as the final extension, or not at all |
| DocGeneration.RemoveFinalPy | src/generate_docs.py:13 | `.replace(".py", "")` deletes just the extension from a string in which ".py" occurs only at its end |
| DocGeneration.PyPrefixLost | src/generate_docs.py:13 | `./pyx.py` gets the module name "x" instead of "pyx" |
| DocGeneration.IntendedNameOfTopFile | src/generate_docs.py:13-18 | with only the extension removed, a file directly under "." is named by its file name without ".py" |
| DocGeneration.PackagePathExample | src/generate_docs.py:13-18 | `./Scraping/Scraper.py` becomes `Scraping.Scraper` under both rules |
| DocGeneration.DocPath | src/generate_docs.py:24 | the page path ends with `<module>.html` |
| DocGeneration.Document | src/generate_docs.py:13-28 | the outcome carries the module name of the chosen rule, line 13 as written or the intended one, and a page is written at `<docs>/<module>.html` exactly when that module can be imported |
| DocGeneration.GenerateDocs | src/generate_docs.py:9-11 | the walk gives exactly one outcome per `.py` file it visits |
| DocGeneration.DocumentFilesInOrder | src/generate_docs.py:10-28 | within one directory, outcome i documents the directory's i-th `.py` file |
| DocGeneration.GenerateDocsInOrder | src/generate_docs.py:9-28 | outcome i documents the walk's i-th `.py` file, so every such file is documented or reported, in walk order |
| DocGeneration.FailuresDoNotStop | src/generate_docs.py:22-28 | which modules fail changes neither the number of outcomes nor their module names |

## Left out

- Network, `aiohttp` sessions and `asyncio`: fetches are a function from URL to response. The timing of concurrent fetches is not modelled, so a failing scrape reports the error of the first failing query in list order. Likewise `listings_counts` is modelled in list order, while under `asyncio.gather` each count is appended when its fetch reaches `find_count`, in completion order. Any further rewriting of the URL by `aiohttp` is not modelled.
- HTML parsing: BeautifulSoup is replaced by cards whose parts are present or absent.
- Regular expressions: the three fixed patterns are hand-written matchers. `\s` and `\d` are their ASCII members. Case mapping covers ASCII and the nine Polish letters only. `str.strip` is modelled with ASCII white space too, while Python also strips Unicode white space such as U+00A0.
- Clock and locale: `datetime.now()` with the `pl_PL` month names is an input string. `locale.setlocale(LC_ALL, 'pl_PL')` (src/Exporting/formatting.py:19, src/formatting.py:21, src/utils.py:17) raises `locale.Error` where that locale is not installed, which would fail every card dated "dzisiaj" and with it the whole scrape; it also changes process-wide state. Neither is modelled: the call is taken to succeed.
- File I/O: the configuration file, `last_scrape.json` and the Excel file are values. `os.makedirs`, `print` and message boxes are left out.
- openpyxl styles: the "Hyperlink" style is not modelled.
- Workbook sheet names: titles are compared exactly. openpyxl also treats titles that differ only in letter case as duplicates: it renames the new sheet with a number, and the later case-sensitive `workbook[name]` then raises KeyError. That renaming is not modelled.
- The dtype role of `data`: it returns the column index instead of a pandas dtype.
- `headerData`, `flags` and the table `data` of the query editor: display-only code is not modelled.
- Export dispatch, the CSV/JSON/XML/PDF writers, and the remaining Qt windows and dialogs: these are not part of this model.
- `src/Resources/utils.py`, `src/main.py` and the tests file: these are not part of this model.
- DataFrameView.SortRows: pandas' sort algorithm, its stability, and mixed integer/string columns (pandas raises there) are not modelled. Integers order before strings, and rows with equal keys may come in any order a stable insertion gives.
- DataFrameView.Sort: frames with duplicate column labels are not modelled.
- DataFrameView.SetDataFrame: models `setDataFrame` only. The constructor (src/GUI/DataFrameModel.py:9-14) keeps the caller's frame itself as the displayed frame, uncopied, and src/GUI/MainWindow.py:112 passes the scraper's own frame; the first in-place sort then reorders the scraper's frame, and resetting the sort leaves it reordered. The model has no shared frames, so this aliasing is not modelled.
- UrlJoin.SiteGetUrl: defined for URLs that begin with `https://www.olx.pl/`, the only ones the scrapers build; `geturl` of other URLs is not modelled.
- UrlBuilder.FromConfig: Python accepts a null or numeric `item_query`, or a numeric city, when the descriptor is built, and raises AttributeError only when the URL is built. The model rejects such a row already when it is built.
- SearchQueries.SetData: requires an index inside the table, as Qt only passes those.
- Spreadsheet.LinkFrame: applying `df.apply(axis=1)` to a frame without rows is modelled as leaving it unchanged. The pandas result for that case is not modelled.
- Spreadsheet.InitializeSpreadsheets: the written cells keep Python's types as text, so an integer price is written as its decimal string.
- DocGeneration.PathJoin: only POSIX separators are modelled.
- Scraper.ResolveUrl: `urljoin` follows `urllib.parse` of Python 3.12. Its ValueError for a malformed IPv6 host or a network location that NFKC normalisation changes is not modelled. Parameters after `;` are split off only for `https`, the base's scheme.
- Scraper.ResolveUrl: for an `https` reference the contract states only that the result is an `https` URL, under the base when the reference names no host. Exact results are stated for chosen shapes of reference by the `UrlJoin` lemmas.
- Scraper.ResolveUrlStable: proved for a missing or empty href and for references under another scheme only. For a resolved `https` URL it needs a path without dot segments, which `UrlJoin.AbsoluteUrlKept` covers for plain hosts and paths.
- Scraper.UpdateUrlList: Python accepts a null or numeric `item_query`, or a numeric city, when a descriptor is built, and fails only later in `build_url`. The model rejects such an entry already here and leaves the list unchanged.
- Spreadsheet.HyperlinkChecked: openpyxl's TypeError is modelled for integer targets only. Floating-point cells are not part of the cell model, and a missing value is accepted as no hyperlink.
- Spreadsheet.LinkSheetsFrom: stated for a linker that accepts every frame. A refused target is covered by `Spreadsheet.BadTargetFails`.

## Findings

| source | as written | input that shows it | evidently intended | confidence | as-written member | corrected member |
|---|---|---|---|---|---|---|
| src/generate_docs.py:13 | `.replace(".py", "")` deletes every ".py" in the dotted path, and a path component that starts with "py" follows a separator that has become a dot | `./pyx.py` gives module "x" (also `./pytest_utils.py` gives "test_utils") | drop only the final ".py" extension | high, not executed | DocGeneration.PyPrefixLost | DocGeneration.IntendedNameOfTopFile |

`DocGeneration.GenerateDocs` takes the naming rule as a parameter: `AsWritten` follows line 13
(`DocGeneration.ModuleName`) and `Intended` uses the corrected name
(`DocGeneration.IntendedModuleName`). `DocGeneration.NamesAgree` shows that the two rules give the
same name whenever ".py" occurs only as the extension.

=== FILE: config.dfy ===
/** One entry of the `search_queries` list of the JSON configuration, as the
    query editor and the scraper both see it: a dictionary with the keys
    `item_query`, `city` and `distance`, each of which may be missing. */
module Config {

  /** The value stored under one key of a query dictionary. */
  datatype Field =
    | Absent            // key not present
    | Null              // JSON null / Python None
    | Str(s: string)
    | Int(i: int)

  datatype QueryRow = QueryRow(itemQuery: Field, city: Field, distance: Field)

  /** The row the query editor appends: every field the empty string. */
  const BlankRow: QueryRow := QueryRow(Str(""), Str(""), Str(""))
}

=== FILE: dataframe_model.dfy ===
/** The results table of `GUI/DataFrameModel.py`: the frame on display, a
    copy of it as it arrived, and the three-step sort cycle per column
    (ascending, descending, back to the arrival order). */
module DataFrameView {
  import opened Wrappers
  import opened Table

  // ---------------------------------------------------------------------
  // Ordering cells

  /** Code-point order on strings, as Python compares `str`. */
  predicate StrLe(a: string, b: string)
    decreases |a|
  {
    |a| == 0 || (|b| > 0 && (a[0] < b[0] || (a[0] == b[0] && StrLe(a[1..], b[1..]))))
  }

  lemma {:induction false} StrLeTotal(a: string, b: string)
    decreases |a|
    ensures StrLe(a, b) || StrLe(b, a)
  {
    if |a| > 0 && |b| > 0 && a[0] == b[0] {
      StrLeTotal(a[1..], b[1..]);
    }
  }

  /** The order of present values: numbers by value, strings by code point;
      numbers are put before strings. */
  predicate ValueLe(a: Cell, b: Cell)
    requires !a.NullCell? && !b.NullCell?
  {
    match (a, b)
    case (IntCell(x), IntCell(y)) => x <= y
    case (IntCell(_), StrCell(_)) => true
    case (StrCell(_), IntCell(_)) => false
    case (StrCell(x), StrCell(y)) => StrLe(x, y)
  }

  datatype Order = Ascending | Descending

  /** `sort_values(ascending=...)` compares present values in the chosen
      direction and puts missing values last in both directions. */
  predicate KeyLe(a: Cell, b: Cell, order: Order) {
    if b.NullCell? then true
    else if a.NullCell? then false
    else if order == Ascending then ValueLe(a, b) else ValueLe(b, a)
  }

  lemma KeyLeTotal(a: Cell, b: Cell, order: Order)
    ensures KeyLe(a, b, order) || KeyLe(b, a, order)
  {
    if a.StrCell? && b.StrCell? {
      StrLeTotal(a.s, b.s);
    }
  }

  // ---------------------------------------------------------------------
  // Sorting rows by one column

  /** Every row has a cell in column `col`. */
  predicate HasColumn(rows: seq<seq<Cell>>, col: nat) {
    forall i :: 0 <= i < |rows| ==> col < |rows[i]|
  }

  /** Neighbouring rows are in order on column `col`. */
  predicate SortedOn(rows: seq<seq<Cell>>, col: nat, order: Order)
    requires HasColumn(rows, col)
  {
    forall i :: 0 <= i < |rows| - 1 ==> KeyLe(rows[i][col], rows[i + 1][col], order)
  }

  function Insert(row: seq<Cell>, rows: seq<seq<Cell>>, col: nat, order: Order): (r: seq<seq<Cell>>)
    requires col < |row| && HasColumn(rows, col) && SortedOn(rows, col, order)
    ensures HasColumn(r, col) && SortedOn(r, col, order)
    ensures multiset(r) == multiset(rows) + multiset{row}
    ensures |r| == |rows| + 1
    ensures r[0] == row || (|rows| > 0 && r[0] == rows[0])
  {
    if |rows| == 0 then [row]
    else if KeyLe(row[col], rows[0][col], order) then [row] + rows
    else
      KeyLeTotal(row[col], rows[0][col], order);
      var rest := Insert(row, rows[1..], col, order);
      assert rows == [rows[0]] + rows[1..];
      [rows[0]] + rest
  }

  /** `sort_values(by=column)`: the same rows, ordered on the column. */
  function SortRows(rows: seq<seq<Cell>>, col: nat, order: Order): (r: seq<seq<Cell>>)
    requires HasColumn(rows, col)
    ensures HasColumn(r, col) && SortedOn(r, col, order)
    ensures multiset(r) == multiset(rows)
  {
    if |rows| == 0 then []
    else
      assert rows == [rows[0]] + rows[1..];
      Insert(rows[0], SortRows(rows[1..], col, order), col, order)
  }

  // ---------------------------------------------------------------------
  // The view state

  datatype ViewState = ViewState(current: Frame, original: Frame, lastColumn: Option<nat>, order: Option<Order>)

  /** What every reachable state satisfies: both frames have the same
      columns and the same rows up to order, and a sort column is recorded
      exactly when a direction is. */
  predicate Valid(st: ViewState) {
    WellShaped(st.current) && WellShaped(st.original)
    && st.current.columns == st.original.columns
    && multiset(st.current.rows) == multiset(st.original.rows)
    && (st.lastColumn.None? <==> st.order.None?)
    && (st.lastColumn.Some? ==> st.lastColumn.value < |st.current.columns|)
  }

  /** `setDataFrame`: both frames become copies of the data and nothing is
      sorted. */
  function SetDataFrame(f: Frame): (r: ViewState)
    requires WellShaped(f)
    ensures Valid(r) && r.current == f && r.original == f
    ensures r.lastColumn.None? && r.order.None?
  {
    ViewState(f, f, None, None)
  }

  /** `reset_sorting`: the displayed frame becomes a copy of the original. */
  function ResetSorting(st: ViewState): (r: ViewState)
    ensures r.current == st.original && r.original == st.original
    ensures r.lastColumn == st.lastColumn && r.order == st.order
  {
    st.(current := st.original)
  }

  lemma WellShapedRows(f: Frame, col: nat)
    requires WellShaped(f) && col < |f.columns|
    ensures HasColumn(f.rows, col)
  {
  }

  /** `sort(column, order)`. The requested order is ignored: a new column is
      sorted ascending; the same column again goes ascending -> descending
      -> back to the original rows with nothing recorded. */
  function Sort(st: ViewState, column: nat, requested: Order): (r: ViewState)
    requires Valid(st) && column < |st.current.columns|
    ensures Valid(r)
    ensures r.original == st.original
    ensures st.lastColumn != Some(column) ==> r.lastColumn == Some(column) && r.order == Some(Ascending)
    ensures st.lastColumn == Some(column) && st.order == Some(Ascending) ==>
              r.lastColumn == Some(column) && r.order == Some(Descending)
    ensures st.lastColumn == Some(column) && st.order == Some(Descending) ==>
              r.current == st.original && r.lastColumn.None? && r.order.None?
    ensures r.order.Some? ==> r.current.columns == st.current.columns
                              && multiset(r.current.rows) == multiset(st.current.rows)
                              && HasColumn(r.current.rows, column)
                              && SortedOn(r.current.rows, column, r.order.value)
  {
    WellShapedRows(st.current, column);
    if st.lastColumn == Some(column) && st.order == Some(Descending) then
      ResetSorting(st).(lastColumn := None, order := None)
    else
      var ord := if st.lastColumn == Some(column) && st.order == Some(Ascending) then Descending else Ascending;
      var rows := SortRows(st.current.rows, column, ord);
      assert forall i :: 0 <= i < |rows| ==> rows[i] in multiset(st.current.rows);
      ViewState(st.current.(rows := rows), st.original, Some(column), Some(ord))
  }

  /** Three clicks on a column that is not the sort column restore the
      arrival order and clear the sort state. */
  lemma ThreeClicksRestore(st: ViewState, column: nat, o1: Order, o2: Order, o3: Order)
    requires Valid(st) && column < |st.current.columns|
    requires st.lastColumn != Some(column)
    ensures var s1 := Sort(st, column, o1);
            var s2 := Sort(s1, column, o2);
            var s3 := Sort(s2, column, o3);
            s3.current == st.original && s3.lastColumn.None? && s3.order.None?
  {
  }

  // ---------------------------------------------------------------------
  // Counts and cell data

  /** `rowCount(parent)`: the frame's rows for the root, 0 under a valid
      parent (the table has no children). Sorting only reorders rows, so in
      every reachable state this is the number of rows that arrived. */
  function RowCount(st: ViewState, parentValid: bool): (r: nat)
    ensures parentValid ==> r == 0
    ensures !parentValid ==> r == |st.current.rows|
    ensures Valid(st) && !parentValid ==> r == |st.original.rows|
  {
    if parentValid then 0
    else
      assert |multiset(st.current.rows)| == |st.current.rows|;
      |st.current.rows|
  }

  /** `columnCount(parent)`: the frame's columns for the root, 0 under a
      valid parent; in every reachable state these are the arrived columns. */
  function ColumnCount(st: ViewState, parentValid: bool): (r: nat)
    ensures parentValid ==> r == 0
    ensures !parentValid ==> r == |st.current.columns|
    ensures Valid(st) && !parentValid ==> r == |st.original.columns|
  {
    if parentValid then 0 else |st.current.columns|
  }

  /** Sorting and resetting change neither count: the table keeps its
      shape through the whole sort cycle. */
  lemma SortKeepsCounts(st: ViewState, column: nat, requested: Order)
    requires Valid(st) && column < |st.current.columns|
    ensures RowCount(Sort(st, column, requested), false) == RowCount(st, false)
    ensures ColumnCount(Sort(st, column, requested), false) == ColumnCount(st, false)
    ensures RowCount(ResetSorting(st), false) == RowCount(st, false)
    ensures ColumnCount(ResetSorting(st), false) == ColumnCount(st, false)
  {
    var r := Sort(st, column, requested);
    assert RowCount(r, false) == |r.original.rows|;
    assert RowCount(st, false) == |st.original.rows|;
    assert ResetSorting(st).current == st.original;
  }

  datatype Index = NoIndex | At(row: int, column: int)

  const DisplayRole: int := 0
  const DtypeRole: int := 0x100 + 1000
  const ValueRole: int := 0x100 + 1001

  /** What `data` returns: an empty variant, a display string, the raw
      value, or the dtype of a column. */
  datatype DataResult = NoData | Display(text: string) | Value(cell: Cell) | Dtype(column: nat)

  predicate IsUrl(s: string) {
    (|s| >= 7 && s[..7] == "http://") || (|s| >= 8 && s[..8] == "https://")
  }

  /** `data(index, role)`: nothing for an invalid or out-of-range index;
      otherwise the cell's text for the display role, the raw cell for the
      value role, the column's dtype for the dtype role and nothing for any
      other role. */
  function Data(st: ViewState, index: Index, role: int): (r: DataResult)
    requires WellShaped(st.current)
    ensures index.NoIndex? ==> r == NoData
    ensures index.At? && !(0 <= index.row < |st.current.rows| && 0 <= index.column < |st.current.columns|) ==> r == NoData
    ensures InRange(st, index) && role == ValueRole ==> r == Value(st.current.rows[index.row][index.column])
    ensures InRange(st, index) && role == DtypeRole ==> r == Dtype(index.column)
    ensures InRange(st, index) && role !in {DisplayRole, ValueRole, DtypeRole} ==> r == NoData
    ensures r.Display? ==> role == DisplayRole && InRange(st, index)
    ensures r.Value? ==> role == ValueRole
    ensures r.Dtype? ==> role == DtypeRole
  {
    match index
    case NoIndex => NoData
    case At(row, column) =>
      if !(0 <= row < RowCount(st, false) && 0 <= column < ColumnCount(st, false)) then NoData
      else
        var v := st.current.rows[row][column];
        if role == DisplayRole then
          if v.StrCell? && IsUrl(v.s) then Display(v.s) else Display(Render(v))
        else if role == ValueRole then Value(v)
        else if role == DtypeRole then Dtype(column)
        else NoData
  }

  /** A valid index inside the displayed frame. */
  predicate InRange(st: ViewState, index: Index) {
    index.At? && 0 <= index.row < |st.current.rows| && 0 <= index.column < |st.current.columns|
  }

  /** `data` answers with nothing exactly for an index outside the frame or
      a role it does not serve; the three roles it serves never collide. */
  lemma DataNothingIff(st: ViewState, index: Index, role: int)
    requires WellShaped(st.current)
    ensures Data(st, index, role) == NoData <==> !InRange(st, index) || role !in {DisplayRole, ValueRole, DtypeRole}
    ensures DisplayRole != ValueRole && ValueRole != DtypeRole && DisplayRole != DtypeRole
  {
  }

  /** The link case of the display rule changes nothing: `str` of a string
      is the string, so every in-range cell displays as `str(value)`. */
  lemma DisplayIsStr(st: ViewState, row: int, column: int)
    requires WellShaped(st.current)
    requires 0 <= row < |st.current.rows| && 0 <= column < |st.current.columns|
    ensures Data(st, At(row, column), DisplayRole) == Display(Render(st.current.rows[row][column]))
  {
  }
}

=== FILE: formatting.dfy ===
/** Field normalisation of a scraped listing (`Exporting/formatting.py`) and
    the older string-only variants kept in `utils.py` and `formatting.py`,
    with the spreadsheet formula they use for links. The wall clock is not
    modelled: the already formatted current date is passed in as `today`. */
module Formatting {
  import opened Wrappers
  import opened Text

  const Negotiable: string := "do negocjacji"
  const FieldSep: string := " - "
  const TodayWord: string := "dzisiaj"

  lemma NegotiableHasNoDigits()
    ensures Digits(Negotiable) == ""
  {
    DigitsOfNonDigits(Negotiable);
  }

  // ---------------------------------------------------------------------
  // Price

  /** `format_price`: the phrase "do negocjacji" is removed, the rest is
      stripped, every non-digit is dropped and the digits are read as a
      decimal number (0 when none are left). Only the digits of the input
      matter: the result is the value of all its digits, in order. */
  function FormatPrice(price: string): (r: nat)
    ensures r == DecimalValue(Digits(price))
  {
    var cleaned := Strip(RemoveAll(price, Negotiable));
    var ds := Digits(cleaned);
    NegotiableHasNoDigits();
    DigitsRemoveAll(price, Negotiable);
    DigitsStrip(RemoveAll(price, Negotiable));
    if |ds| == 0 then 0 else DecimalValue(ds)
  }

  /** Printing a cleaned price and cleaning it again changes nothing. */
  lemma FormatPriceIdempotent(price: string)
    ensures FormatPrice(NatToString(FormatPrice(price))) == FormatPrice(price)
  {
    var n := FormatPrice(price);
    DigitsOfDigits(NatToString(n));
    DecimalValueOfNatToString(n);
  }

  lemma FormatPriceExamples()
    ensures FormatPrice("do negocjacji") == 0
    ensures FormatPrice("") == 0
  {
    NegotiableHasNoDigits();
  }

  /** "1 200" followed by any digit-free qualifier, such as
      " do negocjacji zł", is worth 1200. */
  lemma ThousandsExample(qualifier: string)
    requires Digits(qualifier) == ""
    ensures FormatPrice("1 200" + qualifier) == 1200
  {
    var p := "1 200" + qualifier;
    ThousandsDigits(qualifier);
    assert FormatPrice(p) == DecimalValue(Digits(p));
  }

  lemma ThousandsDigits(qualifier: string)
    requires Digits(qualifier) == ""
    ensures Digits("1 200" + qualifier) == "1200"
    ensures DecimalValue("1200") == 1200
  {
    DigitsAppend("1 200", qualifier);
    assert Digits("1 200") == "1200";
    assert "1200"[..3] == "120";
    assert "120"[..2] == "12";
    assert "12"[..1] == "1";
    assert "1"[..0] == "";
  }

  lemma QualifierHasNoDigits()
    ensures Digits(" do negocjacji zł") == ""
  {
    assert " do negocjacji zł" == " " + (Negotiable + " zł");
    DigitsAppend(" ", Negotiable + " zł");
    DigitsAppend(Negotiable, " zł");
    NegotiableHasNoDigits();
  }

  // ---------------------------------------------------------------------
  // Location and date

  /** The date itself, or `today` when it contains "dzisiaj" in any case. */
  function ResolveToday(date: string, today: string): (r: string)
    ensures r == today || r == date
    ensures MentionsToday(date) ==> r == today
    ensures !MentionsToday(date) ==> r == date
  {
    MentionsTodayIff(date);
    if Contains(Lower(date), TodayWord) then today else date
  }

  /** Some stretch of the date reads "dzisiaj" once its letters are
      lower-cased. */
  predicate MentionsToday(date: string) {
    exists i :: 0 <= i <= |date| && TodayAt(date, i)
  }

  predicate TodayAt(date: string, i: int) {
    0 <= i && i + |TodayWord| <= |date| && Lower(date[i..i + |TodayWord|]) == TodayWord
  }

  /** Searching the lower-cased date is the same as lower-casing each
      stretch of it. */
  lemma MentionsTodayIff(date: string)
    ensures Contains(Lower(date), TodayWord) <==> MentionsToday(date)
  {
    var low := Lower(date);
    if Contains(low, TodayWord) {
      var i := IndexOf(low, TodayWord).value;
      LowerSlice(date, i, i + |TodayWord|);
      assert TodayAt(date, i);
    }
    if MentionsToday(date) {
      var i :| 0 <= i <= |date| && TodayAt(date, i);
      LowerSlice(date, i, i + |TodayWord|);
      assert OccursAt(low, TodayWord, i);
    }
  }

  lemma LowerSlice(s: string, i: nat, j: nat)
    requires i <= j <= |s|
    ensures Lower(s)[i..j] == Lower(s[i..j])
  {
  }

  /** The today rule ignores case: a date and its lower-cased form are
      resolved the same way. */
  lemma TodayRuleIgnoresCase(date: string, today: string)
    ensures MentionsToday(date) <==> MentionsToday(Lower(date))
    ensures (ResolveToday(date, today) == today && ResolveToday(Lower(date), today) == today)
            || (ResolveToday(date, today) == date && ResolveToday(Lower(date), today) == Lower(date))
  {
    MentionsTodayIff(date);
    MentionsTodayIff(Lower(date));
    LowerIdempotent(date);
  }

  /** `format_location_date` (`Exporting/formatting.py`, and the identical
      function in the older `formatting.py`): the text is split on " - ";
      the first part is the location, the second the date, and any further
      parts are ignored. Fewer than two parts make the tuple unpacking fail. */
  function FormatLocationDate(s: string, today: string): (r: Result<(string, string)>)
    ensures r.Ok? <==> Contains(s, FieldSep)
    ensures r.Err? ==> r.error == ValueError
    ensures r.Ok? ==> var i := IndexOf(s, FieldSep).value;
                      var raw := Split(s[i + |FieldSep|..], FieldSep)[0];
                      r.value.0 == s[..i] && r.value.1 == ResolveToday(raw, today)
  {
    var parts := Split(s, FieldSep);
    if |parts| < 2 then Err(ValueError)
    else Ok((parts[0], ResolveToday(parts[1], today)))
  }

  /** The location is exactly the text before the first separator, and it
      contains no separator itself. */
  lemma LocationIsFirstField(s: string, today: string)
    requires FormatLocationDate(s, today).Ok?
    ensures var loc := FormatLocationDate(s, today).value.0;
            StartsWith(s, loc + FieldSep) && !Contains(loc, FieldSep)
  {
    var i := IndexOf(s, FieldSep).value;
    var loc := s[..i];
    assert s[..i + |FieldSep|] == loc + FieldSep;
    assert Split(s, FieldSep)[0] == loc;
  }

  /** A location without spaces followed by a date without hyphens. */
  lemma SimpleLocationDate(loc: string, date: string, today: string)
    requires forall i :: 0 <= i < |loc| ==> loc[i] != ' '
    requires forall i :: 0 <= i < |date| ==> date[i] != '-'
    ensures FormatLocationDate(loc + FieldSep + date, today) == Ok((loc, ResolveToday(date, today)))
  {
    var s := loc + FieldSep + date;
    FirstOccurrenceAt(loc, FieldSep, date);
    AbsentCharNotContained(date, FieldSep, 1);
    assert s[..|loc|] == loc;
    assert s[|loc| + |FieldSep|..] == date;
    assert Split(date, FieldSep) == [date];
  }

  /** "Dzisiaj ..." is today; "10 marca 2024" passes through unchanged.
      With `SimpleLocationDate` these give the results for
      "Legnica - Dzisiaj o 12:30" and "Legnica - 10 marca 2024". */
  lemma TodayExamples()
    ensures ResolveToday("Dzisiaj o 12:30", "15 marca 2024") == "15 marca 2024"
    ensures ResolveToday("10 marca 2024", "15 marca 2024") == "10 marca 2024"
  {
    assert OccursAt(Lower("Dzisiaj o 12:30"), TodayWord, 0);
    AbsentCharNotContained(Lower("10 marca 2024"), TodayWord, 1);
  }

  lemma NoSeparatorExample()
    ensures FormatLocationDate("Legnica", "15 marca 2024") == Err(ValueError)
  {
    AbsentCharNotContained("Legnica", FieldSep, 1);
  }

  /** `utils.format_location_date`: the split must yield exactly two parts. */
  function FormatLocationDateStrict(s: string, today: string): (r: Result<(string, string)>)
    ensures r.Ok? <==> Contains(s, FieldSep) && !Contains(s[IndexOf(s, FieldSep).value + |FieldSep|..], FieldSep)
    ensures r.Err? ==> r.error == ValueError
  {
    var parts := Split(s, FieldSep);
    if |parts| != 2 then Err(ValueError)
    else Ok((parts[0], ResolveToday(parts[1], today)))
  }

  /** Whenever the strict variant succeeds it agrees with the current one,
      which also accepts texts with more than one separator. */
  lemma StrictAgreesWhenDefined(s: string, today: string)
    ensures FormatLocationDateStrict(s, today).Ok? ==> FormatLocationDateStrict(s, today) == FormatLocationDate(s, today)
    ensures FormatLocationDateStrict(s, today).Ok? ==> FormatLocationDate(s, today).Ok?
  {
  }

  // ---------------------------------------------------------------------
  // The older string-only price

  /** `format_price` of `utils.py` and of the older `formatting.py`: the
      phrase "do negocjacji" is deleted and nothing else changes (no strip,
      no digit extraction). */
  function LegacyFormatPrice(price: string): (r: string)
    ensures !Contains(price, Negotiable) ==> r == price
    ensures Contains(price, Negotiable) ==> |r| + |Negotiable| <= |price|
    ensures Contains(price, Negotiable) ==> var i := IndexOf(price, Negotiable).value;
                                           r == price[..i] + RemoveAll(price[i + |Negotiable|..], Negotiable)
    ensures Digits(r) == Digits(price)
  {
    NegotiableHasNoDigits();
    DigitsRemoveAll(price, Negotiable);
    if Contains(price, Negotiable) then RemoveAll(price, Negotiable) else price
  }

  /** An amount followed by the phrase, where the amount has no "d", loses
      the phrase and keeps every other character, the trailing space
      included. */
  lemma LegacyPriceDropsPhrase(amount: string)
    requires forall i :: 0 <= i < |amount| ==> amount[i] != 'd'
    ensures LegacyFormatPrice(amount + Negotiable) == amount
  {
    RemoveTrailing(amount, Negotiable);
    FirstOccurrenceAt(amount, Negotiable, "");
    assert amount + Negotiable + "" == amount + Negotiable;
  }

  lemma LegacyPriceExample()
    ensures LegacyFormatPrice("100 zł do negocjacji") == "100 zł "
  {
    assert "100 zł do negocjacji" == "100 zł " + Negotiable;
    LegacyPriceDropsPhrase("100 zł ");
  }

  /** The current integer price is the value of the digits the legacy
      string price keeps. */
  lemma PriceVersionsAgree(price: string)
    ensures FormatPrice(price) == DecimalValue(Digits(LegacyFormatPrice(price)))
  {
  }

  // ---------------------------------------------------------------------
  // Spreadsheet link formula

  const FormulaOpen: string := "=HYPERLINK(\""
  const FormulaMid: string := "\", \""
  const FormulaClose: string := "\")"

  /** `create_hyperlink(url, name)` of `utils.py` and `formatting.py`: an
      Excel HYPERLINK formula; nothing is escaped. */
  function CreateHyperlink(url: string, name: string): (r: string)
    ensures StartsWith(r, FormulaOpen) && EndsWith(r, FormulaClose)
    ensures |r| == |url| + |name| + 18
  {
    ConcatStartsWith(FormulaOpen, url + FormulaMid + name + FormulaClose);
    ConcatEndsWith(FormulaOpen + url + FormulaMid + name, FormulaClose);
    assert FormulaOpen + (url + FormulaMid + name + FormulaClose) == FormulaOpen + url + FormulaMid + name + FormulaClose;
    FormulaOpen + url + FormulaMid + name + FormulaClose
  }

  /** Reads a formula back into its target and display text: the target
      ends at the first `", "`. */
  function ParseHyperlink(f: string): Option<(string, string)> {
    if |f| < |FormulaOpen| + |FormulaClose| || !StartsWith(f, FormulaOpen) || !EndsWith(f, FormulaClose) then None
    else
      var body := f[|FormulaOpen|..|f| - |FormulaClose|];
      match IndexOf(body, FormulaMid)
      case None => None
      case Some(i) => Some((body[..i], body[i + |FormulaMid|..]))
  }

  /** A target without a double quote survives the round trip. */
  lemma HyperlinkRoundTrip(url: string, name: string)
    requires forall k :: 0 <= k < |url| ==> url[k] != '"'
    ensures ParseHyperlink(CreateHyperlink(url, name)) == Some((url, name))
  {
    var f := CreateHyperlink(url, name);
    var body := url + FormulaMid + name;
    assert f == FormulaOpen + body + FormulaClose;
    assert f[|FormulaOpen|..|f| - |FormulaClose|] == body;
    assert OccursAt(body, FormulaMid, |url|) by {
      assert body[|url|..|url| + |FormulaMid|] == FormulaMid;
    }
    FirstOccurrenceAt(url, FormulaMid, name);
    assert body[..|url|] == url;
    assert body[|url| + |FormulaMid|..] == name;
  }

  /** Without escaping, a quote in the target makes two different links
      produce the same formula. */
  lemma HyperlinkNotInjective()
    ensures CreateHyperlink("a\", \"b", "c") == CreateHyperlink("a", "b\", \"c")
  {
  }
}

=== FILE: generate_docs.dfy ===
/** The documentation script `generate_docs.py`: it walks the source tree,
    derives a dotted module name from each `.py` path, and writes one HTML
    page per module, going on past modules that fail. The directory walk,
    the import and the HTML rendering are inputs; only the names are
    computed. Paths use `/` as `os.sep`. */
module DocGeneration {
  import opened Wrappers
  import opened Text

  const PySuffix: string := ".py"
  const HtmlSuffix: string := ".html"

  /** `os.path.join(root, name)` on POSIX: an absolute `name` wins;
      otherwise one `/` is put between unless `root` is empty or already
      ends in `/`. */
  function PathJoin(root: string, name: string): (r: string)
    ensures EndsWith(r, name)
    ensures |name| > 0 && name[0] == '/' ==> r == name
    ensures (|name| == 0 || name[0] != '/') ==> StartsWith(r, root)
  {
    if |name| > 0 && name[0] == '/' then name
    else if |root| == 0 || root[|root| - 1] == '/' then
      ConcatEndsWith(root, name);
      ConcatStartsWith(root, name);
      root + name
    else
      ConcatEndsWith(root + "/", name);
      assert (root + "/" + name)[..|root|] == root;
      root + "/" + name
  }

  /** `path.replace(os.sep, ".")`. */
  function DotSeparators(path: string): (r: string)
    ensures |r| == |path|
    ensures forall i :: 0 <= i < |path| ==> r[i] == (if path[i] == '/' then '.' else path[i])
  {
    seq(|path|, i requires 0 <= i < |path| => if path[i] == '/' then '.' else path[i])
  }

  /** `while name.startswith("."): name = name[1:]`. */
  function StripLeadingDots(s: string): (r: string)
    ensures |r| <= |s| && r == s[|s| - |r|..]
    ensures forall i :: 0 <= i < |s| - |r| ==> s[i] == '.'
    ensures |r| == 0 || r[0] != '.'
  {
    if |s| > 0 && s[0] == '.' then
      var r := StripLeadingDots(s[1..]);
      assert s[1..][|s| - 1 - |r|..] == s[|s| - |r|..];
      r
    else s
  }

  /** The name as line 13 computes it: every occurrence of ".py" is
      deleted, not only the extension, so a directory or module whose name
      starts with "py" loses those letters. */
  function ModuleName(path: string): (r: string)
    ensures |r| == 0 || r[0] != '.'
    ensures |r| <= |path|
    ensures Contains(DotSeparators(path), PySuffix) ==> |r| + |PySuffix| <= |path|
    ensures !Contains(DotSeparators(path), PySuffix) ==> r == StripLeadingDots(DotSeparators(path))
  {
    StripLeadingDots(RemoveAll(DotSeparators(path), PySuffix))
  }

  /** The evidently intended name: separators become dots and only the
      final ".py" goes. */
  function IntendedModuleName(path: string): (r: string)
    ensures |r| == 0 || r[0] != '.'
  {
    var dotted := DotSeparators(path);
    if EndsWith(path, PySuffix) then StripLeadingDots(dotted[..|dotted| - |PySuffix|])
    else StripLeadingDots(dotted)
  }

  /** Which of the two module-name rules a run of the script follows. */
  datatype Naming = AsWritten | Intended

  function NameOf(naming: Naming, path: string): string {
    match naming
    case AsWritten => ModuleName(path)
    case Intended => IntendedModuleName(path)
  }

  /** The two rules give the same name whenever ".py" occurs in the dotted
      path only as the extension, or not at all. */
  lemma NamesAgree(path: string)
    requires EndsWith(path, PySuffix) ==> !Contains(DotSeparators(path)[..|path| - |PySuffix|], PySuffix)
    requires !EndsWith(path, PySuffix) ==> !Contains(DotSeparators(path), PySuffix)
    ensures ModuleName(path) == IntendedModuleName(path)
  {
    var dotted := DotSeparators(path);
    if EndsWith(path, PySuffix) {
      assert dotted[|path| - 3..] == path[|path| - 3..];
      RemoveFinalPy(dotted);
    }
  }

  /** Deleting every ".py" from a string in which ".py" occurs only at the
      end deletes just the extension. */
  lemma RemoveFinalPy(dotted: string)
    requires |dotted| >= 3 && dotted[|dotted| - 3..] == PySuffix
    requires !Contains(dotted[..|dotted| - 3], PySuffix)
    ensures RemoveAll(dotted, PySuffix) == dotted[..|dotted| - 3]
  {
    var stem := dotted[..|dotted| - 3];
    OnlyAtEnd(dotted, stem);
    SplitAt(dotted, PySuffix, |dotted| - 3);
    assert dotted[|dotted| - 3 + |PySuffix|..] == "";
    assert Split("", PySuffix) == [""];
    assert [stem, ""][1..] == [""] && [""][1..] == [];
    assert Concat([stem, ""]) == stem + "";
  }

  /** A stem free of ".py" followed by ".py" has its first ".py" at the
      end: an earlier one would lie in the stem or straddle its last
      characters, where the final "." cannot stand for "p" or "y". */
  lemma OnlyAtEnd(dotted: string, stem: string)
    requires |dotted| >= 3 && stem == dotted[..|dotted| - 3] && dotted[|dotted| - 3..] == PySuffix
    requires !Contains(stem, PySuffix)
    ensures IndexOf(dotted, PySuffix) == Some(|dotted| - 3)
  {
    var n := |dotted|;
    assert OccursAt(dotted, PySuffix, n - 3);
    forall j | 0 <= j < n - 3 ensures !OccursAt(dotted, PySuffix, j) {
      if j + 3 <= n - 3 {
        assert dotted[j..j + 3] == stem[j..j + 3];
        assert !OccursAt(stem, PySuffix, j);
      } else {
        assert dotted[n - 3] == '.';
        assert dotted[j..j + 3][n - 3 - j] == '.';
      }
    }
    match IndexOf(dotted, PySuffix)
    case None =>
    case Some(k) =>
  }

  /** A file name directly under "." names its module by dropping ".py",
      whatever letters it contains. */
  lemma IntendedNameOfTopFile(file: string)
    requires |file| > |PySuffix| && EndsWith(file, PySuffix) && file[0] != '.'
    requires forall i :: 0 <= i < |file| ==> file[i] != '/'
    ensures IntendedModuleName(PathJoin(".", file)) == file[..|file| - |PySuffix|]
  {
    var path := PathJoin(".", file);
    TopFilePath(file);
    IntendedOfPy(path);
    var stem := DotSeparators(path)[..|path| - |PySuffix|];
    assert stem == ".." + file[..|file| - |PySuffix|];
    StripTwoDots(stem);
  }

  lemma IntendedOfPy(path: string)
    requires EndsWith(path, PySuffix)
    ensures IntendedModuleName(path) == StripLeadingDots(DotSeparators(path)[..|path| - |PySuffix|])
  {
  }

  /** Joining a slash-free file name to "." puts "./" in front, which the
      separator rewrite turns into "..". */
  lemma TopFilePath(file: string)
    requires |file| > |PySuffix| && EndsWith(file, PySuffix)
    requires forall i :: 0 <= i < |file| ==> file[i] != '/'
    ensures PathJoin(".", file) == "./" + file
    ensures EndsWith(PathJoin(".", file), PySuffix)
    ensures DotSeparators(PathJoin(".", file)) == ".." + file
  {
    var path := "./" + file;
    assert path[|path| - 3..] == file[|file| - 3..];
    var dotted := DotSeparators(path);
    assert forall i :: 2 <= i < |path| ==> path[i] == file[i - 2];
    assert dotted == ".." + file;
  }

  lemma StripTwoDots(s: string)
    requires |s| > 2 && s[0] == '.' && s[1] == '.' && s[2] != '.'
    ensures StripLeadingDots(s) == s[2..]
  {
    assert s[1..][1..] == s[2..];
  }

  /** The nested package directory of `Scraping/Scraper.py` maps to the
      dotted name, under both rules. */
  lemma PackagePathExample()
    ensures IntendedModuleName("./Scraping/Scraper.py") == "Scraping.Scraper"
    ensures ModuleName("./Scraping/Scraper.py") == "Scraping.Scraper"
  {
    var path := "./Scraping/Scraper.py";
    assert EndsWith(path, PySuffix);
    var stem := DotSeparators(path)[..|path| - 3];
    assert stem == "..Scraping.Scraper";
    StripTwoDots(stem);
    AbsentCharNotContained(stem, PySuffix, 2);
    NamesAgree(path);
  }

  /** The discrepancy: `./pyx.py` is documented as module "x", not "pyx". */
  lemma PyPrefixLost()
    ensures ModuleName("./pyx.py") == "x"
    ensures IntendedModuleName("./pyx.py") == "pyx"
  {
    PyxAsWritten();
    PyxIntended();
  }

  lemma PyxAsWritten()
    ensures ModuleName("./pyx.py") == "x"
  {
    DotsOfPyx();
    RemovePyx();
    StripDotX();
  }

  lemma DotsOfPyx()
    ensures DotSeparators("./pyx.py") == "..pyx.py"
  {
  }

  lemma StripDotX()
    ensures StripLeadingDots(".x") == "x"
  {
    assert ".x"[1..] == "x";
  }

  lemma RemovePyx()
    ensures RemoveAll("..pyx.py", PySuffix) == ".x"
  {
    SplitPyx();
    assert Concat([".", "x", ""]) == ".x";
  }

  /** "..pyx.py" splits on ".py" into ".", "x" and "". */
  lemma SplitPyx()
    ensures Split("..pyx.py", PySuffix) == [".", "x", ""]
  {
    var dotted := "..pyx.py";
    PyAtOne(dotted);
    SplitAt(dotted, PySuffix, 1);
    assert dotted[..1] == "." && dotted[1 + |PySuffix|..] == "x.py";
    SplitXPy();
  }

  lemma SplitXPy()
    ensures Split("x.py", PySuffix) == ["x", ""]
  {
    var tail := "x.py";
    PyAtOne(tail);
    SplitAt(tail, PySuffix, 1);
    assert tail[..1] == "x" && tail[1 + |PySuffix|..] == "";
    assert Split("", PySuffix) == [""];
  }

  /** ".py" right after the first character is its first occurrence. */
  lemma PyAtOne(s: string)
    requires |s| >= 4 && s[1..4] == PySuffix
    ensures IndexOf(s, PySuffix) == Some(1)
  {
    assert OccursAt(s, PySuffix, 1);
    assert s[0..3][1] == s[1..4][0] != PySuffix[1];
  }

  lemma SplitAt(s: string, sep: string, i: nat)
    requires |sep| > 0 && IndexOf(s, sep) == Some(i)
    ensures Split(s, sep) == [s[..i]] + Split(s[i + |sep|..], sep)
  {
  }

  lemma PyxIntended()
    ensures IntendedModuleName("./pyx.py") == "pyx"
  {
    assert PathJoin(".", "pyx.py") == "./pyx.py";
    assert "pyx.py"[..3] == "pyx";
    IntendedNameOfTopFile("pyx.py");
  }

  /** `os.path.join(docs_dir, f"{module_name}.html")`. */
  function DocPath(docsDir: string, moduleName: string): (r: string)
    ensures EndsWith(r, moduleName + HtmlSuffix)
  {
    PathJoin(docsDir, moduleName + HtmlSuffix)
  }

  /** One directory of `os.walk`: its path and the names of its files. */
  datatype WalkEntry = WalkEntry(root: string, files: seq<string>)

  /** The `.py` files of the walk, joined to their directories, in walk
      order. */
  function PyFiles(walk: seq<WalkEntry>): seq<string> {
    if |walk| == 0 then [] else PyFilesIn(walk[0].root, walk[0].files) + PyFiles(walk[1..])
  }

  function PyFilesIn(root: string, files: seq<string>): seq<string> {
    if |files| == 0 then []
    else (if EndsWith(files[0], PySuffix) then [PathJoin(root, files[0])] else []) + PyFilesIn(root, files[1..])
  }

  /** The fate of one module: a page written at a path, or a failure that
      is only reported. */
  datatype DocOutcome = Generated(moduleName: string, path: string) | Failed(moduleName: string)

  /** The loop body for one file: the module name under the chosen rule,
      then a page when the import succeeds and a reported failure when it
      does not. */
  function Document(path: string, naming: Naming, docsDir: string, importable: string -> bool): (r: DocOutcome)
    ensures naming == AsWritten ==> r.moduleName == ModuleName(path)
    ensures naming == Intended ==> r.moduleName == IntendedModuleName(path)
    ensures r.Generated? <==> importable(r.moduleName)
    ensures r.Generated? ==> r.path == DocPath(docsDir, r.moduleName)
  {
    var name := NameOf(naming, path);
    if importable(name) then Generated(name, DocPath(docsDir, name)) else Failed(name)
  }

  /** The inner loop of `generate_docs` over one directory's files. */
  function DocumentFiles(root: string, files: seq<string>, naming: Naming, docsDir: string, importable: string -> bool): (r: seq<DocOutcome>)
    ensures |r| == |PyFilesIn(root, files)|
  {
    if |files| == 0 then []
    else
      var here := if EndsWith(files[0], PySuffix) then [Document(PathJoin(root, files[0]), naming, docsDir, importable)] else [];
      here + DocumentFiles(root, files[1..], naming, docsDir, importable)
  }

  /** The inner loop documents the directory's `.py` files one by one, in
      the order of `files`. */
  lemma {:induction false} DocumentFilesInOrder(root: string, files: seq<string>, naming: Naming, docsDir: string, importable: string -> bool)
    ensures forall i :: 0 <= i < |DocumentFiles(root, files, naming, docsDir, importable)| ==>
              DocumentFiles(root, files, naming, docsDir, importable)[i] == Document(PyFilesIn(root, files)[i], naming, docsDir, importable)
  {
    if |files| > 0 {
      DocumentFilesInOrder(root, files[1..], naming, docsDir, importable);
      var paths := if EndsWith(files[0], PySuffix) then [PathJoin(root, files[0])] else [];
      var here := if EndsWith(files[0], PySuffix) then [Document(PathJoin(root, files[0]), naming, docsDir, importable)] else [];
      DocumentedConcat(here, DocumentFiles(root, files[1..], naming, docsDir, importable), paths, PyFilesIn(root, files[1..]), naming, docsDir, importable);
    }
  }

  /** Outcomes that match their paths one by one still do so after both
      lists are extended. */
  lemma DocumentedConcat(a: seq<DocOutcome>, b: seq<DocOutcome>, pa: seq<string>, pb: seq<string>,
                         naming: Naming, docsDir: string, importable: string -> bool)
    requires |a| == |pa| && forall i :: 0 <= i < |a| ==> a[i] == Document(pa[i], naming, docsDir, importable)
    requires |b| == |pb| && forall i :: 0 <= i < |b| ==> b[i] == Document(pb[i], naming, docsDir, importable)
    ensures |a + b| == |pa + pb|
    ensures forall i :: 0 <= i < |a + b| ==> (a + b)[i] == Document((pa + pb)[i], naming, docsDir, importable)
  {
    forall i | 0 <= i < |a + b| ensures (a + b)[i] == Document((pa + pb)[i], naming, docsDir, importable) {
      if i < |a| {
        assert (a + b)[i] == a[i] && (pa + pb)[i] == pa[i];
      } else {
        assert (a + b)[i] == b[i - |a|] && (pa + pb)[i] == pb[i - |a|];
      }
    }
  }

  /** `generate_docs(source_dir, docs_dir)`: every `.py` file of the walk
      gets an outcome, in walk order; a module that cannot be imported is
      reported and the walk goes on. */
  function GenerateDocs(walk: seq<WalkEntry>, naming: Naming, docsDir: string, importable: string -> bool): (r: seq<DocOutcome>)
    ensures |r| == |PyFiles(walk)|
  {
    if |walk| == 0 then []
    else DocumentFiles(walk[0].root, walk[0].files, naming, docsDir, importable) + GenerateDocs(walk[1..], naming, docsDir, importable)
  }

  /** Outcome i documents the i-th `.py` file of the walk. */
  lemma {:induction false} GenerateDocsInOrder(walk: seq<WalkEntry>, naming: Naming, docsDir: string, importable: string -> bool)
    ensures forall i :: 0 <= i < |GenerateDocs(walk, naming, docsDir, importable)| ==>
              GenerateDocs(walk, naming, docsDir, importable)[i] == Document(PyFiles(walk)[i], naming, docsDir, importable)
  {
    if |walk| > 0 {
      DocumentFilesInOrder(walk[0].root, walk[0].files, naming, docsDir, importable);
      GenerateDocsInOrder(walk[1..], naming, docsDir, importable);
      DocumentedConcat(DocumentFiles(walk[0].root, walk[0].files, naming, docsDir, importable), GenerateDocs(walk[1..], naming, docsDir, importable),
                       PyFilesIn(walk[0].root, walk[0].files), PyFiles(walk[1..]), naming, docsDir, importable);
    }
  }

  /** Failures do not stop the walk: which modules can be imported changes
      no outcome's module name and not the number of outcomes. */
  lemma FailuresDoNotStop(walk: seq<WalkEntry>, naming: Naming, docsDir: string, importable1: string -> bool, importable2: string -> bool)
    ensures |GenerateDocs(walk, naming, docsDir, importable1)| == |GenerateDocs(walk, naming, docsDir, importable2)|
    ensures forall i :: 0 <= i < |GenerateDocs(walk, naming, docsDir, importable1)| ==>
              GenerateDocs(walk, naming, docsDir, importable1)[i].moduleName == GenerateDocs(walk, naming, docsDir, importable2)[i].moduleName
  {
    GenerateDocsInOrder(walk, naming, docsDir, importable1);
    GenerateDocsInOrder(walk, naming, docsDir, importable2);
  }
}

=== FILE: keyed.dfy ===
/** An insertion-ordered dictionary from labels to values, as a Python
    `dict` or a pandas `Series` indexed by label behaves under `d[k] = v`:
    a new key goes at the end, an existing key keeps its place and takes the
    new value. */
module Keyed {
  import opened Wrappers

  datatype Entry<V> = Entry(key: string, value: V)

  function Keys<V>(es: seq<Entry<V>>): (r: seq<string>)
    ensures |r| == |es| && forall i :: 0 <= i < |es| ==> r[i] == es[i].key
  {
    if |es| == 0 then [] else [es[0].key] + Keys(es[1..])
  }

  predicate DistinctKeys<V>(es: seq<Entry<V>>) {
    forall i, j :: 0 <= i < j < |es| ==> es[i].key != es[j].key
  }

  /** `d[key]`, None when the key is absent. */
  function Lookup<V>(es: seq<Entry<V>>, key: string): Option<V> {
    if |es| == 0 then None
    else if es[0].key == key then Some(es[0].value)
    else Lookup(es[1..], key)
  }

  lemma KeysCons<V>(e: Entry<V>, es: seq<Entry<V>>)
    ensures Keys([e] + es) == [e.key] + Keys(es)
  {
    assert ([e] + es)[1..] == es;
  }

  /** `d[key] = v`. */
  function Put<V>(es: seq<Entry<V>>, key: string, v: V): seq<Entry<V>> {
    if |es| == 0 then [Entry(key, v)]
    else if es[0].key == key then [Entry(key, v)] + es[1..]
    else [es[0]] + Put(es[1..], key, v)
  }

  /** The key list changes only when the key is new, and then the key goes
      at the end. */
  lemma {:induction false} PutKeys<V>(es: seq<Entry<V>>, key: string, v: V)
    ensures key in Keys(es) ==> Keys(Put(es, key, v)) == Keys(es)
    ensures key !in Keys(es) ==> Keys(Put(es, key, v)) == Keys(es) + [key]
  {
    if |es| > 0 {
      var ks := Keys(es[1..]);
      assert Keys(es) == [es[0].key] + ks;
      if es[0].key == key {
        KeysCons(Entry(key, v), es[1..]);
      } else {
        var rest := Put(es[1..], key, v);
        PutKeys(es[1..], key, v);
        KeysCons(es[0], rest);
        assert Keys(Put(es, key, v)) == [es[0].key] + Keys(rest);
        if key !in ks {
          assert [es[0].key] + (ks + [key]) == ([es[0].key] + ks) + [key];
        }
      }
    }
  }

  /** After `d[key] = v`, `d[key]` is `v` and every other key reads as
      before. */
  lemma {:induction false} PutLookup<V>(es: seq<Entry<V>>, key: string, v: V, k: string)
    ensures Lookup(Put(es, key, v), k) == if k == key then Some(v) else Lookup(es, k)
  {
    if |es| > 0 && es[0].key != key {
      PutLookup(es[1..], key, v, k);
      assert Put(es, key, v)[1..] == Put(es[1..], key, v);
    }
  }

  /** No label occurs twice. */
  predicate Distinct(ks: seq<string>) {
    forall i, j :: 0 <= i < j < |ks| ==> ks[i] != ks[j]
  }

  lemma DistinctKeysOfKeys<V>(es: seq<Entry<V>>)
    ensures DistinctKeys(es) <==> Distinct(Keys(es))
  {
    var ks := Keys(es);
    assert DistinctKeys(es) ==> Distinct(ks) by {
      if DistinctKeys(es) {
        forall i, j | 0 <= i < j < |ks| ensures ks[i] != ks[j] {
          assert ks[i] == es[i].key && ks[j] == es[j].key;
        }
      }
    }
    assert Distinct(ks) ==> DistinctKeys(es) by {
      if Distinct(ks) {
        forall i, j | 0 <= i < j < |es| ensures es[i].key != es[j].key {
          assert ks[i] == es[i].key && ks[j] == es[j].key;
        }
      }
    }
  }

  /** Setting a key never creates a duplicate. */
  lemma PutKeepsDistinct<V>(es: seq<Entry<V>>, key: string, v: V)
    ensures DistinctKeys(es) ==> DistinctKeys(Put(es, key, v))
  {
    PutKeys(es, key, v);
    DistinctKeysOfKeys(es);
    DistinctKeysOfKeys(Put(es, key, v));
  }

  /** `d[keys[i]] = vals[i]` for each `i` in order. */
  function PutAll<V>(es: seq<Entry<V>>, keys: seq<string>, vals: seq<V>): (r: seq<Entry<V>>)
    requires |keys| == |vals|
    ensures DistinctKeys(es) ==> DistinctKeys(r)
    ensures forall k :: k in Keys(r) <==> k in Keys(es) || k in keys
    ensures |r| <= |es| + |keys|
  {
    if |keys| == 0 then es
    else
      var n := |keys| - 1;
      var prev := PutAll(es, keys[..n], vals[..n]);
      assert keys == keys[..n] + [keys[n]];
      PutKeepsDistinct(prev, keys[n], vals[n]);
      PutKeys(prev, keys[n], vals[n]);
      Put(prev, keys[n], vals[n])
  }

  /** The last index holding `k`. */
  function LastIndex(keys: seq<string>, k: string): (r: nat)
    requires k in keys
    ensures r < |keys| && keys[r] == k
    ensures forall j :: r < j < |keys| ==> keys[j] != k
  {
    if keys[|keys| - 1] == k then |keys| - 1
    else
      assert k in keys[..|keys| - 1] by { assert keys == keys[..|keys| - 1] + [keys[|keys| - 1]]; }
      LastIndex(keys[..|keys| - 1], k)
  }

  /** Last write wins: a written key is bound to the value of its last
      write; every other key keeps what it had before. */
  lemma {:induction false} LastWriteWins<V>(es: seq<Entry<V>>, keys: seq<string>, vals: seq<V>, k: string)
    requires |keys| == |vals|
    ensures k in keys ==> Lookup(PutAll(es, keys, vals), k) == Some(vals[LastIndex(keys, k)])
    ensures k !in keys ==> Lookup(PutAll(es, keys, vals), k) == Lookup(es, k)
  {
    if |keys| > 0 {
      var n := |keys| - 1;
      assert keys == keys[..n] + [keys[n]];
      LastWriteWins(es, keys[..n], vals[..n], k);
      PutLookup(PutAll(es, keys[..n], vals[..n]), keys[n], vals[n], k);
      if k != keys[n] && k in keys {
        assert k in keys[..n];
        assert LastIndex(keys, k) == LastIndex(keys[..n], k);
      }
    }
  }

  /** A key that no later write repeats is bound to the value written with
      it. */
  lemma WrittenLast<V>(es: seq<Entry<V>>, keys: seq<string>, vals: seq<V>, i: nat)
    requires |keys| == |vals| && i < |keys|
    requires forall j :: i < j < |keys| ==> keys[j] != keys[i]
    ensures Lookup(PutAll(es, keys, vals), keys[i]) == Some(vals[i])
  {
    LastWriteWins(es, keys, vals, keys[i]);
    assert LastIndex(keys, keys[i]) == i;
  }

  /** Starting from an empty dictionary with distinct keys, nothing is
      overwritten: one entry per key, in order. */
  lemma {:induction false} DistinctKeysKeepOrder<V>(keys: seq<string>, vals: seq<V>)
    requires |keys| == |vals|
    requires forall i, j :: 0 <= i < j < |keys| ==> keys[i] != keys[j]
    ensures Keys(PutAll([], keys, vals)) == keys
  {
    if |keys| > 0 {
      var n := |keys| - 1;
      assert keys == keys[..n] + [keys[n]];
      DistinctKeysKeepOrder(keys[..n], vals[..n]);
      var prev := PutAll([], keys[..n], vals[..n]);
      assert keys[n] !in keys[..n];
      PutKeys(prev, keys[n], vals[n]);
    }
  }
}

=== FILE: legacy_scraper.dfy ===
/** The older scraper of `scraper.py`. It uses the legacy URL builder, keeps
    the price as text, demands every element of a card, processes every
    card of the page and never clears the results of earlier scrapes. */
module LegacyScraper {
  import opened Wrappers
  import opened Text
  import opened UrlBuilder
  import opened Formatting
  import opened Keyed
  import opened Scraper
  import opened UrlJoin

  datatype LegacyRecord = LegacyRecord(title: string, price: string, location: string, date: string,
                                       itemUrl: string, photo: Option<string>)

  /** `_process_item` of `scraper.py`: a missing `h6`, first `p`,
      location-date `p`, `img` or `a` raises AttributeError, checked in that
      order; a location-date text without " - " raises ValueError. */
  function LegacyProcessItem(card: Card, today: string): (r: Result<LegacyRecord>)
    ensures r.Ok? <==> card.heading.Some? && card.firstParagraph.Some? && card.locationDate.Some?
                       && Contains(card.locationDate.value, FieldSep) && card.image.Some? && card.link.Some?
    ensures r.Err? && r.error == ValueError ==> card.locationDate.Some? && !Contains(card.locationDate.value, FieldSep)
    ensures r.Err? ==> r.error == AttributeError || r.error == ValueError
    ensures r.Ok? ==> r.value.title == Strip(card.heading.value)
                      && r.value.price == LegacyFormatPrice(card.firstParagraph.value)
                      && r.value.photo == card.image.value.src
                      && r.value.itemUrl == ResolveUrl(card.link.value.href)
    ensures r.Ok? ==> var s := card.locationDate.value;
                      var i := IndexOf(s, FieldSep).value;
                      r.value.location == s[..i]
                      && r.value.date == ResolveToday(Split(s[i + |FieldSep|..], FieldSep)[0], today)
  {
    if card.heading.None? then Err(AttributeError)
    else
      var title := Strip(card.heading.value);
      if card.firstParagraph.None? then Err(AttributeError)
      else
        var price := LegacyFormatPrice(card.firstParagraph.value);
        if card.locationDate.None? then Err(AttributeError)
        else
          var place :- FormatLocationDate(card.locationDate.value, today);
          if card.image.None? then Err(AttributeError)
          else
            var photo := card.image.value.src;
            if card.link.None? then Err(AttributeError)
            else Ok(LegacyRecord(title, price, place.0, place.1, ResolveUrl(card.link.value.href), photo))
  }

  /** Every card the old scraper accepts, the current one accepts too, with
      the same text fields and the price read as the number its digits
      spell. */
  lemma LegacyRecordAgrees(card: Card, today: string)
    requires LegacyProcessItem(card, today).Ok?
    ensures ProcessItem(card, today).Ok?
    ensures var old_ := LegacyProcessItem(card, today).value;
            var new_ := ProcessItem(card, today).value;
            new_.title == old_.title && new_.location == old_.location && new_.date == old_.date
            && new_.itemUrl == old_.itemUrl && new_.photo == old_.photo
            && new_.price == DecimalValue(Digits(old_.price))
  {
  }

  /** The URL the older `_fetch_data_from_url` requests: its only URL as
      `urlparse(...).geturl()` gives it back. */
  function LegacyRequestUrl(d: Descriptor): (r: string)
    ensures StartsWith(r, Origin)
  {
    LegacyUrlUnderSite(d);
    SiteGetUrl(LegacyBuildUrl(d))
  }

  lemma LegacyUrlUnderSite(d: Descriptor)
    ensures StartsWith(LegacyBuildUrl(d), Origin + "/")
  {
    var url := LegacyBuildUrl(d);
    var first := BuildUrl(d, 1);
    var pre := UrlPrefix(d.city, "/q-");
    assert url[..|pre|] == first[..|pre|] == pre;
    assert pre == (Origin + "/") + (CitySegment(d.city) + "/q-");
    ConcatStartsWith(Origin + "/", CitySegment(d.city) + "/q-");
    StartsWithTrans(url, pre, Origin + "/");
  }

  /** For plain query, city and distance text the older scraper requests
      its URL exactly as built, the raw space of `q-monitor ` included. */
  lemma LegacyRequestUrlAsBuilt(d: Descriptor)
    requires IsPathText(d.itemQuery)
    requires d.city.Some? ==> IsPathText(d.city.value)
    requires IsQueryText(DistanceText(d.distance))
    ensures LegacyRequestUrl(d) == LegacyBuildUrl(d)
  {
    var path := "/" + CitySegment(d.city) + "/q-monitor " + Hyphenate(d.itemQuery) + "/";
    var query := DistanceParam(d) + OrderParam;
    UrlHeadParts(d, "/q-monitor ");
    assert LegacyBuildUrl(d) == UrlHead(d, "/q-monitor ") + query;
    DescriptorUrlText(d, "/q-monitor ");
    SiteGetUrlKept(path, query);
  }

  /** The 200 branch of the older `_fetch_data_from_url`: a page without
      cards raises IndexError at `items[0]`; otherwise every card is
      processed, and the first failing card's error is raised. */
  function LegacyReadPage(page: Page, today: string): (r: Result<seq<LegacyRecord>>)
    ensures |page.cards| == 0 ==> r == Err(IndexError)
    ensures |page.cards| > 0 ==> (r.Ok? <==> forall i :: 0 <= i < |page.cards| ==> LegacyProcessItem(page.cards[i], today).Ok?)
    ensures r.Ok? ==> |r.value| == |page.cards|
                      && forall i :: 0 <= i < |page.cards| ==> LegacyProcessItem(page.cards[i], today) == Ok(r.value[i])
    ensures |page.cards| > 0 && r.Err? ==>
              exists i :: 0 <= i < |page.cards| && LegacyProcessItem(page.cards[i], today) == Err(r.error)
                          && forall j :: 0 <= j < i ==> LegacyProcessItem(page.cards[j], today).Ok?
  {
    if |page.cards| == 0 then Err(IndexError)
    else MapAll(page.cards, card => LegacyProcessItem(card, today))
  }

  /** `_fetch_data_from_url` of `scraper.py`: the descriptor's only URL, as
      `geturl` rebuilds it, is requested; a failure of the transport
      raises, a status other than 200 gives an empty result, and a 200 page
      is read by `LegacyReadPage`. */
  function LegacyFetch(d: Descriptor, fetch: string -> Response, today: string): (r: Result<seq<LegacyRecord>>)
    ensures fetch(LegacyRequestUrl(d)).TransportFailure? ==> r == Err(TransportError)
    ensures fetch(LegacyRequestUrl(d)).Response? && fetch(LegacyRequestUrl(d)).status != 200 ==> r == Ok([])
    ensures fetch(LegacyRequestUrl(d)).Response? && fetch(LegacyRequestUrl(d)).status == 200 ==>
              r == LegacyReadPage(fetch(LegacyRequestUrl(d)).page, today)
  {
    match fetch(LegacyRequestUrl(d))
    case TransportFailure => Err(TransportError)
    case Response(status, page) =>
      if status != 200 then Ok([]) else LegacyReadPage(page, today)
  }

  datatype LegacyState = LegacyState(urlList: seq<Descriptor>, dataFrames: seq<Entry<seq<LegacyRecord>>>)

  datatype LegacyOutcome = LegacyOutcome(state: LegacyState, result: Result<seq<Entry<seq<LegacyRecord>>>>)

  function LegacyKeys(urls: seq<Descriptor>): (r: seq<string>)
    ensures |r| == |urls| && forall i :: 0 <= i < |urls| ==> r[i] == LegacyDataKey(urls[i])
  {
    seq(|urls|, i requires 0 <= i < |urls| => LegacyDataKey(urls[i]))
  }

  /** `scrape_data` of `scraper.py`: the results are written over the
      series the earlier scrapes left, under the legacy labels; a failing
      fetch raises before anything is written. */
  function LegacyScrape(st: LegacyState, fetch: string -> Response, today: string): (r: LegacyOutcome)
    ensures r.result.Err? ==> r.state == st
    ensures r.result.Ok? ==> r.state.urlList == st.urlList && r.state.dataFrames == r.result.value
    ensures r.result.Ok? <==> forall i :: 0 <= i < |st.urlList| ==> LegacyFetch(st.urlList[i], fetch, today).Ok?
    ensures r.result.Ok? ==> forall k :: k in Keys(r.state.dataFrames) <==> k in Keys(st.dataFrames) || k in LegacyKeys(st.urlList)
    ensures DistinctKeys(st.dataFrames) ==> DistinctKeys(r.state.dataFrames)
  {
    var results := MapAll(st.urlList, d => LegacyFetch(d, fetch, today));
    match results
    case Err(e) => LegacyOutcome(st, Err(e))
    case Ok(frames) =>
      var es := PutAll(st.dataFrames, LegacyKeys(st.urlList), frames);
      LegacyOutcome(st.(dataFrames := es), Ok(es))
  }

  /** Labels that the current queries do not produce keep the frames of
      earlier scrapes. */
  lemma LegacyKeysPersist(st: LegacyState, fetch: string -> Response, today: string, k: string)
    requires LegacyScrape(st, fetch, today).result.Ok?
    requires forall i :: 0 <= i < |st.urlList| ==> LegacyDataKey(st.urlList[i]) != k
    ensures Lookup(LegacyScrape(st, fetch, today).state.dataFrames, k) == Lookup(st.dataFrames, k)
  {
    var frames := MapAll(st.urlList, d => LegacyFetch(d, fetch, today)).value;
    var keys := LegacyKeys(st.urlList);
    assert k !in keys;
    LastWriteWins(st.dataFrames, keys, frames, k);
  }

  /** After a successful scrape, the label of query `i` holds the records
      of the last query with that label, whatever it held before. */
  lemma LegacyScrapeLastWriteWins(st: LegacyState, fetch: string -> Response, today: string, i: nat)
    requires LegacyScrape(st, fetch, today).result.Ok?
    requires i < |st.urlList|
    requires forall j :: i < j < |st.urlList| ==> LegacyDataKey(st.urlList[j]) != LegacyDataKey(st.urlList[i])
    ensures Lookup(LegacyScrape(st, fetch, today).state.dataFrames, LegacyDataKey(st.urlList[i]))
            == Some(LegacyFetch(st.urlList[i], fetch, today).value)
  {
    var frames := MapAll(st.urlList, d => LegacyFetch(d, fetch, today)).value;
    WrittenLast(st.dataFrames, LegacyKeys(st.urlList), frames, i);
  }
}

=== FILE: scraper.dfy ===
/** The scraper of `Scraping/Scraper.py`: parsing the result-count banner,
    turning a result page into records, keying the per-query results, and
    the saved date of the last successful scrape.

    The network is a function from URL to response, an HTML page is the
    banner text plus a list of listing cards, and a card is a record of
    the optional pieces the scraper looks up in it. */
module Scraper {
  import opened Wrappers
  import opened Text
  import opened Config
  import opened UrlBuilder
  import opened Formatting
  import opened Table
  import opened Keyed
  import opened UrlJoin

  // ---------------------------------------------------------------------
  // The result-count banner
  //
  // `count_pattern` is `Znaleźliśmy\s+(?:ponad\s+)?(\d+)\s+ogłosze(?:ń|nie|nia)`.
  // At a given start position the pattern has at most one way to match and
  // one captured number: `\s+` and `\d+` must each be followed by a
  // character of another class (a letter, a digit, a space), so giving
  // characters back never helps; without "ponad" the digits would have to
  // start at the 'p'. The matcher below is therefore deterministic.

  const BannerWord: string := "Znaleźliśmy"
  const OverWord: string := "ponad"
  const NounStem: string := "ogłosze"

  /** The end of the run of whitespace starting at `i`. */
  function SkipSpaces(s: string, i: nat): (r: nat)
    requires i <= |s|
    decreases |s| - i
    ensures i <= r <= |s|
    ensures forall k :: i <= k < r ==> IsSpace(s[k])
    ensures r == |s| || !IsSpace(s[r])
  {
    if i == |s| || !IsSpace(s[i]) then i else SkipSpaces(s, i + 1)
  }

  /** The end of the run of digits starting at `i`. */
  function SkipDigits(s: string, i: nat): (r: nat)
    requires i <= |s|
    decreases |s| - i
    ensures i <= r <= |s|
    ensures forall k :: i <= k < r ==> IsDigit(s[k])
    ensures r == |s| || !IsDigit(s[r])
  {
    if i == |s| || !IsDigit(s[i]) then i else SkipDigits(s, i + 1)
  }

  lemma SkipSpacesStopsAt(s: string, i: nat, j: nat)
    requires i <= j <= |s|
    requires forall k :: i <= k < j ==> IsSpace(s[k])
    requires j == |s| || !IsSpace(s[j])
    ensures SkipSpaces(s, i) == j
  {
  }

  lemma SkipDigitsStopsAt(s: string, i: nat, j: nat)
    requires i <= j <= |s|
    requires forall k :: i <= k < j ==> IsDigit(s[k])
    requires j == |s| || !IsDigit(s[j])
    ensures SkipDigits(s, i) == j
  {
  }

  /** The three noun endings the pattern accepts. */
  predicate IsEnding(e: string) {
    e == "ń" || e == "nie" || e == "nia"
  }

  predicate EndingAt(s: string, i: nat) {
    OccursAt(s, "ń", i) || OccursAt(s, "nie", i) || OccursAt(s, "nia", i)
  }

  /** Where the digits start: after "ponad" and its whitespace when they
      are there, otherwise at `b`. */
  function CountStart(s: string, b: nat): (r: nat)
    requires b <= |s|
    ensures b <= r <= |s|
  {
    if OccursAt(s, OverWord, b) && SkipSpaces(s, b + |OverWord|) > b + |OverWord|
    then SkipSpaces(s, b + |OverWord|) else b
  }

  /** The rest of the pattern from the digits on: the captured number, or
      None when `\d+\s+ogłosze(?:ń|nie|nia)` does not match at `c`. */
  function MatchTail(s: string, c: nat): (r: Option<nat>)
    requires c <= |s|
  {
    var d := SkipDigits(s, c);
    if d == c then None
    else
      var e := SkipSpaces(s, d);
      if e == d || !OccursAt(s, NounStem, e) || !EndingAt(s, e + |NounStem|) then None
      else
        assert forall k :: 0 <= k < d - c ==> s[c..d][k] == s[c + k];
        Some(DecimalValue(s[c..d]))
  }

  /** The number captured by a match of the count pattern starting at `i`,
      or None when the pattern does not match there. */
  function MatchAt(s: string, i: nat): (r: Option<nat>)
    requires i <= |s|
    ensures r.Some? ==> OccursAt(s, BannerWord, i)
  {
    if !OccursAt(s, BannerWord, i) then None
    else
      var a := i + |BannerWord|;
      var b := SkipSpaces(s, a);
      if b == a then None
      else MatchTail(s, CountStart(s, b))
  }

  /** `re.search`: the leftmost start position at or after `i` where the
      pattern matches. */
  function FirstMatch(s: string, i: nat): (r: Option<nat>)
    requires i <= |s|
    decreases |s| - i
    ensures r.Some? ==> i <= r.value <= |s| && MatchAt(s, r.value).Some?
    ensures r.Some? ==> forall k :: i <= k < r.value ==> MatchAt(s, k).None?
    ensures r.None? ==> forall k :: i <= k <= |s| ==> MatchAt(s, k).None?
  {
    if MatchAt(s, i).Some? then Some(i)
    else if i == |s| then None
    else FirstMatch(s, i + 1)
  }

  /** `find_count`: the number in the leftmost match inside the total-count
      span. A page without that span, or a span the pattern does not match,
      raises AttributeError (`None.text`, `None.group`) instead of giving 0. */
  function FindCount(banner: Option<string>): (r: Result<nat>)
    ensures banner.None? ==> r == Err(AttributeError)
    ensures r.Err? ==> r.error == AttributeError
    ensures banner.Some? ==> (r.Ok? <==> exists k :: 0 <= k <= |banner.value| && MatchAt(banner.value, k).Some?)
    ensures r.Ok? ==> exists k :: 0 <= k <= |banner.value| && MatchAt(banner.value, k) == Some(r.value)
                              && forall j :: 0 <= j < k ==> MatchAt(banner.value, j).None?
  {
    match banner
    case None => Err(AttributeError)
    case Some(text) =>
      match FirstMatch(text, 0)
      case None => Err(AttributeError)
      case Some(k) => Ok(MatchAt(text, k).value)
  }

  /** The banner text OLX shows for `n` results. */
  function Banner(n: nat, over: bool, ending: string): string {
    BannerWord + (" " + ((if over then OverWord + " " else "") + (NatToString(n) + (" " + (NounStem + ending)))))
  }

  lemma OccursSplit(s: string, x: string, y: string, i: nat)
    requires OccursAt(s, x + y, i)
    ensures OccursAt(s, x, i) && OccursAt(s, y, i + |x|)
  {
    assert s[i..i + |x|] == (x + y)[..|x|];
    assert s[i + |x|..i + |x| + |y|] == (x + y)[|x|..];
  }

  /** What an occurrence of a printed number, one space and a noun form
      puts at each position. */
  lemma NumberTailShape(s: string, c: nat, n: nat, ending: string)
    requires OccursAt(s, NatToString(n) + (" " + (NounStem + ending)), c)
    ensures var d := c + |NatToString(n)|;
            d + 1 + |NounStem| <= |s| && s[c..d] == NatToString(n) && s[d] == ' ' && s[d + 1] == 'o'
            && (forall k :: c <= k < d ==> IsDigit(s[k]))
            && OccursAt(s, NounStem, d + 1) && OccursAt(s, ending, d + 1 + |NounStem|)
  {
    var ds := NatToString(n);
    OccursSplit(s, ds, " " + (NounStem + ending), c);
    var d := c + |ds|;
    forall k | c <= k < d ensures IsDigit(s[k]) {
      assert s[c..c + |ds|][k - c] == s[k];
    }
    SpaceNounShape(s, d, ending);
  }

  lemma SpaceNounShape(s: string, d: nat, ending: string)
    requires OccursAt(s, " " + (NounStem + ending), d)
    ensures d + 1 + |NounStem| <= |s| && s[d] == ' ' && s[d + 1] == 'o'
    ensures OccursAt(s, NounStem, d + 1) && OccursAt(s, ending, d + 1 + |NounStem|)
  {
    OccursSplit(s, " ", NounStem + ending, d);
    assert s[d] == ' ' by { assert s[d..d + 1][0] == s[d]; }
    var e := d + 1;
    OccursSplit(s, NounStem, ending, e);
    assert s[e] == 'o' by { assert s[e..e + |NounStem|][0] == s[e]; }
  }

  /** A printed number followed by whitespace and a noun form is matched. */
  lemma NumberTailMatches(s: string, c: nat, n: nat, ending: string)
    requires IsEnding(ending)
    requires OccursAt(s, NatToString(n) + (" " + (NounStem + ending)), c)
    ensures MatchTail(s, c) == Some(n)
  {
    NumberTailShape(s, c, n, ending);
    var d := c + |NatToString(n)|;
    EndingOccurs(s, ending, d + 1 + |NounStem|);
    DigitsSpaceNoun(s, c, d, n);
  }

  /** Digits spelling `n` on `c..d`, one space, and a noun form: the tail
      of the pattern captures `n`. */
  lemma DigitsSpaceNoun(s: string, c: nat, d: nat, n: nat)
    requires c <= d && d + 1 + |NounStem| <= |s|
    requires s[c..d] == NatToString(n) && s[d] == ' ' && s[d + 1] == 'o'
    requires forall k :: c <= k < d ==> IsDigit(s[k])
    requires OccursAt(s, NounStem, d + 1) && EndingAt(s, d + 1 + |NounStem|)
    ensures MatchTail(s, c) == Some(n)
  {
    SkipDigitsStopsAt(s, c, d);
    SkipSpacesStopsAt(s, d, d + 1);
    DecimalValueOfNatToString(n);
  }

  lemma EndingOccurs(s: string, ending: string, i: nat)
    requires IsEnding(ending) && OccursAt(s, ending, i)
    ensures EndingAt(s, i)
  {
  }

  /** With "ponad " in front, the digits start after it. */
  lemma OverCountStart(s: string, b: nat, rest: string)
    requires |rest| > 0 && !IsSpace(rest[0])
    requires OccursAt(s, OverWord + " " + rest, b)
    ensures CountStart(s, b) == b + |OverWord| + 1
  {
    assert OverWord + " " + rest == OverWord + (" " + rest);
    OccursSplit(s, OverWord, " " + rest, b);
    OccursSplit(s, " ", rest, b + |OverWord|);
    assert s[b + |OverWord|] == ' ' by { assert s[b + |OverWord|..b + |OverWord| + 1][0] == s[b + |OverWord|]; }
    assert s[b + |OverWord| + 1] == rest[0] by {
      assert s[b + |OverWord| + 1..b + |OverWord| + 1 + |rest|][0] == s[b + |OverWord| + 1];
    }
    SkipSpacesStopsAt(s, b + |OverWord|, b + |OverWord| + 1);
  }

  /** Without "ponad", the digits start right away. */
  lemma PlainCountStart(s: string, b: nat)
    requires b < |s| && IsDigit(s[b])
    ensures CountStart(s, b) == b
  {
  }

  /** A banner text at position `i` is matched there, capturing its number. */
  lemma BannerMatches(s: string, i: nat, n: nat, over: bool, ending: string)
    requires IsEnding(ending)
    requires OccursAt(s, Banner(n, over, ending), i)
    ensures MatchAt(s, i) == Some(n)
  {
    BannerPrefix(s, i, n, over, ending);
    var c := i + |BannerWord| + 1 + (if over then |OverWord| + 1 else 0);
    NumberTailMatches(s, c, n, ending);
  }

  /** In a banner text at `i`: the word, one space, the optional "ponad ",
      and the number's tail from position `c`. */
  lemma BannerPrefix(s: string, i: nat, n: nat, over: bool, ending: string)
    requires OccursAt(s, Banner(n, over, ending), i)
    ensures var a := i + |BannerWord|;
            var c := a + 1 + (if over then |OverWord| + 1 else 0);
            a < |s| && OccursAt(s, BannerWord, i) && SkipSpaces(s, a) == a + 1 && CountStart(s, a + 1) == c
            && OccursAt(s, NatToString(n) + (" " + (NounStem + ending)), c)
  {
    var tail1 := (if over then OverWord + " " else "") + (NatToString(n) + (" " + (NounStem + ending)));
    BannerWordSpace(s, i, tail1);
    var a := i + |BannerWord|;
    CountTail(s, a + 1, n, over, ending);
    SkipSpacesStopsAt(s, a, a + 1);
  }

  lemma BannerWordSpace(s: string, i: nat, tail1: string)
    requires OccursAt(s, BannerWord + (" " + tail1), i)
    ensures i + |BannerWord| < |s| && OccursAt(s, BannerWord, i)
    ensures IsSpace(s[i + |BannerWord|]) && OccursAt(s, tail1, i + |BannerWord| + 1)
  {
    OccursSplit(s, BannerWord, " " + tail1, i);
    var a := i + |BannerWord|;
    OccursSplit(s, " ", tail1, a);
    assert s[a] == ' ' by { assert s[a..a + 1][0] == s[a]; }
  }

  /** After the banner's space: the optional "ponad " is skipped by
      `CountStart`, which lands on the number. */
  lemma CountTail(s: string, b: nat, n: nat, over: bool, ending: string)
    requires OccursAt(s, (if over then OverWord + " " else "") + (NatToString(n) + (" " + (NounStem + ending))), b)
    ensures var c := b + (if over then |OverWord| + 1 else 0);
            b < |s| && !IsSpace(s[b]) && CountStart(s, b) == c
            && OccursAt(s, NatToString(n) + (" " + (NounStem + ending)), c)
  {
    var ds := NatToString(n);
    var ov := if over then OverWord + " " else "";
    var tail2 := ds + (" " + (NounStem + ending));
    OccursSplit(s, ov, tail2, b);
    var c := b + |ov|;
    assert s[c] == ds[0] by { assert s[c..c + |tail2|][0] == s[c]; }
    if over {
      assert ov + tail2 == OverWord + " " + tail2;
      OverCountStart(s, b, tail2);
      assert s[b] == 'p' by { assert s[b..b + |ov + tail2|][0] == s[b]; }
    } else {
      PlainCountStart(s, b);
    }
  }

  /** A match can only start at a 'Z'. */
  lemma MatchStartsWithZ(s: string, k: nat)
    requires k < |s| && s[k] != 'Z'
    ensures MatchAt(s, k).None?
  {
  }

  lemma {:induction false} FirstMatchIs(s: string, i: nat, j: nat)
    requires i <= j <= |s| && MatchAt(s, j).Some?
    requires forall k :: i <= k < j ==> MatchAt(s, k).None?
    decreases j - i
    ensures FirstMatch(s, i) == Some(j)
  {
    if i < j {
      FirstMatchIs(s, i + 1, j);
    }
  }

  /** `find_count` reads back the number of any banner, whatever follows it
      and whatever precedes it, as long as the text before it holds no 'Z'. */
  lemma BannerRoundTrip(pre: string, n: nat, over: bool, ending: string, post: string)
    requires IsEnding(ending)
    requires forall k :: 0 <= k < |pre| ==> pre[k] != 'Z'
    ensures FindCount(Some(pre + Banner(n, over, ending) + post)) == Ok(n)
  {
    var b := Banner(n, over, ending);
    var s := pre + b + post;
    assert s[|pre|..|pre| + |b|] == b;
    BannerMatches(s, |pre|, n, over, ending);
    forall k | 0 <= k < |pre| ensures MatchAt(s, k).None? {
      assert s[k] == pre[k];
      MatchStartsWithZ(s, k);
    }
    FirstMatchIs(s, 0, |pre|);
  }

  /** A count span without the word "Znaleźliśmy" raises. */
  lemma NoBannerWordNoCount(text: string)
    requires !Contains(text, BannerWord)
    ensures FindCount(Some(text)) == Err(AttributeError)
  {
  }

  // ---------------------------------------------------------------------
  // Cards and records

  datatype Image = Image(src: Option<string>)
  datatype Anchor = Anchor(href: Option<string>)

  /** A listing card (`div[data-cy=l-card]`): the text of its first `h6`,
      of its first `p` and of its location-date `p`, its first `img` and its
      first `a`, each absent when the card has no such element. */
  datatype Card = Card(heading: Option<string>, firstParagraph: Option<string>, locationDate: Option<string>,
                       image: Option<Image>, link: Option<Anchor>)

  /** One row of a per-query frame. `photo` is None when the `img` has no
      `src` attribute. */
  datatype Record = Record(title: string, price: nat, location: string, date: string, itemUrl: string,
                           photo: Option<string>)

  /** `urljoin("https://www.olx.pl", a.get("href"))`: a link without an
      `href` gives None, which `urljoin` treats like an empty reference and
      answers with the base. A reference under another scheme comes back
      as given; any other is an `https` URL, under the base's authority
      when it names none of its own. */
  function ResolveUrl(href: Option<string>): (r: string)
    ensures href.None? || href == Some("") ==> r == Origin
    ensures href.Some? && href.value != "" && Parse(href.value).scheme != BaseScheme ==> r == href.value
    ensures href.Some? && href.value != "" && Parse(href.value).scheme == BaseScheme ==> StartsWith(r, BaseScheme + "://")
    ensures href.Some? && href.value != "" && Parse(href.value).scheme == BaseScheme && Parse(href.value).netloc == "" ==>
              StartsWith(r, Origin)
  {
    match href
    case None => Origin
    case Some(h) => JoinToOriginShape(h); JoinToOrigin(h)
  }

  /** Resolving once more changes nothing for the base itself and for a
      reference under another scheme. */
  lemma ResolveUrlStable(href: Option<string>)
    requires href.None? || href.value == "" || Parse(href.value).scheme != BaseScheme
    ensures ResolveUrl(Some(ResolveUrl(href))) == ResolveUrl(href)
  {
    if href.None? || href.value == "" {
      OriginParts();
      AbsoluteUrlKept(BaseHost, "");
      assert BaseScheme + "://" + BaseHost + "" == Origin;
    }
  }

  /** `_process_item`: the fields are read in the source's order, so the
      first missing element decides the error. A missing `h6`, first `p` or
      `a` raises AttributeError; a location-date text without " - " raises
      ValueError; a card without a location-date `p` gets empty location and
      date, and one without an `img` gets the photo "". */
  function ProcessItem(card: Card, today: string): (r: Result<Record>)
    ensures r.Ok? <==> card.heading.Some? && card.firstParagraph.Some? && card.link.Some?
                       && (card.locationDate.None? || Contains(card.locationDate.value, FieldSep))
    ensures card.heading.None? || card.firstParagraph.None? ==> r == Err(AttributeError)
    ensures r.Err? && r.error == ValueError ==> card.locationDate.Some?
    ensures r.Err? ==> r.error == AttributeError || r.error == ValueError
    ensures r.Ok? ==> r.value.title == Strip(card.heading.value)
                      && r.value.price == DecimalValue(Digits(card.firstParagraph.value))
                      && r.value.itemUrl == ResolveUrl(card.link.value.href)
    ensures r.Ok? && card.locationDate.None? ==> r.value.location == "" && r.value.date == ""
    ensures r.Ok? && card.locationDate.Some? ==>
              var s := card.locationDate.value;
              var i := IndexOf(s, FieldSep).value;
              r.value.location == s[..i]
              && r.value.date == ResolveToday(Split(s[i + |FieldSep|..], FieldSep)[0], today)
    ensures r.Ok? ==> r.value.photo == (if card.image.None? then Some("") else card.image.value.src)
  {
    if card.heading.None? then Err(AttributeError)
    else
      var title := Strip(card.heading.value);
      if card.firstParagraph.None? then Err(AttributeError)
      else
        var price := FormatPrice(card.firstParagraph.value);
        var place :- if card.locationDate.Some? then FormatLocationDate(card.locationDate.value, today)
                     else Ok(("", ""));
        var photo := if card.image.Some? then card.image.value.src else Some("");
        if card.link.None? then Err(AttributeError)
        else Ok(Record(title, price, place.0, place.1, ResolveUrl(card.link.value.href), photo))
  }

  /** `_process_item` over a list of cards, in order; the first failing card
      raises out of the whole list. */
  function ProcessAll(cards: seq<Card>, today: string): (r: Result<seq<Record>>)
    ensures r.Ok? <==> forall i :: 0 <= i < |cards| ==> ProcessItem(cards[i], today).Ok?
    ensures r.Ok? ==> |r.value| == |cards|
    ensures r.Ok? ==> forall i :: 0 <= i < |cards| ==> ProcessItem(cards[i], today) == Ok(r.value[i])
    ensures r.Err? ==> exists i :: 0 <= i < |cards| && ProcessItem(cards[i], today) == Err(r.error)
                                   && forall j :: 0 <= j < i ==> ProcessItem(cards[j], today).Ok?
  {
    MapAll(cards, card => ProcessItem(card, today))
  }

  const RecordColumns: seq<string> := ["title", "price", "location", "date", "item_url", "photo"]

  function RecordRow(rec: Record): seq<Cell> {
    [StrCell(rec.title), IntCell(rec.price), StrCell(rec.location), StrCell(rec.date), StrCell(rec.itemUrl),
     if rec.photo.None? then NullCell else StrCell(rec.photo.value)]
  }

  /** `pd.DataFrame(records)`: one row per record under the six dictionary
      keys, in order; no records give a frame without columns. */
  function ToFrame(recs: seq<Record>): (r: Frame)
    ensures WellShaped(r)
    ensures |r.rows| == |recs|
    ensures |recs| > 0 ==> r.columns == RecordColumns
    ensures |recs| == 0 ==> r == EmptyFrame
    ensures forall i :: 0 <= i < |recs| ==>
              r.rows[i][0] == StrCell(recs[i].title) && r.rows[i][1] == IntCell(recs[i].price)
              && r.rows[i][2] == StrCell(recs[i].location) && r.rows[i][3] == StrCell(recs[i].date)
              && r.rows[i][4] == StrCell(recs[i].itemUrl)
              && r.rows[i][5] == (if recs[i].photo.None? then NullCell else StrCell(recs[i].photo.value))
  {
    if |recs| == 0 then EmptyFrame
    else Frame(RecordColumns, seq(|recs|, i requires 0 <= i < |recs| => RecordRow(recs[i])))
  }

  /** Reading a frame row back as a record: a string title, location, date
      and URL, a non-negative integer price, and a string or missing photo. */
  function RecordOfRow(row: seq<Cell>): (r: Option<Record>)
    ensures r.Some? ==> |row| == |RecordColumns|
  {
    if |row| != |RecordColumns| then None
    else match (row[0], row[1], row[2], row[3], row[4], row[5])
      case (StrCell(t), IntCell(p), StrCell(l), StrCell(d), StrCell(u), NullCell) =>
        if p < 0 then None else Some(Record(t, p, l, d, u, None))
      case (StrCell(t), IntCell(p), StrCell(l), StrCell(d), StrCell(u), StrCell(ph)) =>
        if p < 0 then None else Some(Record(t, p, l, d, u, Some(ph)))
      case _ => None
  }

  /** The frame loses nothing: every row reads back as its record. */
  lemma FrameRoundTrip(recs: seq<Record>)
    ensures |ToFrame(recs).rows| == |recs|
    ensures forall i :: 0 <= i < |recs| ==> RecordOfRow(ToFrame(recs).rows[i]) == Some(recs[i])
  {
    var f := ToFrame(recs);
    forall i | 0 <= i < |recs| ensures RecordOfRow(f.rows[i]) == Some(recs[i]) {
      assert |f.rows[i]| == |RecordColumns|;
    }
  }

  // ---------------------------------------------------------------------
  // Fetching one query

  datatype Page = Page(banner: Option<string>, cards: seq<Card>)

  /** What the GET of a URL gives: a status and a parsed page, or a failure
      of the transport itself. */
  datatype Response = Response(status: int, page: Page) | TransportFailure

  /** The result of `_fetch_data_from_url`, and the count it appended to
      `listings_counts` (present exactly when `find_count` returned). */
  datatype Fetched = Fetched(records: Result<seq<Record>>, counted: Option<nat>)

  function Min(a: nat, b: nat): nat {
    if a <= b then a else b
  }

  /** The 200 branch of `_fetch_data_from_url`: the count is read from the
      banner and recorded, then the first `count` cards are processed (none
      when the count is 0). */
  function ReadPage(page: Page, today: string): (r: Fetched)
    ensures r.counted.Some? <==> FindCount(page.banner).Ok?
    ensures r.counted.Some? ==> r.counted.value == FindCount(page.banner).value
    ensures r.counted.None? ==> r.records == Err(FindCount(page.banner).error)
    ensures r.counted == Some(0) ==> r.records == Ok([])
    ensures r.counted.Some? && r.records.Ok? ==>
              |r.records.value| == Min(r.counted.value, |page.cards|)
              && forall i :: 0 <= i < |r.records.value| ==> ProcessItem(page.cards[i], today) == Ok(r.records.value[i])
  {
    match FindCount(page.banner)
    case Err(e) => Fetched(Err(e), None)
    case Ok(count) => Fetched(ProcessFirst(page.cards, count, today), Some(count))
  }

  /** `for item in items[:count]`, skipped entirely when the count is 0. */
  function ProcessFirst(cards: seq<Card>, count: nat, today: string): (r: Result<seq<Record>>)
    ensures count == 0 ==> r == Ok([])
    ensures r.Ok? <==> forall i :: 0 <= i < Min(count, |cards|) ==> ProcessItem(cards[i], today).Ok?
    ensures r.Ok? ==> |r.value| == Min(count, |cards|)
                      && forall i :: 0 <= i < |r.value| ==> ProcessItem(cards[i], today) == Ok(r.value[i])
  {
    if count == 0 then Ok([])
    else
      var n := Min(count, |cards|);
      var r := ProcessAll(cards[..n], today);
      assert forall i :: 0 <= i < n ==> cards[..n][i] == cards[i];
      r
  }

  /** The URL `_fetch_data_from_url` requests: the page-1 URL as
      `urlparse(...).geturl()` gives it back. */
  function RequestUrl(d: Descriptor): (r: string)
    ensures StartsWith(r, Origin)
  {
    UrlUnderSite(d);
    SiteGetUrl(BuildUrl(d, 1))
  }

  lemma UrlUnderSite(d: Descriptor)
    ensures StartsWith(BuildUrl(d, 1), Origin + "/")
  {
    assert UrlPrefix(d.city, "/q-") == (Origin + "/") + (CitySegment(d.city) + "/q-");
    ConcatStartsWith(Origin + "/", CitySegment(d.city) + "/q-");
    StartsWithTrans(BuildUrl(d, 1), UrlPrefix(d.city, "/q-"), Origin + "/");
  }

  /** When the query, the city and the distance hold no tab or line break
      and no '?', '#' or ';' (the distance may hold '?' and ';'), the URL
      requested is the page-1 URL exactly as built. */
  lemma RequestUrlAsBuilt(d: Descriptor)
    requires IsPathText(d.itemQuery)
    requires d.city.Some? ==> IsPathText(d.city.value)
    requires IsQueryText(DistanceText(d.distance))
    ensures RequestUrl(d) == BuildUrl(d, 1)
  {
    var path := "/" + CitySegment(d.city) + "/q-" + Hyphenate(d.itemQuery) + "/";
    var query := DistanceParam(d) + OrderParam;
    UrlHeadParts(d, "/q-");
    FirstPageUrl(d);
    DescriptorUrlText(d, "/q-");
    SiteGetUrlKept(path, query);
  }

  /** The path and the query a descriptor with plain text builds are kept
      whole by `urlsplit`. */
  lemma DescriptorUrlText(d: Descriptor, queryPath: string)
    requires IsPathText(d.itemQuery)
    requires d.city.Some? ==> IsPathText(d.city.value)
    requires IsQueryText(DistanceText(d.distance))
    requires IsPathText(queryPath)
    ensures IsPathText("/" + CitySegment(d.city) + queryPath + Hyphenate(d.itemQuery) + "/")
    ensures IsQueryText(DistanceParam(d) + OrderParam)
  {
    var seg := CitySegment(d.city);
    var item := Hyphenate(d.itemQuery);
    assert IsPathText(seg) by {
      if d.city.Some? {
        assert forall i :: 0 <= i < |seg| ==> seg[i] == (if d.city.value[i] == ' ' then '-' else d.city.value[i]);
      }
    }
    assert IsPathText(item) by {
      assert forall i :: 0 <= i < |item| ==> item[i] == (if d.itemQuery[i] == ' ' then '-' else d.itemQuery[i]);
    }
    PathTextJoin("/", seg);
    PathTextJoin("/" + seg, queryPath);
    PathTextJoin("/" + seg + queryPath, item);
    PathTextJoin("/" + seg + queryPath + item, "/");
    assert IsQueryText(DistanceParam(d)) by {
      if d.city.Some? {
        QueryTextJoin(DistanceKey, DistanceText(d.distance));
        QueryTextJoin(DistanceKey + DistanceText(d.distance), "&");
      }
    }
    QueryTextJoin(DistanceParam(d), OrderParam);
  }

  /** `_fetch_data_from_url`: only the page-1 URL of the descriptor, as
      `geturl` rebuilds it, is requested. A failure of the transport
      raises, a status other than 200 gives an empty result, and a 200 page
      is read by `ReadPage`. */
  function FetchQuery(d: Descriptor, fetch: string -> Response, today: string): (r: Fetched)
    ensures fetch(RequestUrl(d)).TransportFailure? ==> r == Fetched(Err(TransportError), None)
    ensures fetch(RequestUrl(d)).Response? && fetch(RequestUrl(d)).status != 200 ==> r == Fetched(Ok([]), None)
    ensures r.counted.Some? <==> fetch(RequestUrl(d)).Response? && fetch(RequestUrl(d)).status == 200
                                 && FindCount(fetch(RequestUrl(d)).page.banner).Ok?
    ensures r.counted.Some? ==> r.counted.value == FindCount(fetch(RequestUrl(d)).page.banner).value
    ensures r.counted == Some(0) ==> r.records == Ok([])
    ensures r.counted.Some? && r.records.Ok? ==>
              var cards := fetch(RequestUrl(d)).page.cards;
              |r.records.value| == Min(r.counted.value, |cards|)
              && forall i :: 0 <= i < |r.records.value| ==> ProcessItem(cards[i], today) == Ok(r.records.value[i])
  {
    match fetch(RequestUrl(d))
    case TransportFailure => Fetched(Err(TransportError), None)
    case Response(status, page) =>
      if status != 200 then Fetched(Ok([]), None) else ReadPage(page, today)
  }

  /** The number of records never exceeds the count in the banner. */
  lemma RecordsBoundedByCount(d: Descriptor, fetch: string -> Response, today: string)
    requires FetchQuery(d, fetch, today).records.Ok? && FetchQuery(d, fetch, today).counted.Some?
    ensures |FetchQuery(d, fetch, today).records.value| <= FetchQuery(d, fetch, today).counted.value
  {
  }

  /** Two networks that agree on the requested URL give the same result. */
  lemma OnlyFirstPageFetched(d: Descriptor, f: string -> Response, g: string -> Response, today: string)
    requires f(RequestUrl(d)) == g(RequestUrl(d))
    ensures FetchQuery(d, f, today) == FetchQuery(d, g, today)
  {
  }

  // ---------------------------------------------------------------------
  // The saved date of the last scrape (`last_scrape.json`)

  datatype JsonValue = JStr(s: string) | JOther

  /** The file's state: absent, not JSON, a JSON object, or other JSON. */
  datatype StoredFile = Missing | Unparsable | JsonObject(fields: map<string, JsonValue>) | JsonNonObject

  const DateField: string := "last_scrape_date"

  /** `save_last_scrape_date`: the file is overwritten with a one-field
      object; earlier contents are not kept. */
  function SaveLastScrapeDate(now: string): (r: StoredFile)
    ensures r.JsonObject? && r.fields.Keys == {DateField} && r.fields[DateField] == JStr(now)
  {
    JsonObject(map[DateField := JStr(now)])
  }

  /** `load_last_scrape_date`. `parseIso` is `datetime.fromisoformat`,
      giving the timestamp (as its ISO text) or None for a ValueError. A
      missing file, text that is not JSON, a missing key or an unparsable
      value give None; JSON that is not an object, or a value that is not a
      string, raise TypeError, which is not caught. */
  function LoadLastScrapeDate(file: StoredFile, parseIso: string -> Option<string>): (r: Result<Option<string>>)
    ensures r.Err? <==> file.JsonNonObject? || (file.JsonObject? && DateField in file.fields && file.fields[DateField].JOther?)
    ensures r.Err? ==> r.error == TypeError
    ensures file.Missing? || file.Unparsable? || (file.JsonObject? && DateField !in file.fields) ==> r == Ok(None)
    ensures r.Ok? && r.value.Some? ==> file.JsonObject? && DateField in file.fields
                                       && parseIso(file.fields[DateField].s) == r.value
  {
    match file
    case Missing => Ok(None)
    case Unparsable => Ok(None)
    case JsonNonObject => Err(TypeError)
    case JsonObject(fields) =>
      if DateField !in fields then Ok(None)
      else match fields[DateField]
        case JOther => Err(TypeError)
        case JStr(t) => Ok(parseIso(t))
  }

  /** Saving a timestamp and loading it back gives it again. */
  lemma SaveLoadRoundTrip(now: string, parseIso: string -> Option<string>)
    requires parseIso(now) == Some(now)
    ensures LoadLastScrapeDate(SaveLastScrapeDate(now), parseIso) == Ok(Some(now))
  {
  }

  // ---------------------------------------------------------------------
  // The scraper object

  datatype ScraperState = ScraperState(
    urlList: seq<Descriptor>,
    dataFrames: seq<Entry<seq<Record>>>,
    listingsCounts: seq<nat>,
    lastScrapeDate: Option<string>,
    file: StoredFile)

  /** `Scraper(url_strings)`: the saved date is loaded at construction. */
  function NewScraper(urls: seq<Descriptor>, file: StoredFile, parseIso: string -> Option<string>): (r: Result<ScraperState>)
    ensures r.Ok? <==> LoadLastScrapeDate(file, parseIso).Ok?
    ensures r.Ok? ==> r.value.urlList == urls && r.value.dataFrames == [] && r.value.listingsCounts == []
                      && r.value.file == file
                      && r.value.lastScrapeDate == LoadLastScrapeDate(file, parseIso).value
  {
    var last :- LoadLastScrapeDate(file, parseIso);
    Ok(ScraperState(urls, [], [], last, file))
  }

  /** `add_url`: appends; nothing else changes. */
  function AddUrl(st: ScraperState, d: Descriptor): (r: ScraperState)
    ensures |r.urlList| == |st.urlList| + 1 && r.urlList[..|st.urlList|] == st.urlList && r.urlList[|st.urlList|] == d
    ensures r.(urlList := st.urlList) == st
  {
    st.(urlList := st.urlList + [d])
  }

  /** `URLBuilder(**query)` for each query in order; the first failing one
      raises. */
  function FromConfigAll(rows: seq<QueryRow>): (r: Result<seq<Descriptor>>)
    ensures r.Ok? <==> forall i :: 0 <= i < |rows| ==> FromConfig(rows[i]).Ok?
    ensures r.Ok? ==> |r.value| == |rows| && forall i :: 0 <= i < |rows| ==> FromConfig(rows[i]) == Ok(r.value[i])
  {
    MapAll(rows, FromConfig)
  }

  /** `update_url_list(config)`: one descriptor per entry of
      `config['search_queries']`, in order. A missing key raises KeyError;
      on any failure the list is left as it was. */
  function UpdateUrlList(st: ScraperState, searchQueries: Option<seq<QueryRow>>): (r: Result<ScraperState>)
    ensures searchQueries.None? ==> r == Err(KeyError)
    ensures r.Ok? ==> r.value.(urlList := st.urlList) == st
    ensures r.Ok? ==> |r.value.urlList| == |searchQueries.value|
                      && forall i :: 0 <= i < |searchQueries.value| ==> FromConfig(searchQueries.value[i]) == Ok(r.value.urlList[i])
    ensures searchQueries.Some? ==> (r.Ok? <==> forall i :: 0 <= i < |searchQueries.value| ==> FromConfig(searchQueries.value[i]).Ok?)
  {
    match searchQueries
    case None => Err(KeyError)
    case Some(rows) =>
      var urls :- FromConfigAll(rows);
      Ok(st.(urlList := urls))
  }

  /** Results of the concurrent fetches, in `url_list` order (the order
      `asyncio.gather` returns them in). */
  function FetchAll(urls: seq<Descriptor>, fetch: string -> Response, today: string): (r: seq<Fetched>)
    ensures |r| == |urls| && forall i :: 0 <= i < |urls| ==> r[i] == FetchQuery(urls[i], fetch, today)
  {
    seq(|urls|, i requires 0 <= i < |urls| => FetchQuery(urls[i], fetch, today))
  }

  /** The counts the fetches appended, in fetch order: one for every
      fetch that got past `find_count`. */
  function Counts(fs: seq<Fetched>): (r: seq<nat>)
    ensures |r| <= |fs|
    ensures forall x :: x in r <==> exists i :: 0 <= i < |fs| && fs[i].counted == Some(x)
    ensures (forall i :: 0 <= i < |fs| ==> fs[i].counted.None?) ==> r == []
    ensures (forall i :: 0 <= i < |fs| ==> fs[i].counted.Some?) ==>
              |r| == |fs| && forall i :: 0 <= i < |fs| ==> r[i] == fs[i].counted.value
  {
    if |fs| == 0 then []
    else
      assert forall i :: 1 <= i < |fs| ==> fs[i] == fs[1..][i - 1];
      assert forall i :: 0 <= i < |fs| - 1 ==> fs[1..][i] == fs[i + 1];
      (if fs[0].counted.Some? then [fs[0].counted.value] else []) + Counts(fs[1..])
  }

  /** Counting splits over consecutive runs of fetches, so the counts keep
      the fetches' order. */
  lemma {:induction false} CountsAppend(a: seq<Fetched>, b: seq<Fetched>)
    ensures Counts(a + b) == Counts(a) + Counts(b)
  {
    if |a| == 0 {
      assert a + b == b;
    } else {
      assert (a + b)[0] == a[0];
      assert (a + b)[1..] == a[1..] + b;
      CountsAppend(a[1..], b);
      var head := if a[0].counted.Some? then [a[0].counted.value] else [];
      assert Counts(a + b) == head + (Counts(a[1..]) + Counts(b));
      assert head + (Counts(a[1..]) + Counts(b)) == (head + Counts(a[1..])) + Counts(b);
    }
  }

  /** A fetch that recorded a count adds exactly that count, one that did
      not adds nothing. */
  lemma CountsOfOne(f: Fetched)
    ensures Counts([f]) == (if f.counted.Some? then [f.counted.value] else [])
  {
    assert [f][1..] == [];
  }

  /** `await asyncio.gather(...)`: all results, or the error of the first
      failing fetch. */
  function Gathered(fs: seq<Fetched>): (r: Result<seq<seq<Record>>>)
    ensures r.Ok? <==> forall i :: 0 <= i < |fs| ==> fs[i].records.Ok?
    ensures r.Ok? ==> |r.value| == |fs| && forall i :: 0 <= i < |fs| ==> fs[i].records == Ok(r.value[i])
    ensures r.Err? ==> exists i :: 0 <= i < |fs| && fs[i].records == Err(r.error)
  {
    MapAll(fs, (f: Fetched) => f.records)
  }

  function QueryKeys(urls: seq<Descriptor>): (r: seq<string>)
    ensures |r| == |urls| && forall i :: 0 <= i < |urls| ==> r[i] == DataKey(urls[i])
  {
    seq(|urls|, i requires 0 <= i < |urls| => DataKey(urls[i]))
  }

  datatype ScrapeOutcome = ScrapeOutcome(state: ScraperState, result: Result<seq<Entry<seq<Record>>>>)

  /** `scrape_data`: `data_frames` is emptied first; if any fetch raises,
      the exception leaves it empty and the saved date untouched. Otherwise
      each result is stored under its descriptor's label in `url_list`
      order, the date becomes `now` and the file is overwritten. */
  function ScrapeData(st: ScraperState, fetch: string -> Response, today: string, now: string): (r: ScrapeOutcome)
    ensures r.state.urlList == st.urlList
    ensures |st.listingsCounts| <= |r.state.listingsCounts| <= |st.listingsCounts| + |st.urlList|
    ensures r.state.listingsCounts[..|st.listingsCounts|] == st.listingsCounts
    ensures r.result.Err? ==> r.state.dataFrames == [] && r.state.lastScrapeDate == st.lastScrapeDate
                              && r.state.file == st.file
    ensures r.result.Ok? ==> r.state.dataFrames == r.result.value && r.state.lastScrapeDate == Some(now)
                             && r.state.file == SaveLastScrapeDate(now)
    ensures r.result.Ok? ==> DistinctKeys(r.result.value)
                             && forall k :: k in Keys(r.result.value) <==> exists i :: 0 <= i < |st.urlList| && DataKey(st.urlList[i]) == k
  {
    var fs := FetchAll(st.urlList, fetch, today);
    var counts := st.listingsCounts + Counts(fs);
    assert counts[..|st.listingsCounts|] == st.listingsCounts;
    match Gathered(fs)
    case Err(e) => ScrapeOutcome(st.(dataFrames := [], listingsCounts := counts), Err(e))
    case Ok(results) => StoreResults(st.(listingsCounts := counts), results, now)
  }

  /** The successful end of `scrape_data`: the results are stored under
      their labels, the date is set and saved. */
  function StoreResults(st: ScraperState, results: seq<seq<Record>>, now: string): (r: ScrapeOutcome)
    requires |results| == |st.urlList|
    ensures r.result.Ok? && r.state.dataFrames == r.result.value
    ensures r.state == st.(dataFrames := r.result.value, lastScrapeDate := Some(now), file := SaveLastScrapeDate(now))
    ensures DistinctKeys(r.result.value)
    ensures forall k :: k in Keys(r.result.value) <==> exists i :: 0 <= i < |st.urlList| && DataKey(st.urlList[i]) == k
  {
    var keys := QueryKeys(st.urlList);
    var es := PutAll([], keys, results);
    assert forall k :: k in keys <==> exists i :: 0 <= i < |st.urlList| && DataKey(st.urlList[i]) == k;
    ScrapeOutcome(st.(dataFrames := es, lastScrapeDate := Some(now), file := SaveLastScrapeDate(now)), Ok(es))
  }

  /** The scrape succeeds exactly when every query's fetch does; a failing
      scrape reports the error of one of the failing fetches. */
  lemma ScrapeSucceedsIff(st: ScraperState, fetch: string -> Response, today: string, now: string)
    ensures ScrapeData(st, fetch, today, now).result.Ok?
            <==> forall i :: 0 <= i < |st.urlList| ==> FetchQuery(st.urlList[i], fetch, today).records.Ok?
    ensures ScrapeData(st, fetch, today, now).result.Err? ==>
              exists i :: 0 <= i < |st.urlList|
                          && FetchQuery(st.urlList[i], fetch, today).records == Err(ScrapeData(st, fetch, today, now).result.error)
  {
    var fs := FetchAll(st.urlList, fetch, today);
    ScrapeResultGathered(st, fetch, today, now);
    assert forall i :: 0 <= i < |st.urlList| ==> fs[i].records == FetchQuery(st.urlList[i], fetch, today).records;
  }

  /** A scrape fails exactly when gathering the fetches does, with its error. */
  lemma ScrapeResultGathered(st: ScraperState, fetch: string -> Response, today: string, now: string)
    ensures ScrapeData(st, fetch, today, now).result.Ok? <==> Gathered(FetchAll(st.urlList, fetch, today)).Ok?
    ensures ScrapeData(st, fetch, today, now).result.Err? ==>
              ScrapeData(st, fetch, today, now).result.error == Gathered(FetchAll(st.urlList, fetch, today)).error
  {
  }

  /** After a successful scrape, the label of query `i` holds the records
      of the last query with that label. */
  lemma ScrapeLastWriteWins(st: ScraperState, fetch: string -> Response, today: string, now: string, i: nat)
    requires ScrapeData(st, fetch, today, now).result.Ok?
    requires i < |st.urlList|
    requires forall j :: i < j < |st.urlList| ==> DataKey(st.urlList[j]) != DataKey(st.urlList[i])
    ensures Lookup(ScrapeData(st, fetch, today, now).state.dataFrames, DataKey(st.urlList[i]))
            == Some(FetchQuery(st.urlList[i], fetch, today).records.value)
  {
    var fs := FetchAll(st.urlList, fetch, today);
    var results := Gathered(fs).value;
    var keys := QueryKeys(st.urlList);
    LastWriteWins([], keys, results, keys[i]);
    assert LastIndex(keys, keys[i]) == i;
  }

  /** The saved date of a successful scrape is what the next start loads. */
  lemma ScrapeThenLoad(st: ScraperState, fetch: string -> Response, today: string, now: string,
                       parseIso: string -> Option<string>)
    requires ScrapeData(st, fetch, today, now).result.Ok?
    requires parseIso(now) == Some(now)
    ensures LoadLastScrapeDate(ScrapeData(st, fetch, today, now).state.file, parseIso) == Ok(Some(now))
  {
    SaveLoadRoundTrip(now, parseIso);
  }
}

=== FILE: search_queries.dfy ===
/** The search-query editor of `GUI/SearchQueriesDialog.py`: the table model
    over the list of query dictionaries and the dialog's add and delete
    buttons. The list is a sequence of configuration rows; Qt's change
    notifications and message boxes are left out. */
module SearchQueries {
  import opened Wrappers
  import opened Text
  import opened Config
  import opened UrlJoin

  // ---------------------------------------------------------------------
  // Normalising and validating an edited value

  /** The replacement `remove_polish_signs` makes for one character. */
  function Deaccent(c: char): char {
    match c
    case 'ą' => 'a'
    case 'ć' => 'c'
    case 'ę' => 'e'
    case 'ł' => 'l'
    case 'ń' => 'n'
    case 'ó' => 'o'
    case 'ś' => 's'
    case 'ź' => 'z'
    case 'ż' => 'z'
    case _ => c
  }

  /** `text.replace(a, b)` for single characters `a` and `b`. */
  function ReplaceChar(s: string, a: char, b: char): (r: string)
    ensures |r| == |s|
    ensures forall i :: 0 <= i < |s| ==> r[i] == (if s[i] == a then b else s[i])
  {
    seq(|s|, i requires 0 <= i < |s| => if s[i] == a then b else s[i])
  }

  /** `remove_polish_signs`: the nine replacements, one after the other, in
      the dictionary's order. */
  function RemovePolishSigns(text: string): (r: string)
    ensures |r| == |text|
    ensures forall i :: 0 <= i < |r| ==> !IsPolishLower(r[i])
  {
    var t1 := ReplaceChar(text, 'ą', 'a');
    var t2 := ReplaceChar(t1, 'ć', 'c');
    var t3 := ReplaceChar(t2, 'ę', 'e');
    var t4 := ReplaceChar(t3, 'ł', 'l');
    var t5 := ReplaceChar(t4, 'ń', 'n');
    var t6 := ReplaceChar(t5, 'ó', 'o');
    var t7 := ReplaceChar(t6, 'ś', 's');
    var t8 := ReplaceChar(t7, 'ź', 'z');
    ReplaceChar(t8, 'ż', 'z')
  }

  /** Since every replacement is an ASCII letter, the nine passes amount to
      replacing each character on its own; nothing else changes. */
  lemma RemovePolishSignsPointwise(text: string)
    ensures forall i :: 0 <= i < |text| ==> RemovePolishSigns(text)[i] == Deaccent(text[i])
  {
  }

  lemma RemovePolishSignsIdempotent(text: string)
    ensures RemovePolishSigns(RemovePolishSigns(text)) == RemovePolishSigns(text)
  {
    var r := RemovePolishSigns(text);
    RemovePolishSignsPointwise(r);
    assert forall i :: 0 <= i < |r| ==> Deaccent(r[i]) == r[i];
  }

  /** The class `[a-z0-9\-_\sąćęłńóśźż]`. */
  predicate IsQueryChar(c: char) {
    IsAsciiLower(c) || IsDigit(c) || c == '-' || c == '_' || IsSpace(c) || IsPolishLower(c)
  }

  /** `validate_input`: `^[...]+$` matches. The class contains the line
      feed, so the `$` before a final line feed adds nothing. */
  predicate ValidateInput(text: string) {
    |text| >= 1 && forall i :: 0 <= i < |text| ==> IsQueryChar(text[i])
  }

  /** The class lets no '?', '#' or ';' through, so a validated value
      cannot cut the search URL short; it does let tabs and line breaks
      through (`\s`), and a validated value is kept whole in a URL path
      exactly when it has none of those. */
  lemma ValidatedIsPathText(text: string)
    requires ValidateInput(text)
    ensures forall i :: 0 <= i < |text| ==> text[i] != '?' && text[i] != '#' && text[i] != ';'
    ensures IsPathText(text) <==> forall i :: 0 <= i < |text| ==> !IsUnsafe(text[i])
  {
  }

  /** A tab between two letters passes validation. */
  lemma TabIsValid()
    ensures ValidateInput("a\tb")
  {
    assert IsSpace('\t');
  }

  /** What `setData` stores: stripped, lower-cased, without Polish letters. */
  function Normalize(value: string): (r: string)
    ensures |r| == |Strip(value)| <= |value|
    ensures forall i :: 0 <= i < |r| ==> r[i] == Deaccent(LowerChar(Strip(value)[i]))
    ensures |r| == 0 || (!IsSpace(r[0]) && !IsSpace(r[|r| - 1]))
    ensures forall i :: 0 <= i < |r| ==> LowerChar(r[i]) == r[i] && !IsPolishLower(r[i])
  {
    var t := Strip(value);
    StripShorter(value);
    RemovePolishSignsPointwise(Lower(t));
    var r := RemovePolishSigns(Lower(t));
    forall i | 0 <= i < |r| ensures LowerChar(r[i]) == r[i] && (IsSpace(r[i]) <==> IsSpace(t[i])) {
      FoldChar(t[i]);
    }
    r
  }

  /** Folding one character: the result is lower-case and is white space
      exactly when the character was. */
  lemma FoldChar(c: char)
    ensures LowerChar(Deaccent(LowerChar(c))) == Deaccent(LowerChar(c))
    ensures IsSpace(Deaccent(LowerChar(c))) <==> IsSpace(c)
  {
  }

  lemma StripShorter(s: string)
    ensures |Strip(s)| <= |s|
  {
    var i :| StrippedAt(s, i, Strip(s));
  }

  /** A stored value is already normal: editing it again stores it as is. */
  lemma NormalizeIdempotent(value: string)
    ensures Normalize(Normalize(value)) == Normalize(value)
  {
    NormalizeOfClean(Normalize(value));
  }

  /** Text without surrounding white space, upper-case or Polish letters
      is stored unchanged. */
  lemma NormalizeOfClean(r: string)
    requires |r| == 0 || (!IsSpace(r[0]) && !IsSpace(r[|r| - 1]))
    requires forall i :: 0 <= i < |r| ==> LowerChar(r[i]) == r[i] && !IsPolishLower(r[i])
    ensures Normalize(r) == r
  {
    StripOfStripped(r);
    var n := Normalize(r);
    forall i | 0 <= i < |r| ensures n[i] == r[i] {
      assert n[i] == Deaccent(LowerChar(r[i]));
    }
  }

  /** Stripping text without surrounding white space changes nothing. */
  lemma StripOfStripped(s: string)
    requires |s| == 0 || (!IsSpace(s[0]) && !IsSpace(s[|s| - 1]))
    ensures Strip(s) == s
  {
    var i :| StrippedAt(s, i, Strip(s));
    if |s| > 0 {
      assert i == 0;
      assert |Strip(s)| == |s|;
    }
  }

  /** A value that is blank after stripping is rejected. */
  lemma BlankIsInvalid(value: string)
    requires AllSpace(value)
    ensures !ValidateInput(Normalize(value))
  {
  }

  /** Upper-case Polish letters are folded first and then lose their
      diacritics, so "Łódź" is stored as "lodz". */
  lemma FoldExample()
    ensures RemovePolishSigns(Lower("Łódź")) == "lodz"
  {
    assert Lower("Łódź") == "łódź";
    RemovePolishSignsPointwise("łódź");
  }

  // ---------------------------------------------------------------------
  // The table model

  /** A model index: invalid, or a row and one of the three columns. */
  datatype ModelIndex = InvalidIndex | CellIndex(row: nat, column: nat)

  const EditRole: int := 2
  const ColumnTotal: nat := 3

  /** Qt only hands out valid indexes inside the model. */
  predicate IndexInside(index: ModelIndex, rows: seq<QueryRow>) {
    index.CellIndex? ==> index.row < |rows| && index.column < ColumnTotal
  }

  /** `rowCount`: one row per stored query, so the rows Qt may address are
      exactly those below the count. */
  function RowCount(rows: seq<QueryRow>): (r: nat)
    ensures r == |rows|
    ensures forall i: nat :: IndexInside(CellIndex(i, 0), rows) <==> i < r
  {
    |rows|
  }

  /** `columnCount`: the three fields query, city and distance, whatever
      the rows; in a non-empty table the columns Qt may address are exactly
      those below the count. */
  function ColumnCount(rows: seq<QueryRow>): (r: nat)
    ensures r == 3
    ensures |rows| > 0 ==> forall c: nat :: IndexInside(CellIndex(0, c), rows) <==> c < r
  {
    ColumnTotal
  }

  /** The field column `column` edits; the distance is stored as text. */
  function SetColumn(q: QueryRow, column: nat, v: string): QueryRow
    requires column < ColumnTotal
  {
    if column == 0 then q.(itemQuery := Str(v))
    else if column == 1 then q.(city := Str(v))
    else q.(distance := Str(v))
  }

  function GetColumn(q: QueryRow, column: nat): Field
    requires column < ColumnTotal
  {
    if column == 0 then q.itemQuery else if column == 1 then q.city else q.distance
  }

  datatype Edit = Edit(accepted: bool, rows: seq<QueryRow>)

  /** `setData`: the value is normalised before it is validated; an invalid
      value, a role other than editing or an invalid index is refused and
      nothing changes. */
  function SetData(rows: seq<QueryRow>, index: ModelIndex, value: string, role: int): (r: Edit)
    requires IndexInside(index, rows)
    ensures r.accepted <==> index.CellIndex? && role == EditRole && ValidateInput(Normalize(value))
    ensures !r.accepted ==> r.rows == rows
    ensures |r.rows| == |rows|
    ensures r.accepted ==> forall j :: 0 <= j < |rows| && j != index.row ==> r.rows[j] == rows[j]
    ensures r.accepted ==> GetColumn(r.rows[index.row], index.column) == Str(Normalize(value))
    ensures r.accepted ==> forall c :: 0 <= c < ColumnTotal && c != index.column ==>
                             GetColumn(r.rows[index.row], c) == GetColumn(rows[index.row], c)
  {
    if index.CellIndex? && role == EditRole then
      var v := Normalize(value);
      if !ValidateInput(v) then Edit(false, rows)
      else Edit(true, rows[index.row := SetColumn(rows[index.row], index.column, v)])
    else Edit(false, rows)
  }

  /** An accepted value is stored in the form the scraper's descriptor
      expects: valid, and without Polish letters. */
  lemma StoredValueIsClean(rows: seq<QueryRow>, index: ModelIndex, value: string, role: int)
    requires IndexInside(index, rows)
    requires SetData(rows, index, value, role).accepted
    ensures var f := GetColumn(SetData(rows, index, value, role).rows[index.row], index.column);
            f.Str? && ValidateInput(f.s) && forall i :: 0 <= i < |f.s| ==> !IsPolishLower(f.s[i])
  {
  }

  /** `addQuery`: appends at the end. */
  function AddQuery(rows: seq<QueryRow>, q: QueryRow): (r: seq<QueryRow>)
    ensures RowCount(r) == RowCount(rows) + 1
    ensures r[..|rows|] == rows && r[|rows|] == q
  {
    rows + [q]
  }

  /** `removeQuery(row)`: `pop(row)`. */
  function RemoveQuery(rows: seq<QueryRow>, row: nat): (r: seq<QueryRow>)
    requires row < |rows|
    ensures RowCount(r) == RowCount(rows) - 1
    ensures forall j :: 0 <= j < row ==> r[j] == rows[j]
    ensures forall j :: row <= j < |r| ==> r[j] == rows[j + 1]
  {
    rows[..row] + rows[row + 1..]
  }

  /** Adding a row and removing it again restores the table. */
  lemma AddThenRemove(rows: seq<QueryRow>, q: QueryRow)
    ensures RemoveQuery(AddQuery(rows, q), |rows|) == rows
  {
  }

  /** The dialog's `add_query`: a blank row. */
  function AddBlankQuery(rows: seq<QueryRow>): (r: seq<QueryRow>)
    ensures |r| == |rows| + 1 && r[..|rows|] == rows
    ensures r[|rows|] == QueryRow(Str(""), Str(""), Str(""))
  {
    AddQuery(rows, BlankRow)
  }

  // ---------------------------------------------------------------------
  // Deleting the selected rows

  /** The rows from index `i` on whose index is not in `gone`, in order. */
  function KeepFrom(rows: seq<QueryRow>, gone: set<nat>, i: nat): seq<QueryRow>
    requires i <= |rows|
    decreases |rows| - i
  {
    if i == |rows| then [] else (if i in gone then [] else [rows[i]]) + KeepFrom(rows, gone, i + 1)
  }

  /** The original list minus the rows at the indexes in `gone`. */
  function Keep(rows: seq<QueryRow>, gone: set<nat>): seq<QueryRow> {
    KeepFrom(rows, gone, 0)
  }

  /** Only the indexes from `i` on matter. */
  lemma {:induction false} KeepFromLocal(rows: seq<QueryRow>, gone: set<nat>, other: set<nat>, i: nat)
    requires i <= |rows|
    requires forall j :: i <= j < |rows| ==> (j in gone <==> j in other)
    decreases |rows| - i
    ensures KeepFrom(rows, gone, i) == KeepFrom(rows, other, i)
  {
    if i < |rows| {
      KeepFromLocal(rows, gone, other, i + 1);
      var here := if i in gone then [] else [rows[i]];
      assert here == if i in other then [] else [rows[i]];
      assert KeepFrom(rows, gone, i) == here + KeepFrom(rows, gone, i + 1);
      assert KeepFrom(rows, other, i) == here + KeepFrom(rows, other, i + 1);
    }
  }

  /** Rows below every removed index are all kept. */
  lemma {:induction false} KeepFromPrefix(rows: seq<QueryRow>, gone: set<nat>, i: nat, m: nat)
    requires i <= m <= |rows|
    requires forall d :: d in gone ==> d >= m
    decreases m - i
    ensures KeepFrom(rows, gone, i) == rows[i..m] + KeepFrom(rows, gone, m)
  {
    if i < m {
      KeepFromPrefix(rows, gone, i + 1, m);
      var rest := KeepFrom(rows, gone, m);
      assert i !in gone;
      assert KeepFrom(rows, gone, i) == [rows[i]] + KeepFrom(rows, gone, i + 1);
      assert rows[i..m] == [rows[i]] + rows[i + 1..m];
      assert [rows[i]] + (rows[i + 1..m] + rest) == ([rows[i]] + rows[i + 1..m]) + rest;
    }
  }

  lemma {:induction false} KeepNothing(rows: seq<QueryRow>, i: nat)
    requires i <= |rows|
    decreases |rows| - i
    ensures KeepFrom(rows, {}, i) == rows[i..]
  {
    if i < |rows| {
      KeepNothing(rows, i + 1);
    }
  }

  /** Removing the largest still-present index from the kept list is
      removing it from the original. */
  lemma RemoveLargest(rows: seq<QueryRow>, gone: set<nat>, m: nat)
    requires m < |rows| && m !in gone
    requires forall d :: d in gone ==> d > m
    ensures |Keep(rows, gone)| > m
    ensures Keep(rows, gone)[..m] + Keep(rows, gone)[m + 1..] == Keep(rows, gone + {m})
  {
    KeepFromPrefix(rows, gone, 0, m);
    KeepFromPrefix(rows, gone + {m}, 0, m);
    KeepFromLocal(rows, gone, gone + {m}, m + 1);
    var cur := Keep(rows, gone);
    var tail := KeepFrom(rows, gone, m + 1);
    assert KeepFrom(rows, gone, m) == [rows[m]] + tail;
    assert KeepFrom(rows, gone + {m}, m) == tail;
    assert cur == rows[..m] + ([rows[m]] + tail);
    assert cur[..m] == rows[..m];
    assert cur[m + 1..] == tail;
  }

  method MaxOf(s: set<nat>) returns (m: nat)
    requires s != {}
    ensures m in s && forall x :: x in s ==> x <= m
    decreases |s|
  {
    var x :| x in s;
    if s == {x} {
      m := x;
    } else {
      assert s - {x} != {} by {
        var y :| y in s && y != x;
        assert y in s - {x};
      }
      var rest := MaxOf(s - {x});
      m := if x > rest then x else rest;
      assert forall y :: y in s ==> y == x || y in s - {x};
    }
  }

  /** `delete_query`: the selected rows are removed one by one from the
      highest index down, so each removal leaves the indexes still to be
      removed pointing at the same rows. The result is the original list
      without the selected rows, in the original order; an empty selection
      changes nothing. */
  method DeleteSelected(rows: seq<QueryRow>, selected: set<nat>) returns (r: seq<QueryRow>)
    requires forall i :: i in selected ==> i < |rows|
    ensures r == Keep(rows, selected)
    ensures |r| == |rows| - |selected|
    ensures selected == {} ==> r == rows
  {
    r := rows;
    var remaining := selected;
    ghost var done: set<nat> := {};
    KeepNothing(rows, 0);
    while remaining != {}
      invariant remaining + done == selected && remaining !! done
      invariant forall e, d :: e in remaining && d in done ==> e < d
      invariant r == Keep(rows, done)
      invariant |r| == |rows| - |done|
      decreases |remaining|
    {
      var m := MaxOf(remaining);
      RemoveLargest(rows, done, m);
      r := r[..m] + r[m + 1..];
      remaining := remaining - {m};
      done := done + {m};
    }
  }
}

=== FILE: spreadsheet.dfy ===
/** The Excel export of `Exporting/SpreadsheetManager.py` and of the older
    `spreadsheet_manager.py` / `formatting.py`. A workbook is a list of
    sheets, each a grid of cells holding an optional text and an optional
    link target, plus the column widths that were set. */
module Spreadsheet {
  import opened Wrappers
  import opened Text
  import opened Table
  import opened Keyed
  import opened Formatting

  // ---------------------------------------------------------------------
  // Workbook

  datatype XCell = XCell(value: Option<string>, link: Option<string>)

  const EmptyXCell: XCell := XCell(None, None)

  /** `widths` maps a 0-based column to the width given to it. */
  datatype Sheet = Sheet(name: string, grid: seq<seq<XCell>>, widths: map<nat, nat>)

  /** What a reloaded workbook holds for a written text: openpyxl saves an
      empty string as a cell without a value, which reads back as `None`. */
  function Stored(text: string): (r: Option<string>)
    ensures r.None? <==> text == ""
    ensures r.Some? ==> r.value == text
  {
    if text == "" then None else Some(text)
  }

  /** What `to_excel` leaves in a cell for a value: nothing for `None` (pandas
      writes it as the empty string), otherwise its text, and nothing again
      when that text is empty. */
  function Written(c: Cell): (r: Option<string>)
    ensures r.None? <==> c.NullCell? || c == StrCell("")
    ensures r.Some? ==> r.value == Render(c) && r.value != ""
  {
    if c.NullCell? then None else Stored(Render(c))
  }

  /** `df.to_excel(index=False)`: a header row of labels, then one row per
      frame row. */
  function WriteFrame(f: Frame): (g: seq<seq<XCell>>)
    ensures |g| == |f.rows| + 1
    ensures |g[0]| == |f.columns| && forall c :: 0 <= c < |f.columns| ==> g[0][c] == XCell(Stored(f.columns[c]), None)
    ensures forall r :: 0 <= r < |f.rows| ==> |g[r + 1]| == |f.rows[r]|
    ensures forall r, c :: 0 <= r < |f.rows| && 0 <= c < |f.rows[r]| ==> g[r + 1][c] == XCell(Written(f.rows[r][c]), None)
  {
    var header := seq(|f.columns|, c requires 0 <= c < |f.columns| => XCell(Stored(f.columns[c]), None));
    var body := seq(|f.rows|, r requires 0 <= r < |f.rows| =>
                      seq(|f.rows[r]|, c requires 0 <= c < |f.rows[r]| => XCell(Written(f.rows[r][c]), None)));
    [header] + body
  }

  /** Excel sheet names are at most 31 characters: `key[:31]`. */
  const MaxSheetName: nat := 31

  function SheetName(key: string): (r: string)
    ensures |r| <= MaxSheetName && |r| <= |key| && r == key[..|r|]
    ensures |key| <= MaxSheetName ==> r == key
    ensures |key| > MaxSheetName ==> |r| == MaxSheetName
  {
    if |key| <= MaxSheetName then key else key[..MaxSheetName]
  }

  /** The characters openpyxl refuses in a sheet title. */
  const TitleForbidden: set<char> := {'\\', '*', '?', ':', '/', '[', ']'}

  /** A title openpyxl's title setter accepts; any other raises ValueError. */
  predicate ValidTitle(t: string) {
    |t| > 0 && forall i :: 0 <= i < |t| ==> t[i] !in TitleForbidden
  }

  function SheetNames(sheets: seq<Sheet>): (r: seq<string>)
    ensures |r| == |sheets| && forall j :: 0 <= j < |sheets| ==> r[j] == sheets[j].name
  {
    seq(|sheets|, j requires 0 <= j < |sheets| => sheets[j].name)
  }

  /** `workbook[name]`: the first sheet with that name. */
  function FindSheet(sheets: seq<Sheet>, name: string): (r: Option<nat>)
    ensures r.Some? <==> name in SheetNames(sheets)
    ensures r.Some? ==> r.value < |sheets| && sheets[r.value].name == name
                        && forall j :: 0 <= j < r.value ==> sheets[j].name != name
  {
    FirstIndex(SheetNames(sheets), name)
  }

  // ---------------------------------------------------------------------
  // Writing the frames

  /** Cell (k, c) of a grid, empty outside it. */
  function CellAt(g: seq<seq<XCell>>, k: nat, c: nat): XCell {
    if k < |g| && c < |g[k]| then g[k][c] else EmptyXCell
  }

  function RowLength(g: seq<seq<XCell>>, k: nat): nat {
    if k < |g| then |g[k]| else 0
  }

  function Larger(a: nat, b: nat): nat {
    if a >= b then a else b
  }

  /** Writing grid `h` into a sheet that already holds `g`: every cell `h`
      has replaces the one below it, and the rest of `g` shows through. */
  function Overlay(g: seq<seq<XCell>>, h: seq<seq<XCell>>): (r: seq<seq<XCell>>)
    ensures |r| == Larger(|g|, |h|)
    ensures forall k :: 0 <= k < |r| ==> |r[k]| == Larger(RowLength(g, k), RowLength(h, k))
    ensures forall k: nat, c: nat :: CellAt(r, k, c) == if k < |h| && c < |h[k]| then h[k][c] else CellAt(g, k, c)
  {
    seq(Larger(|g|, |h|), k requires 0 <= k < Larger(|g|, |h|) =>
      seq(Larger(RowLength(g, k), RowLength(h, k)), c requires 0 <= c < Larger(RowLength(g, k), RowLength(h, k)) =>
        if k < |h| && c < |h[k]| then h[k][c] else CellAt(g, k, c)))
  }

  /** A grid written over one it covers row by row replaces it entirely. */
  lemma OverlayCovered(g: seq<seq<XCell>>, h: seq<seq<XCell>>)
    requires |g| <= |h| && forall k :: 0 <= k < |g| ==> |g[k]| <= |h[k]|
    ensures Overlay(g, h) == h
  {
    var r := Overlay(g, h);
    forall k | 0 <= k < |h|
      ensures r[k] == h[k]
    {
      assert |r[k]| == |h[k]|;
      forall c | 0 <= c < |h[k]|
        ensures r[k][c] == h[k][c]
      {
        assert CellAt(r, k, c) == h[k][c];
      }
    }
  }

  /** The titles the frames are written under. */
  function Titles(frames: seq<Entry<Frame>>, name: string -> string): (r: seq<string>)
    ensures |r| == |frames| && forall i :: 0 <= i < |frames| ==> r[i] == name(frames[i].key)
  {
    seq(|frames|, i requires 0 <= i < |frames| => name(frames[i].key))
  }

  /** One new sheet per frame, in order. */
  function FreshSheets(frames: seq<Entry<Frame>>, name: string -> string): (r: seq<Sheet>)
    ensures |r| == |frames|
    ensures forall i :: 0 <= i < |frames| ==> r[i] == Sheet(name(frames[i].key), WriteFrame(frames[i].value), map[])
  {
    seq(|frames|, i requires 0 <= i < |frames| => Sheet(name(frames[i].key), WriteFrame(frames[i].value), map[]))
  }

  /** The loop of `_create_spreadsheets` from workbook `sheets` on. pandas
      writes a frame into the sheet that already has its title (the writer
      is in "w" mode, so the sheet is overlaid); otherwise it adds a sheet,
      whose title openpyxl accepts or refuses with ValueError. */
  function WriteSheets(sheets: seq<Sheet>, frames: seq<Entry<Frame>>, name: string -> string): Result<seq<Sheet>>
    decreases |frames|
  {
    if |frames| == 0 then Ok(sheets)
    else
      var t := name(frames[0].key);
      var g := WriteFrame(frames[0].value);
      match FindSheet(sheets, t)
      case Some(j) => WriteSheets(SetGrid(sheets, j, Overlay(sheets[j].grid, g)), frames[1..], name)
      case None =>
        if ValidTitle(t) then WriteSheets(sheets + [Sheet(t, g, map[])], frames[1..], name)
        else Err(ValueError)
  }

  lemma WriteSheetsStep(sheets: seq<Sheet>, frames: seq<Entry<Frame>>, name: string -> string)
    requires |frames| > 0
    ensures Titles(frames, name) == [name(frames[0].key)] + Titles(frames[1..], name)
  {
    assert forall i :: 0 <= i < |frames| - 1 ==> frames[1..][i] == frames[i + 1];
  }

  /** A frame whose title is new and accepted gets a sheet at the end. */
  lemma WriteSheetsNew(sheets: seq<Sheet>, frames: seq<Entry<Frame>>, name: string -> string)
    requires |frames| > 0 && name(frames[0].key) !in SheetNames(sheets) && ValidTitle(name(frames[0].key))
    ensures WriteSheets(sheets, frames, name)
            == WriteSheets(sheets + [Sheet(name(frames[0].key), WriteFrame(frames[0].value), map[])], frames[1..], name)
  {
  }

  /** A frame whose title the workbook has is written over that sheet. */
  lemma WriteSheetsOver(sheets: seq<Sheet>, frames: seq<Entry<Frame>>, name: string -> string, j: nat)
    requires |frames| > 0 && FindSheet(sheets, name(frames[0].key)) == Some(j)
    ensures WriteSheets(sheets, frames, name)
            == WriteSheets(SetGrid(sheets, j, Overlay(sheets[j].grid, WriteFrame(frames[0].value))), frames[1..], name)
  {
  }

  /** Writing fails exactly when some title is new to the workbook and
      refused, and then with ValueError. */
  lemma {:induction false} WriteSheetsFails(sheets: seq<Sheet>, frames: seq<Entry<Frame>>, name: string -> string)
    requires forall j :: 0 <= j < |sheets| ==> ValidTitle(sheets[j].name)
    decreases |frames|
    ensures WriteSheets(sheets, frames, name).Err? <==> exists t :: t in Titles(frames, name) && !ValidTitle(t)
    ensures WriteSheets(sheets, frames, name).Err? ==> WriteSheets(sheets, frames, name).error == ValueError
  {
    if |frames| > 0 {
      var t := name(frames[0].key);
      var g := WriteFrame(frames[0].value);
      WriteSheetsStep(sheets, frames, name);
      match FindSheet(sheets, t)
      case Some(j) =>
        WriteSheetsFails(SetGrid(sheets, j, Overlay(sheets[j].grid, g)), frames[1..], name);
      case None =>
        if ValidTitle(t) {
          WriteSheetsFails(sheets + [Sheet(t, g, map[])], frames[1..], name);
        }
    }
  }

  /** Writing keeps the titles distinct; the workbook ends with exactly the
      titles it had and those of the frames, and no widths are set. */
  lemma {:induction false} WriteSheetsNames(sheets: seq<Sheet>, frames: seq<Entry<Frame>>, name: string -> string)
    requires Distinct(SheetNames(sheets))
    requires forall j :: 0 <= j < |sheets| ==> sheets[j].widths == map[]
    decreases |frames|
    ensures var r := WriteSheets(sheets, frames, name);
            r.Ok? ==> Distinct(SheetNames(r.value))
                      && (forall x :: x in SheetNames(r.value) <==> x in SheetNames(sheets) || x in Titles(frames, name))
                      && forall j :: 0 <= j < |r.value| ==> r.value[j].widths == map[]
  {
    if |frames| > 0 {
      var t := name(frames[0].key);
      var g := WriteFrame(frames[0].value);
      WriteSheetsStep(sheets, frames, name);
      match FindSheet(sheets, t)
      case Some(j) =>
        var next := SetGrid(sheets, j, Overlay(sheets[j].grid, g));
        SetGridNames(sheets, j, Overlay(sheets[j].grid, g));
        WriteSheetsNames(next, frames[1..], name);
      case None =>
        if ValidTitle(t) {
          var next := sheets + [Sheet(t, g, map[])];
          assert SheetNames(next) == SheetNames(sheets) + [t];
          WriteSheetsNames(next, frames[1..], name);
        }
    }
  }

  /** Titles that are distinct, all new to the workbook and all accepted. */
  predicate FreshTitles(sheets: seq<Sheet>, ts: seq<string>) {
    Distinct(ts) && forall t :: t in ts ==> ValidTitle(t) && t !in SheetNames(sheets)
  }

  /** After the first frame's sheet is added, the other titles are still
      fresh. */
  lemma FreshTitlesTail(sheets: seq<Sheet>, frames: seq<Entry<Frame>>, name: string -> string)
    requires |frames| > 0 && FreshTitles(sheets, Titles(frames, name))
    ensures FreshTitles(sheets + [Sheet(name(frames[0].key), WriteFrame(frames[0].value), map[])], Titles(frames[1..], name))
  {
    var ts := Titles(frames, name);
    var rest := Titles(frames[1..], name);
    var next := sheets + [Sheet(name(frames[0].key), WriteFrame(frames[0].value), map[])];
    assert forall i :: 0 <= i < |rest| ==> rest[i] == ts[i + 1];
    assert SheetNames(next) == SheetNames(sheets) + [ts[0]];
    forall u | u in rest
      ensures ValidTitle(u) && u !in SheetNames(next)
    {
      var i :| 0 <= i < |rest| && rest[i] == u;
      assert ts[i + 1] == u;
    }
  }

  lemma FreshSheetsCons(sheets: seq<Sheet>, frames: seq<Entry<Frame>>, name: string -> string)
    requires |frames| > 0
    ensures sheets + FreshSheets(frames, name)
            == (sheets + [Sheet(name(frames[0].key), WriteFrame(frames[0].value), map[])]) + FreshSheets(frames[1..], name)
  {
    assert FreshSheets(frames, name) == [Sheet(name(frames[0].key), WriteFrame(frames[0].value), map[])] + FreshSheets(frames[1..], name);
  }

  /** With distinct titles, all new to the workbook and all accepted, every
      frame gets a sheet of its own, in order. */
  lemma {:induction false} WriteSheetsFresh(sheets: seq<Sheet>, frames: seq<Entry<Frame>>, name: string -> string)
    decreases |frames|
    ensures FreshTitles(sheets, Titles(frames, name)) ==> WriteSheets(sheets, frames, name) == Ok(sheets + FreshSheets(frames, name))
  {
    if |frames| == 0 {
      assert sheets + FreshSheets(frames, name) == sheets;
    } else if FreshTitles(sheets, Titles(frames, name)) {
      var next := sheets + [Sheet(name(frames[0].key), WriteFrame(frames[0].value), map[])];
      assert Titles(frames, name)[0] == name(frames[0].key);
      WriteSheetsNew(sheets, frames, name);
      FreshTitlesTail(sheets, frames, name);
      WriteSheetsFresh(next, frames[1..], name);
      FreshSheetsCons(sheets, frames, name);
    }
  }

  /** `_create_spreadsheets`: a new workbook without sheets (openpyxl's
      default sheet is removed), each frame written in order under `name` of
      its key. Closing a workbook that got no sheet raises IndexError. */
  function CreateSheets(frames: seq<Entry<Frame>>, name: string -> string): (r: Result<seq<Sheet>>)
    ensures |frames| == 0 ==> r == Err(IndexError)
    ensures |frames| > 0 ==> (r.Err? <==> exists t :: t in Titles(frames, name) && !ValidTitle(t))
    ensures |frames| > 0 && r.Err? ==> r.error == ValueError
    ensures r.Ok? ==> Distinct(SheetNames(r.value))
                      && (forall x :: x in SheetNames(r.value) <==> x in Titles(frames, name))
                      && forall j :: 0 <= j < |r.value| ==> r.value[j].widths == map[]
    ensures r.Ok? && Distinct(Titles(frames, name)) ==> r.value == FreshSheets(frames, name)
  {
    if |frames| == 0 then Err(IndexError)
    else
      WriteSheetsFails([], frames, name);
      WriteSheetsNames([], frames, name);
      WriteSheetsFresh([], frames, name);
      assert WriteSheets([], frames, name).Ok? && Distinct(Titles(frames, name)) ==> FreshTitles([], Titles(frames, name));
      assert [] + FreshSheets(frames, name) == FreshSheets(frames, name);
      WriteSheets([], frames, name)
  }

  /** Two labels that agree on their first 31 characters name the same
      sheet: the second frame is written over the first in that one sheet,
      and it is this sheet the hyperlink step finds for both labels. */
  lemma SheetNamesCollide(a: string, b: string, fa: Frame, fb: Frame)
    requires |a| >= MaxSheetName && |b| >= MaxSheetName && a[..MaxSheetName] == b[..MaxSheetName]
    ensures SheetName(a) == SheetName(b)
    ensures ValidTitle(SheetName(a)) ==>
              CreateSheets([Entry(a, fa), Entry(b, fb)], SheetName)
              == Ok([Sheet(SheetName(a), Overlay(WriteFrame(fa), WriteFrame(fb)), map[])])
    ensures !ValidTitle(SheetName(a)) ==> CreateSheets([Entry(a, fa), Entry(b, fb)], SheetName) == Err(ValueError)
  {
    var frames := [Entry(a, fa), Entry(b, fb)];
    var t := SheetName(a);
    assert SheetName(b) == t;
    if ValidTitle(t) {
      var first := [Sheet(t, WriteFrame(fa), map[])];
      assert frames[1..] == [Entry(b, fb)];
      WriteSheetsNew([], frames, SheetName);
      assert [] + [Sheet(SheetName(frames[0].key), WriteFrame(frames[0].value), map[])] == first;
      assert SheetNames(first) == [t];
      WriteSheetsOver(first, [Entry(b, fb)], SheetName, 0);
      assert [Entry(b, fb)][1..] == [];
      assert SetGrid(first, 0, Overlay(first[0].grid, WriteFrame(fb))) == [Sheet(t, Overlay(WriteFrame(fa), WriteFrame(fb)), map[])];
    } else {
      assert FindSheet([], t) == None;
    }
  }

  // ---------------------------------------------------------------------
  // Column widths

  /** `str(cell.value)` for a cell. */
  function CellText(x: XCell): string {
    match x.value
    case None => "None"
    case Some(s) => s
  }

  /** The longest text in a column. */
  function MaxLen(cells: seq<XCell>): (r: nat)
    requires |cells| > 0
    ensures forall i :: 0 <= i < |cells| ==> |CellText(cells[i])| <= r
    ensures exists i :: 0 <= i < |cells| && |CellText(cells[i])| == r
  {
    if |cells| == 1 then |CellText(cells[0])|
    else
      var m := MaxLen(cells[1..]);
      assert forall i :: 1 <= i < |cells| ==> cells[i] == cells[1..][i - 1];
      if |CellText(cells[0])| >= m then |CellText(cells[0])| else m
  }

  const LinkColumnWidth: nat := 25
  const CurrentFixed: set<string> := {"Item URL", "Photo"}
  const LegacyFixed: set<string> := {"item_url", "photo"}

  /** The width `_format_columns` gives one column (header first): none
      when the header is empty, 25 for a link column, otherwise the longest
      `str` of its cells, header included. */
  function ColumnWidth(cells: seq<XCell>, fixed: set<string>): (r: Option<nat>)
    requires |cells| > 0
    ensures r.None? <==> cells[0].value.None?
    ensures r.Some? && cells[0].value.value in fixed ==> r.value == LinkColumnWidth
    ensures r.Some? && cells[0].value.value !in fixed ==>
              (forall i :: 0 <= i < |cells| ==> |CellText(cells[i])| <= r.value)
              && exists i :: 0 <= i < |cells| && |CellText(cells[i])| == r.value
  {
    match cells[0].value
    case None => None
    case Some(title) => if title in fixed then Some(LinkColumnWidth) else Some(MaxLen(cells))
  }

  /** openpyxl's `max_column`: the widest row, and at least 1. */
  function ColumnTotal(grid: seq<seq<XCell>>): (r: nat)
    ensures r >= 1 && forall k :: 0 <= k < |grid| ==> |grid[k]| <= r
  {
    if |grid| == 0 then 1
    else
      var m := ColumnTotal(grid[1..]);
      assert forall k :: 1 <= k < |grid| ==> grid[k] == grid[1..][k - 1];
      if |grid[0]| > m then |grid[0]| else m
  }

  /** Column `c` as `sheet.columns` yields it: one cell per row (at least
      one row), empty where a row is shorter. */
  function Column(grid: seq<seq<XCell>>, c: nat): (r: seq<XCell>)
    ensures |r| >= 1 && (|grid| > 0 ==> |r| == |grid|)
    ensures forall k :: 0 <= k < |grid| && c < |grid[k]| ==> r[k] == grid[k][c]
  {
    var n := if |grid| == 0 then 1 else |grid|;
    seq(n, k requires 0 <= k < n => if k < |grid| && c < |grid[k]| then grid[k][c] else EmptyXCell)
  }

  /** `_format_columns(sheet)` with the given link-column titles. */
  function FormatColumns(sh: Sheet, fixed: set<string>): (r: Sheet)
    ensures r.name == sh.name && r.grid == sh.grid
    ensures forall c: nat :: c < ColumnTotal(sh.grid) ==>
              (c in r.widths <==> ColumnWidth(Column(sh.grid, c), fixed).Some?)
              && (c in r.widths ==> r.widths[c] == ColumnWidth(Column(sh.grid, c), fixed).value)
    ensures forall c: nat :: c >= ColumnTotal(sh.grid) ==> (c in r.widths <==> c in sh.widths)
  {
    var n := ColumnTotal(sh.grid);
    var set_ := map c: nat | c < n && ColumnWidth(Column(sh.grid, c), fixed).Some? :: ColumnWidth(Column(sh.grid, c), fixed).value;
    var kept := map c: nat | c in sh.widths && c >= n :: sh.widths[c];
    sh.(widths := kept + set_)
  }

  /** `_format_excel_columns`: every sheet of the workbook. */
  function FormatAll(sheets: seq<Sheet>, fixed: set<string>): (r: seq<Sheet>)
    ensures |r| == |sheets| && forall i :: 0 <= i < |sheets| ==> r[i] == FormatColumns(sheets[i], fixed)
  {
    seq(|sheets|, i requires 0 <= i < |sheets| => FormatColumns(sheets[i], fixed))
  }

  /** A link column of a written frame is 25 wide; any other labelled
      column is as wide as its longest text. */
  lemma LinkColumnsAreFixed(f: Frame, c: nat)
    requires c < |f.columns| && f.columns[c] in CurrentFixed
    ensures var sh := FormatColumns(Sheet("", WriteFrame(f), map[]), CurrentFixed);
            c in sh.widths && sh.widths[c] == LinkColumnWidth
  {
    var g := WriteFrame(f);
    assert Column(g, c)[0] == g[0][c];
  }

  // ---------------------------------------------------------------------
  // Hyperlink cells (current manager)

  const LinkText: string := "LINK"

  /** `df.empty`: no rows or no columns. */
  predicate IsEmpty(f: Frame) {
    |f.rows| == 0 || |f.columns| == 0
  }

  /** Column `ci` of rows 2..n+1 becomes "LINK" with the row's value as its
      target. */
  function LinkColumn(grid: seq<seq<XCell>>, f: Frame, ci: nat): (r: seq<seq<XCell>>)
    requires WellShaped(f) && ci < |f.columns|
    ensures |r| == |grid| && forall k :: 0 <= k < |grid| ==> |r[k]| == |grid[k]|
  {
    seq(|grid|, k requires 0 <= k < |grid| =>
      seq(|grid[k]|, c requires 0 <= c < |grid[k]| =>
        if c == ci && 1 <= k <= |f.rows| then XCell(Some(LinkText), Written(f.rows[k - 1][ci])) else grid[k][c]))
  }

  lemma LinkColumnCell(grid: seq<seq<XCell>>, f: Frame, ci: nat, k: nat, c: nat)
    requires WellShaped(f) && ci < |f.columns|
    requires k < |grid| && c < |grid[k]|
    ensures LinkColumn(grid, f, ci)[k][c]
            == if c == ci && 1 <= k <= |f.rows| then XCell(Some(LinkText), Written(f.rows[k - 1][ci])) else grid[k][c]
  {
  }

  /** One round of the loop: the named column, when the frame has it. */
  function LinkNamed(grid: seq<seq<XCell>>, f: Frame, name: string): (r: seq<seq<XCell>>)
    requires WellShaped(f)
    ensures |r| == |grid| && forall k :: 0 <= k < |grid| ==> |r[k]| == |grid[k]|
  {
    match ColumnIndex(f, name)
    case None => grid
    case Some(ci) => LinkColumn(grid, f, ci)
  }

  /** The loop over the requested columns, in the set's iteration order;
      an absent column only prints a message. */
  function LinkColumns(grid: seq<seq<XCell>>, f: Frame, names: seq<string>): (r: seq<seq<XCell>>)
    requires WellShaped(f)
    decreases |names|
    ensures |r| == |grid| && forall k :: 0 <= k < |grid| ==> |r[k]| == |grid[k]|
  {
    if |names| == 0 then grid
    else LinkColumns(LinkNamed(grid, f, names[0]), f, names[1..])
  }

  /** `_apply_hyperlinking` on one sheet: nothing for an empty frame. */
  function HyperlinkSheet(grid: seq<seq<XCell>>, f: Frame, names: seq<string>): (r: seq<seq<XCell>>)
    requires WellShaped(f)
    ensures |r| == |grid| && forall k :: 0 <= k < |grid| ==> |r[k]| == |grid[k]|
    ensures IsEmpty(f) ==> r == grid
  {
    if IsEmpty(f) then grid else LinkColumns(grid, f, names)
  }

  /** Whether cell (k, c) of a sheet written from `f` is a link cell. */
  predicate IsLinkCell(f: Frame, names: seq<string>, k: nat, c: nat) {
    1 <= k <= |f.rows| && c < |f.columns| && f.columns[c] in names && ColumnIndex(f, f.columns[c]) == Some(c)
  }

  /** Cell by cell: exactly rows 2..n+1 of each requested column present in
      the frame hold "LINK" with the value as target; every other cell is
      as it was. Hence the result does not depend on the set's order. */
  lemma {:induction false} LinkColumnsCells(grid: seq<seq<XCell>>, f: Frame, names: seq<string>, k: nat, c: nat)
    requires WellShaped(f)
    requires k < |grid| && c < |grid[k]|
    decreases |names|
    ensures LinkColumns(grid, f, names)[k][c] ==
              if IsLinkCell(f, names, k, c) then XCell(Some(LinkText), Written(f.rows[k - 1][c])) else grid[k][c]
  {
    if |names| > 0 {
      var next := LinkNamed(grid, f, names[0]);
      LinkColumnsCells(next, f, names[1..], k, c);
      LinkNamedCell(grid, f, names[0], k, c);
      IsLinkCellCons(f, names, k, c);
    }
  }

  lemma LinkNamedCell(grid: seq<seq<XCell>>, f: Frame, name: string, k: nat, c: nat)
    requires WellShaped(f)
    requires k < |grid| && c < |grid[k]|
    ensures LinkNamed(grid, f, name)[k][c] ==
              if ColumnIndex(f, name) == Some(c) && 1 <= k <= |f.rows| then XCell(Some(LinkText), Written(f.rows[k - 1][c])) else grid[k][c]
  {
    match ColumnIndex(f, name)
    case None =>
    case Some(ci) => LinkColumnCell(grid, f, ci, k, c);
  }

  lemma IsLinkCellCons(f: Frame, names: seq<string>, k: nat, c: nat)
    requires |names| > 0
    ensures IsLinkCell(f, names, k, c) <==>
              (ColumnIndex(f, names[0]) == Some(c) && 1 <= k <= |f.rows|) || IsLinkCell(f, names[1..], k, c)
  {
    assert names == [names[0]] + names[1..];
  }

  lemma HyperlinkOrderIrrelevant(grid: seq<seq<XCell>>, f: Frame, names1: seq<string>, names2: seq<string>)
    requires WellShaped(f)
    requires forall x :: x in names1 <==> x in names2
    ensures HyperlinkSheet(grid, f, names1) == HyperlinkSheet(grid, f, names2)
  {
    if !IsEmpty(f) {
      var a := LinkColumns(grid, f, names1);
      var b := LinkColumns(grid, f, names2);
      forall k, c | 0 <= k < |grid| && 0 <= c < |grid[k]|
        ensures a[k][c] == b[k][c]
      {
        LinkColumnsCells(grid, f, names1, k, c);
        LinkColumnsCells(grid, f, names2, k, c);
      }
      assert forall k :: 0 <= k < |grid| ==> a[k] == b[k];
    }
  }

  /** `cell.hyperlink = value` takes text, or None to clear the link;
      openpyxl's `Hyperlink` refuses any other target with TypeError. Some
      value the loop would set as a target here is an integer. */
  predicate HasBadTarget(f: Frame, names: seq<string>)
    requires WellShaped(f)
  {
    exists k, c :: 1 <= k <= |f.rows| && 0 <= c < |f.columns| && IsLinkCell(f, names, k, c) && f.rows[k - 1][c].IntCell?
  }

  /** `_apply_hyperlinking` on one sheet, failing with TypeError as soon as
      a target is not text; otherwise the cells `HyperlinkSheet` sets. */
  function HyperlinkChecked(grid: seq<seq<XCell>>, f: Frame, names: seq<string>): (r: Result<seq<seq<XCell>>>)
    requires WellShaped(f)
    ensures r.Err? <==> HasBadTarget(f, names)
    ensures r.Err? ==> r.error == TypeError
    ensures r.Ok? ==> r.value == HyperlinkSheet(grid, f, names)
    ensures IsEmpty(f) ==> r == Ok(grid)
  {
    if HasBadTarget(f, names) then Err(TypeError) else Ok(HyperlinkSheet(grid, f, names))
  }

  /** Replaces the cells of sheet `j`; names and widths stay. */
  function SetGrid(sheets: seq<Sheet>, j: nat, g: seq<seq<XCell>>): (r: seq<Sheet>)
    requires j < |sheets|
    ensures |r| == |sheets| && forall i :: 0 <= i < |sheets| ==> r[i].name == sheets[i].name && r[i].widths == sheets[i].widths
    ensures r[j].grid == g && forall i :: 0 <= i < |sheets| && i != j ==> r[i] == sheets[i]
  {
    sheets[j := sheets[j].(grid := g)]
  }

  lemma SetGridNames(sheets: seq<Sheet>, j: nat, g: seq<seq<XCell>>)
    requires j < |sheets|
    ensures SheetNames(SetGrid(sheets, j, g)) == SheetNames(sheets)
  {
    var r := SetGrid(sheets, j, g);
    assert forall i :: 0 <= i < |r| ==> SheetNames(r)[i] == SheetNames(sheets)[i];
  }

  /** A way of rewriting one sheet's cells from its frame, which may fail. */
  type Linker = (seq<seq<XCell>>, Frame) --> Result<seq<seq<XCell>>>

  /** `link` can rewrite the sheet of every frame in `frames`, failing with
      TypeError only. */
  ghost predicate LinksAll(link: Linker, frames: seq<Entry<Frame>>) {
    forall i, g :: 0 <= i < |frames| ==>
      link.requires(g, frames[i].value) && (link(g, frames[i].value).Err? ==> link(g, frames[i].value).error == TypeError)
  }

  /** `link` rewrites the sheet of every frame in `frames` without failing. */
  ghost predicate LinksCleanly(link: Linker, frames: seq<Entry<Frame>>) {
    forall i, g :: 0 <= i < |frames| ==> link.requires(g, frames[i].value) && link(g, frames[i].value).Ok?
  }

  /** The loop of `_apply_hyperlinking`: each frame's sheet is looked up by
      the truncated key (KeyError if absent) and its cells are rewritten by
      `link`. */
  function LinkSheets(sheets: seq<Sheet>, frames: seq<Entry<Frame>>, link: Linker): (r: Result<seq<Sheet>>)
    requires LinksAll(link, frames)
    decreases |frames|
    ensures r.Ok? ==> |r.value| == |sheets|
                      && forall j :: 0 <= j < |sheets| ==> r.value[j].name == sheets[j].name && r.value[j].widths == sheets[j].widths
    ensures r.Err? ==> r.error == KeyError || r.error == TypeError
  {
    if |frames| == 0 then Ok(sheets)
    else
      match FindSheet(sheets, SheetName(frames[0].key))
      case None => Err(KeyError)
      case Some(j) =>
        var g :- link(sheets[j].grid, frames[0].value);
        var updated := SetGrid(sheets, j, g);
        assert forall i :: 1 <= i < |frames| ==> frames[i] == frames[1..][i - 1];
        LinkSheets(updated, frames[1..], link)
  }

  /** The link step of the current manager: `HyperlinkChecked` with the
      requested column names. */
  function Hyperlinker(names: seq<string>): (link: Linker)
    ensures forall g, f :: WellShaped(f) ==> link.requires(g, f) && link(g, f) == HyperlinkChecked(g, f, names)
  {
    (g: seq<seq<XCell>>, f: Frame) requires WellShaped(f) => HyperlinkChecked(g, f, names)
  }

  /** `_apply_hyperlinking`: each frame's sheet is looked up by the
      truncated key (KeyError if absent) and its link cells are set
      (TypeError for a target that is not text). */
  function ApplyHyperlinking(sheets: seq<Sheet>, frames: seq<Entry<Frame>>, names: seq<string>): (r: Result<seq<Sheet>>)
    requires forall i :: 0 <= i < |frames| ==> WellShaped(frames[i].value)
    ensures r.Ok? ==> SheetNames(r.value) == SheetNames(sheets)
                      && forall j :: 0 <= j < |sheets| ==> r.value[j].widths == sheets[j].widths
    ensures r.Err? ==> r.error == KeyError || r.error == TypeError
    ensures (exists i :: 0 <= i < |frames| && HasBadTarget(frames[i].value, names)) ==> r.Err?
  {
    BadTargetFails(sheets, frames, names);
    var r := LinkSheets(sheets, frames, Hyperlinker(names));
    if r.Ok? then
      assert forall j :: 0 <= j < |sheets| ==> SheetNames(r.value)[j] == SheetNames(sheets)[j];
      r
    else r
  }

  /** The KeyError path is taken only when some frame's truncated key names
      no sheet; without it, only a failing link step can stop the loop. */
  lemma {:induction false} LinkSheetsSucceeds(sheets: seq<Sheet>, frames: seq<Entry<Frame>>, link: Linker)
    requires LinksAll(link, frames)
    requires forall i :: 0 <= i < |frames| ==> SheetName(frames[i].key) in SheetNames(sheets)
    decreases |frames|
    ensures LinkSheets(sheets, frames, link).Err? ==> LinkSheets(sheets, frames, link).error == TypeError
    ensures LinksCleanly(link, frames) ==> LinkSheets(sheets, frames, link).Ok?
  {
    if |frames| > 0 {
      var j := FindSheet(sheets, SheetName(frames[0].key)).value;
      var step := link(sheets[j].grid, frames[0].value);
      assert forall i :: 1 <= i < |frames| ==> frames[i] == frames[1..][i - 1];
      if step.Ok? {
        var updated := SetGrid(sheets, j, step.value);
        SetGridNames(sheets, j, step.value);
        LinkSheetsSucceeds(updated, frames[1..], link);
      }
    }
  }

  /** A frame with a target that is not text makes the whole loop fail,
      whichever sheets the frames before it find. */
  lemma {:induction false} BadTargetFails(sheets: seq<Sheet>, frames: seq<Entry<Frame>>, names: seq<string>)
    requires forall i :: 0 <= i < |frames| ==> WellShaped(frames[i].value)
    decreases |frames|
    ensures (exists i :: 0 <= i < |frames| && HasBadTarget(frames[i].value, names)) ==>
              LinkSheets(sheets, frames, Hyperlinker(names)).Err?
  {
    var link := Hyperlinker(names);
    if |frames| > 0 && (exists i :: 0 <= i < |frames| && HasBadTarget(frames[i].value, names)) {
      var i :| 0 <= i < |frames| && HasBadTarget(frames[i].value, names);
      match FindSheet(sheets, SheetName(frames[0].key))
      case None =>
      case Some(j) =>
        if i > 0 {
          var step := link(sheets[j].grid, frames[0].value);
          if step.Ok? {
            assert frames[1..][i - 1] == frames[i];
            BadTargetFails(SetGrid(sheets, j, step.value), frames[1..], names);
          }
        }
    }
  }

  /** `initialize_spreadsheets` of the current manager: create, then link,
      then (only when asked) set the widths. */
  function InitializeSpreadsheets(frames: seq<Entry<Frame>>, names: seq<string>, formatWidths: bool): (r: Result<seq<Sheet>>)
    requires forall i :: 0 <= i < |frames| ==> WellShaped(frames[i].value)
    ensures |frames| == 0 ==> r == Err(IndexError)
    ensures r.Ok? ==> Distinct(SheetNames(r.value))
                      && forall x :: x in SheetNames(r.value) <==> x in Titles(frames, SheetName)
    ensures r.Ok? && !formatWidths ==> forall j :: 0 <= j < |r.value| ==> r.value[j].widths == map[]
  {
    var created :- CreateSheets(frames, SheetName);
    var linked :- ApplyHyperlinking(created, frames, names);
    if formatWidths then
      var formatted := FormatAll(linked, CurrentFixed);
      assert SheetNames(formatted) == SheetNames(linked);
      Ok(formatted)
    else Ok(linked)
  }

  /** Every sheet the hyperlink step looks up was created under the same
      truncated name, so the KeyError path is never taken. Initializing
      fails with IndexError when there is no frame, with ValueError when a
      truncated key is no valid sheet title, and otherwise exactly when a
      requested column holds a value that is not text, with TypeError. */
  lemma InitializeSucceeds(frames: seq<Entry<Frame>>, names: seq<string>, formatWidths: bool)
    requires forall i :: 0 <= i < |frames| ==> WellShaped(frames[i].value)
    ensures InitializeSpreadsheets(frames, names, formatWidths).Ok?
            <==> |frames| > 0 && (forall t :: t in Titles(frames, SheetName) ==> ValidTitle(t))
                 && forall i :: 0 <= i < |frames| ==> !HasBadTarget(frames[i].value, names)
    ensures |frames| > 0 && (exists t :: t in Titles(frames, SheetName) && !ValidTitle(t)) ==>
              InitializeSpreadsheets(frames, names, formatWidths) == Err(ValueError)
    ensures (forall t :: t in Titles(frames, SheetName) ==> ValidTitle(t)) && InitializeSpreadsheets(frames, names, formatWidths).Err? ==>
              InitializeSpreadsheets(frames, names, formatWidths).error == (if |frames| == 0 then IndexError else TypeError)
  {
    var c := CreateSheets(frames, SheetName);
    if c.Ok? {
      var created := c.value;
      forall i | 0 <= i < |frames|
        ensures SheetName(frames[i].key) in SheetNames(created)
      {
        assert Titles(frames, SheetName)[i] == SheetName(frames[i].key);
      }
      var link := Hyperlinker(names);
      LinkSheetsSucceeds(created, frames, link);
      BadTargetFails(created, frames, names);
      if forall i :: 0 <= i < |frames| ==> !HasBadTarget(frames[i].value, names) {
        assert LinksCleanly(link, frames);
      }
    }
  }

  /** A frame stored under the empty label, as a query row with blank fields gives,
      makes the export fail with ValueError, whatever the frame holds. */
  lemma EmptyLabelRefused(f: Frame, names: seq<string>, formatWidths: bool)
    requires WellShaped(f)
    ensures InitializeSpreadsheets([Entry("", f)], names, formatWidths) == Err(ValueError)
  {
    assert Titles([Entry("", f)], SheetName)[0] == "";
    InitializeSucceeds([Entry("", f)], names, formatWidths);
  }

  /** Frame `i` of `fs` finds sheet `m + i` among the names `ns`. */
  predicate FoundFrom(ns: seq<string>, fs: seq<Entry<Frame>>, m: nat)
    decreases |fs|
  {
    |fs| == 0 || (FirstIndex(ns, SheetName(fs[0].key)) == Some(m) && FoundFrom(ns, fs[1..], m + 1))
  }

  lemma {:induction false} FoundFromIndexed(ns: seq<string>, fs: seq<Entry<Frame>>, m: nat)
    requires forall i :: 0 <= i < |fs| ==> FirstIndex(ns, SheetName(fs[i].key)) == Some(m + i)
    decreases |fs|
    ensures FoundFrom(ns, fs, m)
  {
    if |fs| > 0 {
      assert FirstIndex(ns, SheetName(fs[0].key)) == Some(m + 0);
      var rest := fs[1..];
      forall i | 0 <= i < |rest|
        ensures FirstIndex(ns, SheetName(rest[i].key)) == Some(m + 1 + i)
      {
        assert rest[i] == fs[i + 1];
      }
      FoundFromIndexed(ns, rest, m + 1);
    }
  }

  /** The sheets after frame `i` of `fs` has rewritten sheet `m + i`. */
  function Relinked(sheets: seq<Sheet>, fs: seq<Entry<Frame>>, link: Linker, m: nat): (r: seq<Sheet>)
    requires m + |fs| <= |sheets| && LinksCleanly(link, fs)
    ensures |r| == |sheets|
    ensures forall j :: 0 <= j < |sheets| ==>
              r[j].grid == (if m <= j < m + |fs| then link(sheets[j].grid, fs[j - m].value).value else sheets[j].grid)
  {
    seq(|sheets|, j requires 0 <= j < |sheets| =>
      if m <= j < m + |fs| then sheets[j].(grid := link(sheets[j].grid, fs[j - m].value).value) else sheets[j])
  }

  /** Linking frames `fs` when frame `i` finds sheet `m + i` rewrites
      exactly those sheets. The sheet names `ns` never change. */
  lemma {:induction false} LinkSheetsFrom(sheets: seq<Sheet>, ns: seq<string>, fs: seq<Entry<Frame>>, link: Linker, m: nat)
    requires m + |fs| <= |sheets| && SheetNames(sheets) == ns
    requires LinksAll(link, fs) && LinksCleanly(link, fs) && FoundFrom(ns, fs, m)
    decreases |fs|
    ensures LinkSheets(sheets, fs, link) == Ok(Relinked(sheets, fs, link, m))
  {
    if |fs| > 0 {
      var updated := SetGrid(sheets, m, link(sheets[m].grid, fs[0].value).value);
      LinkStep(sheets, ns, fs, link, m);
      LinkSheetsFrom(updated, ns, fs[1..], link, m + 1);
      RelinkedStep(sheets, fs, link, m);
    } else {
      assert Relinked(sheets, fs, link, m) == sheets;
    }
  }

  /** One round of the loop: sheet `m` is rewritten from the first frame,
      and the rest of the frames still find their sheets. */
  lemma LinkStep(sheets: seq<Sheet>, ns: seq<string>, fs: seq<Entry<Frame>>, link: Linker, m: nat)
    requires 0 < |fs| && m + |fs| <= |sheets| && SheetNames(sheets) == ns
    requires LinksAll(link, fs) && LinksCleanly(link, fs) && FoundFrom(ns, fs, m)
    ensures var updated := SetGrid(sheets, m, link(sheets[m].grid, fs[0].value).value);
            SheetNames(updated) == ns && LinksAll(link, fs[1..]) && LinksCleanly(link, fs[1..])
            && FoundFrom(ns, fs[1..], m + 1)
            && LinkSheets(sheets, fs, link) == LinkSheets(updated, fs[1..], link)
  {
    SetGridNames(sheets, m, link(sheets[m].grid, fs[0].value).value);
    assert forall i :: 0 <= i < |fs| - 1 ==> fs[1..][i] == fs[i + 1];
  }

  lemma RelinkedStep(sheets: seq<Sheet>, fs: seq<Entry<Frame>>, link: Linker, m: nat)
    requires 0 < |fs| && m + |fs| <= |sheets| && LinksCleanly(link, fs)
    ensures LinksCleanly(link, fs[1..])
    ensures Relinked(SetGrid(sheets, m, link(sheets[m].grid, fs[0].value).value), fs[1..], link, m + 1) == Relinked(sheets, fs, link, m)
  {
    var rest := fs[1..];
    assert forall i :: 0 <= i < |rest| ==> rest[i] == fs[i + 1];
    var updated := SetGrid(sheets, m, link(sheets[m].grid, fs[0].value).value);
    var a := Relinked(updated, rest, link, m + 1);
    var b := Relinked(sheets, fs, link, m);
    forall j | 0 <= j < |sheets|
      ensures a[j] == b[j]
    {
      if m < j < m + |fs| {
        assert rest[j - (m + 1)] == fs[j - m];
      }
    }
  }

  /** With distinct sheet names, initializing succeeds exactly when there
      is a frame, every title is accepted and every target is text; then
      sheet `i` is frame `i` written out with its link cells set. */
  lemma InitializedSheets(frames: seq<Entry<Frame>>, names: seq<string>)
    requires forall i :: 0 <= i < |frames| ==> WellShaped(frames[i].value)
    requires Distinct(Titles(frames, SheetName))
    ensures var r := InitializeSpreadsheets(frames, names, false);
            (r.Ok? <==> |frames| > 0 && (forall t :: t in Titles(frames, SheetName) ==> ValidTitle(t))
                        && forall i :: 0 <= i < |frames| ==> !HasBadTarget(frames[i].value, names))
            && (r.Ok? ==> |r.value| == |frames| && forall i :: 0 <= i < |frames| ==>
                  r.value[i].name == SheetName(frames[i].key)
                  && r.value[i].grid == HyperlinkSheet(WriteFrame(frames[i].value), frames[i].value, names))
  {
    InitializeSucceeds(frames, names, false);
    InitializeWithoutWidths(frames, names);
    CreatedSheetsLinked(frames, names);
  }

  lemma CreatedSheetsLinked(frames: seq<Entry<Frame>>, names: seq<string>)
    requires forall i :: 0 <= i < |frames| ==> WellShaped(frames[i].value)
    requires Distinct(Titles(frames, SheetName))
    ensures var r := LinkSheets(FreshSheets(frames, SheetName), frames, Hyperlinker(names));
            (forall i :: 0 <= i < |frames| ==> !HasBadTarget(frames[i].value, names)) ==>
              r.Ok? && forall i :: 0 <= i < |frames| ==>
                r.value[i].grid == HyperlinkSheet(WriteFrame(frames[i].value), frames[i].value, names)
  {
    var link := Hyperlinker(names);
    if forall i :: 0 <= i < |frames| ==> !HasBadTarget(frames[i].value, names) {
      var created := FreshSheets(frames, SheetName);
      assert LinksCleanly(link, frames);
      CreatedSheetsFound(frames);
      FoundFromIndexed(SheetNames(created), frames, 0);
      LinkSheetsFrom(created, SheetNames(created), frames, link, 0);
    }
  }

  /** With distinct sheet names, frame `i` finds sheet `i`. */
  lemma CreatedSheetsFound(frames: seq<Entry<Frame>>)
    requires Distinct(Titles(frames, SheetName))
    ensures forall i :: 0 <= i < |frames| ==> FirstIndex(SheetNames(FreshSheets(frames, SheetName)), SheetName(frames[i].key)) == Some(i)
  {
    var ns := SheetNames(FreshSheets(frames, SheetName));
    var ts := Titles(frames, SheetName);
    assert forall j :: 0 <= j < |frames| ==> ns[j] == ts[j];
    forall i | 0 <= i < |frames|
      ensures FirstIndex(ns, SheetName(frames[i].key)) == Some(i)
    {
      assert ns[i] == SheetName(frames[i].key);
      FirstIndexAt(ns, i);
    }
  }

  /** Without widths, initializing is creating the sheets and linking them. */
  lemma InitializeWithoutWidths(frames: seq<Entry<Frame>>, names: seq<string>)
    requires forall i :: 0 <= i < |frames| ==> WellShaped(frames[i].value)
    ensures CreateSheets(frames, SheetName).Ok? ==>
              InitializeSpreadsheets(frames, names, false) == LinkSheets(CreateSheets(frames, SheetName).value, frames, Hyperlinker(names))
  {
  }

  // ---------------------------------------------------------------------
  // The older manager

  const LinkSuffix: string := ", click to access"

  /** `df[name] = df.apply(lambda row: create_hyperlink(row[name], ...))`:
      every cell under label `name` becomes a link formula. */
  function LinkFrameColumn(f: Frame, name: string): (r: Frame)
    ensures r.columns == f.columns && |r.rows| == |f.rows|
    ensures forall k :: 0 <= k < |f.rows| ==> |r.rows[k]| == |f.rows[k]|
  {
    f.(rows := seq(|f.rows|, k requires 0 <= k < |f.rows| =>
      seq(|f.rows[k]|, c requires 0 <= c < |f.rows[k]| =>
        if c < |f.columns| && f.columns[c] == name
        then StrCell(CreateHyperlink(Render(f.rows[k][c]), name + LinkSuffix))
        else f.rows[k][c])))
  }

  /** `apply_hyperlinking` of `formatting.py` and `_apply_hyperlinking` of
      `spreadsheet_manager.py` on one frame: each requested label present
      in the frame is rewritten, in the set's iteration order. */
  function LinkFrame(f: Frame, names: seq<string>): (r: Frame)
    decreases |names|
    ensures r.columns == f.columns && |r.rows| == |f.rows|
    ensures forall k :: 0 <= k < |f.rows| ==> |r.rows[k]| == |f.rows[k]|
  {
    if |names| == 0 then f
    else
      var next := if names[0] in f.columns then LinkFrameColumn(f, names[0]) else f;
      LinkFrame(next, names[1..])
  }

  /** Since the requested labels are a set, every value under a requested
      label is wrapped exactly once and every other value is kept. */
  lemma {:induction false} LinkFrameCells(f: Frame, names: seq<string>, k: nat, c: nat)
    requires forall i, j :: 0 <= i < j < |names| ==> names[i] != names[j]
    requires k < |f.rows| && c < |f.rows[k]|
    decreases |names|
    ensures LinkFrame(f, names).rows[k][c] ==
              if c < |f.columns| && f.columns[c] in names
              then StrCell(CreateHyperlink(Render(f.rows[k][c]), f.columns[c] + LinkSuffix))
              else f.rows[k][c]
  {
    if |names| > 0 {
      var next := if names[0] in f.columns then LinkFrameColumn(f, names[0]) else f;
      LinkFrameCells(next, names[1..], k, c);
      assert names == [names[0]] + names[1..];
      if c < |f.columns| && f.columns[c] == names[0] {
        assert f.columns[c] !in names[1..];
      }
    }
  }

  /** Both older hyperlinking routines over every stored frame. */
  function LinkFrames(frames: seq<Entry<Frame>>, names: seq<string>): (r: seq<Entry<Frame>>)
    ensures Keys(r) == Keys(frames)
    ensures |r| == |frames| && forall i :: 0 <= i < |frames| ==> r[i].value == LinkFrame(frames[i].value, names)
  {
    seq(|frames|, i requires 0 <= i < |frames| => Entry(frames[i].key, LinkFrame(frames[i].value, names)))
  }

  /** `initialize_spreadsheets` of `spreadsheet_manager.py`: sheets titled
      by the whole key are written first; the hyperlink step then rewrites
      the frames in memory, and the widths use the older titles. */
  function LegacyInitialize(frames: seq<Entry<Frame>>, names: seq<string>, formatWidths: bool): (r: Result<(seq<Sheet>, seq<Entry<Frame>>)>)
    ensures |frames| == 0 ==> r == Err(IndexError)
    ensures |frames| > 0 ==> (r.Err? <==> exists i :: 0 <= i < |frames| && !ValidTitle(frames[i].key))
    ensures |frames| > 0 && r.Err? ==> r.error == ValueError
    ensures r.Ok? && DistinctKeys(frames) ==>
              |r.value.0| == |frames|
              && forall i :: 0 <= i < |frames| ==> r.value.0[i].name == frames[i].key && r.value.0[i].grid == WriteFrame(frames[i].value)
    ensures r.Ok? ==> r.value.1 == LinkFrames(frames, names)
    ensures r.Ok? && !formatWidths ==> forall j :: 0 <= j < |r.value.0| ==> r.value.0[j].widths == map[]
  {
    var whole := (key: string) => key;
    var ts := Titles(frames, whole);
    assert forall i :: 0 <= i < |frames| ==> ts[i] == frames[i].key;
    assert DistinctKeys(frames) ==> Distinct(ts);
    var created :- CreateSheets(frames, whole);
    Ok((if formatWidths then FormatAll(created, LegacyFixed) else created, LinkFrames(frames, names)))
  }
}

=== FILE: table.dfy ===
/** A pandas `DataFrame` reduced to what the program looks at: an ordered
    list of column labels and rows of cells, one cell per column. */
module Table {
  import opened Wrappers
  import opened Text

  /** The values the scraped frames hold: `None`, an integer (the price) or
      a string. */
  datatype Cell = NullCell | IntCell(n: int) | StrCell(s: string)

  /** `str(value)`. */
  function Render(c: Cell): string {
    match c
    case NullCell => "None"
    case IntCell(n) => IntToString(n)
    case StrCell(s) => s
  }

  datatype Frame = Frame(columns: seq<string>, rows: seq<seq<Cell>>)

  /** Every row has one cell per column. */
  predicate WellShaped(f: Frame) {
    forall i :: 0 <= i < |f.rows| ==> |f.rows[i]| == |f.columns|
  }

  /** `column in frame.columns`, and where. */
  function ColumnIndex(f: Frame, name: string): (r: Option<nat>)
    ensures r.Some? <==> name in f.columns
    ensures r.Some? ==> r.value < |f.columns| && f.columns[r.value] == name
    ensures r.Some? ==> forall j :: 0 <= j < r.value ==> f.columns[j] != name
  {
    FirstIndex(f.columns, name)
  }

  function FirstIndex(s: seq<string>, x: string): (r: Option<nat>)
    ensures r.Some? <==> x in s
    ensures r.Some? ==> r.value < |s| && s[r.value] == x
    ensures r.Some? ==> forall j :: 0 <= j < r.value ==> s[j] != x
  {
    if |s| == 0 then None
    else if s[0] == x then Some(0)
    else match FirstIndex(s[1..], x)
      case None => None
      case Some(k) => Some(k + 1)
  }

  /** An element that does not occur earlier is found at its own index. */
  lemma {:induction false} FirstIndexAt(s: seq<string>, i: nat)
    requires i < |s| && forall j :: 0 <= j < i ==> s[j] != s[i]
    ensures FirstIndex(s, s[i]) == Some(i)
  {
    if i > 0 {
      assert s[1..][i - 1] == s[i];
      FirstIndexAt(s[1..], i - 1);
    }
  }

  /** `pd.DataFrame()`: no columns and no rows. */
  const EmptyFrame: Frame := Frame([], [])
}

=== FILE: text.dfy ===
/** String primitives with the meaning Python's `str` methods give them:
    character classes, case mapping, `strip`, `replace`, `split`, `in`,
    and decimal rendering / parsing of integers. Only ASCII and the nine
    Polish diacritic letters are given case and class information. */
module Text {
  import opened Wrappers

  // ---------------------------------------------------------------------
  // Character classes

  /** ASCII part of `str.isspace`, which both `str.strip` and the regex
      class `\s` use: tab, line feed, vertical tab, form feed, carriage
      return, the four information separators and space. */
  predicate IsSpace(c: char) {
    c == ' ' || ('\t' <= c <= '\r') || ('\U{001C}' <= c <= '\U{001F}')
  }

  predicate IsDigit(c: char) {
    '0' <= c <= '9'
  }

  predicate IsAsciiLower(c: char) {
    'a' <= c <= 'z'
  }

  predicate IsAsciiUpper(c: char) {
    'A' <= c <= 'Z'
  }

  /** The nine lower-case Polish letters with diacritics. */
  predicate IsPolishLower(c: char) {
    c == 'ą' || c == 'ć' || c == 'ę' || c == 'ł' || c == 'ń' || c == 'ó' || c == 'ś' || c == 'ź' || c == 'ż'
  }

  predicate AllSpace(s: string) {
    forall i :: 0 <= i < |s| ==> IsSpace(s[i])
  }

  predicate AllDigits(s: string) {
    forall i :: 0 <= i < |s| ==> IsDigit(s[i])
  }

  // ---------------------------------------------------------------------
  // Case mapping

  function LowerChar(c: char): char {
    if IsAsciiUpper(c) then (c as int + 32) as char
    else if c == 'Ą' then 'ą'
    else if c == 'Ć' then 'ć'
    else if c == 'Ę' then 'ę'
    else if c == 'Ł' then 'ł'
    else if c == 'Ń' then 'ń'
    else if c == 'Ó' then 'ó'
    else if c == 'Ś' then 'ś'
    else if c == 'Ź' then 'ź'
    else if c == 'Ż' then 'ż'
    else c
  }

  function UpperChar(c: char): char {
    if IsAsciiLower(c) then (c as int - 32) as char
    else if c == 'ą' then 'Ą'
    else if c == 'ć' then 'Ć'
    else if c == 'ę' then 'Ę'
    else if c == 'ł' then 'Ł'
    else if c == 'ń' then 'Ń'
    else if c == 'ó' then 'Ó'
    else if c == 'ś' then 'Ś'
    else if c == 'ź' then 'Ź'
    else if c == 'ż' then 'Ż'
    else c
  }

  /** `str.lower()`. */
  function Lower(s: string): string {
    seq(|s|, i requires 0 <= i < |s| => LowerChar(s[i]))
  }

  /** `str.capitalize()`: first character upper-cased, the rest lower-cased. */
  function Capitalize(s: string): string {
    if |s| == 0 then "" else [UpperChar(s[0])] + Lower(s[1..])
  }

  lemma LowerIdempotent(s: string)
    ensures Lower(Lower(s)) == Lower(s)
  {
  }

  // ---------------------------------------------------------------------
  // Character replacement

  /** `s.replace(" ", "-")`: every space becomes one hyphen, nothing else moves. */
  function Hyphenate(s: string): (r: string)
    ensures |r| == |s|
    ensures forall i :: 0 <= i < |s| ==> r[i] == (if s[i] == ' ' then '-' else s[i])
    ensures forall i :: 0 <= i < |r| ==> r[i] != ' '
  {
    if |s| == 0 then ""
    else [if s[0] == ' ' then '-' else s[0]] + Hyphenate(s[1..])
  }

  // ---------------------------------------------------------------------
  // Stripping

  /** The end of the run of white space that starts at `i`. */
  function SpacesFrom(s: string, i: nat): (k: nat)
    requires i <= |s|
    decreases |s| - i
    ensures i <= k <= |s|
    ensures forall j :: i <= j < k ==> IsSpace(s[j])
    ensures k == |s| || !IsSpace(s[k])
  {
    if i < |s| && IsSpace(s[i]) then SpacesFrom(s, i + 1) else i
  }

  /** The start of the run of white space that ends at `k`, not going
      below `lo`. */
  function SpacesBefore(s: string, lo: nat, k: nat): (e: nat)
    requires lo <= k <= |s|
    decreases k
    ensures lo <= e <= k
    ensures forall j :: e <= j < k ==> IsSpace(s[j])
    ensures e == lo || !IsSpace(s[e - 1])
  {
    if k > lo && IsSpace(s[k - 1]) then SpacesBefore(s, lo, k - 1) else k
  }

  /** `r` is `s[i..]` cut short, with only white space around it. */
  predicate StrippedAt(s: string, i: int, r: string) {
    0 <= i && i + |r| <= |s| && r == s[i..i + |r|]
    && (forall j :: 0 <= j < i ==> IsSpace(s[j]))
    && (forall j :: i + |r| <= j < |s| ==> IsSpace(s[j]))
  }

  /** `str.strip()`: the input with its leading and trailing white space removed. */
  function Strip(s: string): (r: string)
    ensures exists i :: StrippedAt(s, i, r)
    ensures |r| == 0 || (!IsSpace(r[0]) && !IsSpace(r[|r| - 1]))
  {
    var a := SpacesFrom(s, 0);
    var b := SpacesBefore(s, a, |s|);
    assert StrippedAt(s, a, s[a..b]);
    s[a..b]
  }

  // ---------------------------------------------------------------------
  // Substring search

  /** `pat` occurs in `s` starting at index `i`. */
  predicate OccursAt(s: string, pat: string, i: int) {
    0 <= i && i + |pat| <= |s| && s[i..i + |pat|] == pat
  }

  function FindFrom(s: string, pat: string, i: nat): (r: Option<nat>)
    decreases |s| - i
    ensures r.Some? ==> i <= r.value && OccursAt(s, pat, r.value)
    ensures r.Some? ==> forall j :: i <= j < r.value ==> !OccursAt(s, pat, j)
    ensures r.None? ==> forall j :: i <= j ==> !OccursAt(s, pat, j)
  {
    if i + |pat| > |s| then None
    else if s[i..i + |pat|] == pat then Some(i)
    else FindFrom(s, pat, i + 1)
  }

  /** `str.find`: the leftmost occurrence of `pat` in `s`, if any. */
  function IndexOf(s: string, pat: string): (r: Option<nat>)
    ensures r.Some? ==> OccursAt(s, pat, r.value) && forall j :: 0 <= j < r.value ==> !OccursAt(s, pat, j)
    ensures r.None? ==> forall j :: !OccursAt(s, pat, j)
  {
    FindFrom(s, pat, 0)
  }

  /** Python's `pat in s`. */
  predicate Contains(s: string, pat: string) {
    IndexOf(s, pat).Some?
  }

  predicate StartsWith(s: string, prefix: string) {
    |prefix| <= |s| && s[..|prefix|] == prefix
  }

  predicate EndsWith(s: string, suffix: string) {
    |suffix| <= |s| && s[|s| - |suffix|..] == suffix
  }

  /** A pattern cannot occur where one of its characters is missing. */
  lemma AbsentCharNotContained(s: string, pat: string, k: nat)
    requires k < |pat| && forall i :: 0 <= i < |s| ==> s[i] != pat[k]
    ensures !Contains(s, pat)
  {
    forall j | OccursAt(s, pat, j) ensures s[j..j + |pat|][k] == s[j + k] {
    }
  }

  /** When the text before a copy of `pat` lacks `pat`'s first character,
      that copy is the leftmost occurrence. */
  lemma FirstOccurrenceAt(pre: string, pat: string, rest: string)
    requires |pat| > 0 && forall i :: 0 <= i < |pre| ==> pre[i] != pat[0]
    ensures IndexOf(pre + pat + rest, pat) == Some(|pre|)
  {
    var s := pre + pat + rest;
    assert s[|pre|..|pre| + |pat|] == pat;
    assert OccursAt(s, pat, |pre|);
    forall j | 0 <= j < |pre| ensures !OccursAt(s, pat, j) {
      assert s[j] == pre[j];
      if j + |pat| <= |s| {
        assert s[j..j + |pat|][0] == s[j];
      }
    }
  }

  lemma ConcatStartsWith(a: string, b: string)
    ensures StartsWith(a + b, a)
  {
    assert (a + b)[..|a|] == a;
  }

  lemma StartsWithTrans(s: string, t: string, u: string)
    requires StartsWith(s, t) && StartsWith(t, u)
    ensures StartsWith(s, u)
  {
    assert s[..|u|] == s[..|t|][..|u|];
  }

  lemma ConcatEndsWith(a: string, b: string)
    ensures EndsWith(a + b, b)
  {
    assert (a + b)[|a|..] == b;
  }

  // ---------------------------------------------------------------------
  // split / join / replace

  /** `sep.join(parts)`. */
  function Join(parts: seq<string>, sep: string): string
    requires |parts| >= 1
  {
    if |parts| == 1 then parts[0] else parts[0] + sep + Join(parts[1..], sep)
  }

  /** Concatenation of all parts, i.e. `"".join(parts)`. */
  function Concat(parts: seq<string>): string {
    if |parts| == 0 then "" else parts[0] + Concat(parts[1..])
  }

  /** `s.split(sep)` for a non-empty separator: scanning left to right, every
      non-overlapping occurrence of `sep` ends one part. The parts joined back
      with `sep` give `s`, none of them contains `sep`, and there is more than
      one part exactly when `sep` occurs in `s`. */
  function Split(s: string, sep: string): (r: seq<string>)
    requires |sep| > 0
    decreases |s|
    ensures |r| >= 1
    ensures Join(r, sep) == s
    ensures forall k :: 0 <= k < |r| ==> !Contains(r[k], sep)
    ensures |r| == 1 <==> !Contains(s, sep)
    ensures Contains(s, sep) ==> r[0] == s[..IndexOf(s, sep).value]
  {
    match IndexOf(s, sep)
    case None => [s]
    case Some(i) =>
      var head := s[..i];
      var rest := Split(s[i + |sep|..], sep);
      Reassemble(s, i, sep);
      BeforeFirstOccurrence(s, sep, i);
      var r := [head] + rest;
      assert r[1..] == rest;
      r
  }

  /** The text before the leftmost occurrence of `sep` does not contain it. */
  lemma BeforeFirstOccurrence(s: string, sep: string, i: nat)
    requires |sep| > 0 && IndexOf(s, sep) == Some(i)
    ensures !Contains(s[..i], sep)
  {
    forall j | OccursAt(s[..i], sep, j) ensures false {
      assert s[j..j + |sep|] == s[..i][j..j + |sep|];
      assert OccursAt(s, sep, j);
    }
  }

  /** Cutting `s` around an occurrence of `sep` and gluing it back gives `s`. */
  lemma Reassemble(s: string, i: nat, sep: string)
    requires OccursAt(s, sep, i)
    ensures s == s[..i] + sep + s[i + |sep|..]
  {
    var t := s[..i] + sep + s[i + |sep|..];
    forall k | 0 <= k < |s| ensures t[k] == s[k] {
      if i <= k < i + |sep| {
        assert sep[k - i] == s[i..i + |sep|][k - i];
      }
    }
  }

  /** `s.replace(pat, "")`: every non-overlapping occurrence of `pat`, found
      left to right, is deleted. A string without `pat` is returned as is;
      otherwise the text before the leftmost copy is kept, that copy goes,
      and the text after it is treated the same way. */
  function RemoveAll(s: string, pat: string): (r: string)
    requires |pat| > 0
    decreases |s|
    ensures !Contains(s, pat) ==> r == s
    ensures Contains(s, pat) ==> |r| + |pat| <= |s|
    ensures Contains(s, pat) ==> var i := IndexOf(s, pat).value;
                                 r == s[..i] + RemoveAll(s[i + |pat|..], pat)
  {
    var parts := Split(s, pat);
    JoinLonger(parts, pat);
    if Contains(s, pat) then
      var i := IndexOf(s, pat).value;
      assert parts == [s[..i]] + Split(s[i + |pat|..], pat);
      assert parts[1..] == Split(s[i + |pat|..], pat);
      Concat(parts)
    else
      Concat(parts)
  }

  /** Removing `pat` from text that ends with it, where the text before it
      lacks `pat`'s first character, leaves exactly that text. */
  lemma RemoveTrailing(pre: string, pat: string)
    requires |pat| > 0 && forall i :: 0 <= i < |pre| ==> pre[i] != pat[0]
    ensures RemoveAll(pre + pat, pat) == pre
  {
    FirstOccurrenceAt(pre, pat, "");
    assert pre + pat + "" == pre + pat;
    var s := pre + pat;
    assert s[..|pre|] == pre;
    assert s[|pre| + |pat|..] == "";
    assert !Contains("", pat);
  }

  /** Joining with a separator is longer than plain concatenation by at
      least one separator once there are two parts. */
  lemma {:induction false} JoinLonger(parts: seq<string>, sep: string)
    requires |parts| >= 1
    ensures |Join(parts, sep)| >= |Concat(parts)| + (if |parts| > 1 then |sep| else 0)
  {
    if |parts| > 1 {
      JoinLonger(parts[1..], sep);
    }
  }

  // ---------------------------------------------------------------------
  // Digits

  /** The digit characters of `s`, in order (`re.sub(r'[^\d]', '', s)`). */
  function Digits(s: string): (r: string)
    ensures AllDigits(r)
    ensures |r| <= |s|
  {
    if |s| == 0 then ""
    else if IsDigit(s[0]) then [s[0]] + Digits(s[1..])
    else Digits(s[1..])
  }

  lemma {:induction false} DigitsAppend(a: string, b: string)
    ensures Digits(a + b) == Digits(a) + Digits(b)
  {
    if |a| == 0 {
      assert a + b == b;
    } else {
      assert (a + b)[1..] == a[1..] + b;
      DigitsAppend(a[1..], b);
    }
  }

  lemma {:induction false} DigitsOfSpaces(s: string)
    requires AllSpace(s)
    ensures Digits(s) == ""
  {
    if |s| > 0 {
      DigitsOfSpaces(s[1..]);
    }
  }

  lemma {:induction false} DigitsOfDigits(s: string)
    requires AllDigits(s)
    ensures Digits(s) == s
  {
    if |s| > 0 {
      DigitsOfDigits(s[1..]);
    }
  }

  lemma {:induction false} DigitsOfNonDigits(s: string)
    requires forall i :: 0 <= i < |s| ==> !IsDigit(s[i])
    ensures Digits(s) == ""
  {
    if |s| > 0 {
      DigitsOfNonDigits(s[1..]);
    }
  }

  /** Removing a digit-free pattern from a string keeps its digits. */
  lemma {:induction false} DigitsRemoveAll(s: string, pat: string)
    requires |pat| > 0 && Digits(pat) == ""
    ensures Digits(RemoveAll(s, pat)) == Digits(s)
  {
    DigitsJoinConcat(Split(s, pat), pat);
  }

  lemma {:induction false} DigitsJoinConcat(parts: seq<string>, sep: string)
    requires |parts| >= 1 && Digits(sep) == ""
    ensures Digits(Concat(parts)) == Digits(Join(parts, sep))
  {
    if |parts| == 1 {
      assert Concat(parts) == parts[0] + Concat(parts[1..]);
      assert parts[0] + "" == parts[0];
    } else {
      DigitsJoinConcat(parts[1..], sep);
      DigitsAppend(parts[0], Concat(parts[1..]));
      DigitsAppend(parts[0] + sep, Join(parts[1..], sep));
      DigitsAppend(parts[0], sep);
    }
  }

  /** Stripping removes white space only, so the digits survive. */
  lemma DigitsStrip(s: string)
    ensures Digits(Strip(s)) == Digits(s)
  {
    var a := SpacesFrom(s, 0);
    var b := SpacesBefore(s, a, |s|);
    var pre, mid, post := s[..a], s[a..b], s[b..];
    CutTwice(s, a, b);
    assert AllSpace(pre) by {
      forall j | 0 <= j < |pre| ensures IsSpace(pre[j]) {
        assert pre[j] == s[j];
      }
    }
    assert AllSpace(post) by {
      forall j | 0 <= j < |post| ensures IsSpace(post[j]) {
        assert post[j] == s[b + j];
      }
    }
    DigitsAppend(pre + mid, post);
    DigitsAppend(pre, mid);
    DigitsOfSpaces(pre);
    DigitsOfSpaces(post);
    assert Digits(s) == ("" + Digits(mid)) + "";
  }

  lemma CutTwice(s: string, a: nat, b: nat)
    requires a <= b <= |s|
    ensures s == s[..a] + s[a..b] + s[b..]
  {
    var t := s[..a] + s[a..b] + s[b..];
    assert |t| == |s|;
    forall k | 0 <= k < |s| ensures t[k] == s[k] {
    }
  }

  // ---------------------------------------------------------------------
  // Decimal numbers

  function DigitChar(d: nat): char
    requires d < 10
  {
    ('0' as int + d) as char
  }

  function DigitValue(c: char): nat
    requires IsDigit(c)
  {
    c as int - '0' as int
  }

  /** `int(ds)` for a string of ASCII digits (leading zeros allowed). */
  function DecimalValue(ds: string): nat
    requires AllDigits(ds)
  {
    if |ds| == 0 then 0
    else DecimalValue(ds[..|ds| - 1]) * 10 + DigitValue(ds[|ds| - 1])
  }

  /** `str(n)` for a natural number. */
  function NatToString(n: nat): (r: string)
    ensures |r| >= 1 && AllDigits(r)
    ensures r[0] != '0' || n == 0
  {
    if n < 10 then [DigitChar(n)]
    else NatToString(n / 10) + [DigitChar(n % 10)]
  }

  /** `str(i)` for any integer. */
  function IntToString(i: int): (r: string)
    ensures |r| >= 1
    ensures i >= 0 ==> AllDigits(r)
    ensures i < 0 ==> r[0] == '-' && AllDigits(r[1..])
  {
    if i < 0 then "-" + NatToString(-i) else NatToString(i)
  }

  /** Printing a natural number and reading it back gives the number. */
  lemma {:induction false} DecimalValueOfNatToString(n: nat)
    ensures DecimalValue(NatToString(n)) == n
  {
    var s := NatToString(n);
    if n >= 10 {
      assert s[..|s| - 1] == NatToString(n / 10);
      DecimalValueOfNatToString(n / 10);
    }
  }

  /** Printing is injective: different numbers print differently. */
  lemma NatToStringInjective(m: nat, n: nat)
    requires NatToString(m) == NatToString(n)
    ensures m == n
  {
    DecimalValueOfNatToString(m);
    DecimalValueOfNatToString(n);
  }
}

=== FILE: url_builder.dfy ===
/** The search descriptor (`URLBuilder`) and its two renderings: the search
    URL of a result page and the label under which its results are stored.
    Also the two older renderings kept in the repository: the legacy
    `urlbuilder.URLBuilder` and the free function `utils.get_url`. */
module UrlBuilder {
  import opened Wrappers
  import opened Text
  import opened Config

  /** The `distance` attribute. It is an `int` (default 100) when the builder
      is created in code, but the query editor stores it as a string, and a
      JSON `null` gives `None`. */
  datatype Distance = DistInt(n: int) | DistStr(s: string) | DistNone

  /** `str(distance)`. */
  function DistanceText(d: Distance): string {
    match d
    case DistInt(n) => IntToString(n)
    case DistStr(s) => s
    case DistNone => "None"
  }

  /** Python truthiness of the distance. */
  predicate DistanceTruthy(d: Distance) {
    match d
    case DistInt(n) => n != 0
    case DistStr(s) => s != ""
    case DistNone => false
  }

  /** Python truthiness of the optional city. */
  predicate CityTruthy(city: Option<string>) {
    city.Some? && city.value != ""
  }

  datatype Descriptor = Descriptor(itemQuery: string, city: Option<string>, distance: Distance)

  const DefaultDistance: Distance := DistInt(100)

  /** `URLBuilder(item_query)` with the defaults for the other two fields. */
  function NewDescriptor(itemQuery: string): Descriptor {
    Descriptor(itemQuery, None, DefaultDistance)
  }

  const Origin: string := "https://www.olx.pl"
  const AllLocations: string := "oferty"
  const DistanceKey: string := "search%5Bdist%5D="
  const OrderParam: string := "search%5Border%5D=created_at%3Adesc"

  /** The location path segment: `oferty` when the city is None, otherwise
      the city with its spaces turned into hyphens. */
  function CitySegment(city: Option<string>): string {
    match city
    case None => AllLocations
    case Some(c) => Hyphenate(c)
  }

  /** The radius parameter, emitted for every city that is not None. */
  function DistanceParam(d: Descriptor): string {
    if d.city.None? then "" else DistanceKey + DistanceText(d.distance) + "&"
  }

  function PageParam(page: int): string {
    if page > 1 then "page=" + NatToString(page) + "&" else ""
  }

  /** The URL up to the query path: origin, location segment, and
      `queryPath`, which is `/q-` for the current builder. */
  function UrlPrefix(city: Option<string>, queryPath: string): string {
    Origin + "/" + CitySegment(city) + queryPath
  }

  /** Everything up to and including the `?` that opens the query string. */
  function UrlHead(d: Descriptor, queryPath: string): string {
    UrlPrefix(d.city, queryPath) + (Hyphenate(d.itemQuery) + "/?")
  }

  lemma UrlHeadEndsWithQuestionMark(d: Descriptor, queryPath: string)
    ensures var h := UrlHead(d, queryPath); |h| > 0 && h[|h| - 1] == '?'
  {
    var x := Hyphenate(d.itemQuery) + "/?";
    assert x[|x| - 1] == '?';
  }

  /** The page-1 URL is the head followed by the query parameters. */
  lemma FirstPageUrl(d: Descriptor)
    ensures BuildUrl(d, 1) == UrlHead(d, "/q-") + (DistanceParam(d) + OrderParam)
  {
    assert PageParam(1) == "";
    assert UrlHead(d, "/q-") + PageParam(1) == UrlHead(d, "/q-");
  }

  /** The URL head as origin, path and the `?` that opens the query. */
  lemma UrlHeadParts(d: Descriptor, queryPath: string)
    ensures UrlHead(d, queryPath) == Origin + ("/" + CitySegment(d.city) + queryPath + Hyphenate(d.itemQuery) + "/") + "?"
  {
    RegroupHead(Origin, CitySegment(d.city), queryPath, Hyphenate(d.itemQuery));
  }

  lemma RegroupHead(o: string, seg: string, qp: string, item: string)
    ensures o + "/" + seg + qp + (item + "/?") == o + ("/" + seg + qp + item + "/") + "?"
  {
    assert "/?" == "/" + "?";
  }

  /** `URLBuilder.build_url(page)`. */
  function BuildUrl(d: Descriptor, page: int): (r: string)
    ensures StartsWith(r, UrlPrefix(d.city, "/q-"))
    ensures EndsWith(r, DistanceParam(d) + OrderParam)
  {
    var head := UrlHead(d, "/q-");
    var tail := DistanceParam(d) + OrderParam;
    ConcatStartsWith(UrlPrefix(d.city, "/q-"), Hyphenate(d.itemQuery) + "/?");
    ConcatStartsWith(head, PageParam(page));
    ConcatStartsWith(head + PageParam(page), tail);
    StartsWithTrans(head + PageParam(page) + tail, head + PageParam(page), head);
    StartsWithTrans(head + PageParam(page) + tail, head, UrlPrefix(d.city, "/q-"));
    ConcatEndsWith(head + PageParam(page), tail);
    (head + PageParam(page)) + tail
  }

  /** `URLBuilder.generate_data_key()`: the label of a query, which names
      its table and its worksheet; it always begins with the capitalised
      query. */
  function DataKey(d: Descriptor): (r: string)
    ensures StartsWith(r, Capitalize(d.itemQuery))
  {
    var c := Capitalize(d.itemQuery);
    var rest := (if CityTruthy(d.city) then " - " + Capitalize(d.city.value) else "")
                + (if DistanceTruthy(d.distance) then " - " + DistanceText(d.distance) + "km" else "");
    assert (c + rest)[..|c|] == c;
    c + rest
  }

  // ---------------------------------------------------------------------
  // Properties of the URL

  /** Every page number up to 1 gives the canonical first-page URL. */
  lemma PageAtMostOneIsFirstPage(d: Descriptor, page: int)
    requires page <= 1
    ensures BuildUrl(d, page) == BuildUrl(d, 1)
  {
  }

  /** For a later page the URL is the first-page URL with `page=<page>&`
      inserted right after the `?`. */
  lemma PageParamInsertedAfterQuestionMark(d: Descriptor, page: int)
    requires page > 1
    ensures var base := BuildUrl(d, 1);
            var k := |base| - |DistanceParam(d)| - |OrderParam|;
            0 < k <= |base| && base[k - 1] == '?' &&
            BuildUrl(d, page) == base[..k] + "page=" + NatToString(page) + "&" + base[k..]
  {
    var head := UrlHead(d, "/q-");
    var tail := DistanceParam(d) + OrderParam;
    var n := NatToString(page);
    assert BuildUrl(d, 1) == head + tail by {
      assert head + PageParam(1) == head;
    }
    assert BuildUrl(d, page) == (head + ("page=" + n + "&")) + tail;
    UrlHeadEndsWithQuestionMark(d, "/q-");
    InsertBetween(head, "page=" + n + "&", tail);
    Regroup5(head, "page=", n, "&", tail);
  }

  lemma Regroup5(a: string, b: string, c: string, e: string, f: string)
    ensures (a + (b + c + e)) + f == a + b + c + e + f
  {
  }

  /** Splitting `head + tail` at `|head|` and putting `mid` there gives `head + mid + tail`. */
  lemma InsertBetween(head: string, mid: string, tail: string)
    ensures var base := head + tail;
            base[..|head|] == head && base[|head|..] == tail &&
            head + mid + tail == base[..|head|] + mid + base[|head|..]
  {
  }

  /** Without a city the URL never carries a radius: the distance has no
      influence on it, and the location segment is `oferty`. */
  lemma NoCityIgnoresDistance(d: Descriptor, other: Distance, page: int)
    requires d.city.None?
    ensures BuildUrl(d, page) == BuildUrl(d.(distance := other), page)
    ensures StartsWith(BuildUrl(d, page), "https://www.olx.pl/oferty/q-")
    ensures DistanceParam(d) == ""
  {
  }

  /** With any city that is not None, including the empty string, the radius
      parameter with the distance's text directly precedes the sort order. */
  lemma CityEmitsDistance(d: Descriptor, page: int)
    requires d.city.Some?
    ensures EndsWith(BuildUrl(d, page), "search%5Bdist%5D=" + DistanceText(d.distance) + "&" + OrderParam)
    ensures StartsWith(BuildUrl(d, page), Origin + "/" + Hyphenate(d.city.value) + "/q-")
  {
    assert DistanceParam(d) + OrderParam == "search%5Bdist%5D=" + DistanceText(d.distance) + "&" + OrderParam;
  }

  /** Two descriptors that differ only in the distance give different URLs
      once a city is present, as long as the distances print differently. */
  lemma DistanceDistinguishesUrls(d: Descriptor, other: Distance, page: int)
    requires d.city.Some? && DistanceText(d.distance) != DistanceText(other)
    ensures BuildUrl(d, page) != BuildUrl(d.(distance := other), page)
  {
    var e := d.(distance := other);
    var x := UrlHead(d, "/q-") + PageParam(page);
    assert UrlHead(e, "/q-") == UrlHead(d, "/q-");
    Regroup(x, DistanceKey, DistanceText(d.distance), "&", OrderParam);
    Regroup(x, DistanceKey, DistanceText(other), "&", OrderParam);
    DifferentMiddles(x + DistanceKey, DistanceText(d.distance), DistanceText(other), "&" + OrderParam);
  }

  lemma Regroup(x: string, k: string, v: string, a: string, o: string)
    ensures x + ((k + v + a) + o) == (x + k) + (v + (a + o))
  {
  }

  lemma DifferentMiddles(h: string, x: string, y: string, t: string)
    requires x != y
    ensures h + (x + t) != h + (y + t)
  {
    if h + (x + t) == h + (y + t) {
      TailsAgree(h, x + t, y + t);
      SuffixCancel(x, y, t);
    }
  }

  lemma TailsAgree(h: string, a: string, b: string)
    requires h + a == h + b
    ensures a == b
  {
    assert a == (h + a)[|h|..];
    assert b == (h + b)[|h|..];
  }

  lemma SuffixCancel(x: string, y: string, t: string)
    requires x + t == y + t
    ensures x == y
  {
    assert x == (x + t)[..|x|];
    assert y == (y + t)[..|y|];
  }

  /** An empty city is not None: it yields an empty location segment and a
      radius, whereas the label leaves the empty city out. */
  lemma EmptyCityAsymmetry(q: string, dist: Distance)
    ensures StartsWith(BuildUrl(Descriptor(q, Some(""), dist), 1), "https://www.olx.pl//q-")
    ensures DataKey(Descriptor(q, Some(""), dist)) == DataKey(Descriptor(q, None, dist))
  {
  }

  // ---------------------------------------------------------------------
  // Properties of the label

  /** The label is the capitalised query, then ` - <City>` exactly when the
      city is truthy, then ` - <distance>km` exactly when the distance is
      truthy, independently of the city. */
  lemma DataKeyShape(d: Descriptor)
    ensures StartsWith(DataKey(d), Capitalize(d.itemQuery))
    ensures DistanceTruthy(d.distance) ==> EndsWith(DataKey(d), " - " + DistanceText(d.distance) + "km")
    ensures !CityTruthy(d.city) && !DistanceTruthy(d.distance) ==> DataKey(d) == Capitalize(d.itemQuery)
    ensures CityTruthy(d.city) && !DistanceTruthy(d.distance) ==> DataKey(d) == Capitalize(d.itemQuery) + " - " + Capitalize(d.city.value)
    ensures !CityTruthy(d.city) && DistanceTruthy(d.distance) ==> DataKey(d) == Capitalize(d.itemQuery) + " - " + DistanceText(d.distance) + "km"
    ensures CityTruthy(d.city) && DistanceTruthy(d.distance)
            ==> DataKey(d) == Capitalize(d.itemQuery) + " - " + Capitalize(d.city.value) + " - " + DistanceText(d.distance) + "km"
  {
    var key := DataKey(d);
    var c := Capitalize(d.itemQuery);
    var mid := if CityTruthy(d.city) then " - " + Capitalize(d.city.value) else "";
    var tail := if DistanceTruthy(d.distance) then " - " + DistanceText(d.distance) + "km" else "";
    assert key == c + (mid + tail);
    assert key[..|c|] == c;
    assert key == (c + mid) + tail;
    assert key[|key| - |tail|..] == tail;
  }

  /** A city-less query still gets a radius in its label although its URL
      has none. */
  lemma CitylessLabelHasRadius(q: string)
    ensures DataKey(NewDescriptor(q)) == Capitalize(q) + " - 100km"
    ensures BuildUrl(NewDescriptor(q), 1) == BuildUrl(NewDescriptor(q).(distance := DistNone), 1)
  {
    assert NatToString(100) == "100";
  }

  // ---------------------------------------------------------------------
  // The legacy builders

  /** `urlbuilder.URLBuilder.build_url()` of the older scraper: a literal
      `q-monitor ` path prefix, a raw space included, and no page parameter. */
  function LegacyBuildUrl(d: Descriptor): (r: string)
    ensures var first := BuildUrl(d, 1);
            var k := |Origin + "/" + CitySegment(d.city) + "/q-"|;
            k <= |first| && r == first[..k] + "monitor " + first[k..]
  {
    var pre := Origin + "/" + CitySegment(d.city) + "/q-";
    var post := (Hyphenate(d.itemQuery) + "/?") + (DistanceParam(d) + OrderParam);
    assert BuildUrl(d, 1) == pre + post by {
      assert PageParam(1) == "";
    }
    InsertBetween(pre, "monitor ", post);
    assert UrlHead(d, "/q-monitor ") + (DistanceParam(d) + OrderParam) == pre + "monitor " + post;
    UrlHead(d, "/q-monitor ") + (DistanceParam(d) + OrderParam)
  }

  /** `urlbuilder.URLBuilder.generate_data_key()`: query and truthy city only. */
  function LegacyDataKey(d: Descriptor): (r: string)
    ensures StartsWith(DataKey(d), r)
    ensures !DistanceTruthy(d.distance) ==> r == DataKey(d)
    ensures DistanceTruthy(d.distance) ==> |r| < |DataKey(d)|
  {
    var r := Capitalize(d.itemQuery) + (if CityTruthy(d.city) then " - " + Capitalize(d.city.value) else "");
    var tail := if DistanceTruthy(d.distance) then " - " + DistanceText(d.distance) + "km" else "";
    assert DataKey(d) == r + tail;
    assert DataKey(d)[..|r|] == r;
    r
  }

  /** `utils.get_url(item_query, city, distance)`: the same string the current
      builder produces for page 1. */
  function GetUrl(itemQuery: string, city: Option<string>, distance: Distance): (r: string)
    ensures r == BuildUrl(Descriptor(itemQuery, city, distance), 1)
  {
    var citySegment := if city.None? then AllLocations else Hyphenate(city.value);
    var distString := if city.None? then "" else DistanceKey + DistanceText(distance) + "&";
    Origin + "/" + citySegment + "/q-" + Hyphenate(itemQuery) + "/?" + distString + OrderParam
  }

  // ---------------------------------------------------------------------
  // Building descriptors from the configuration

  /** `URLBuilder(**query)`: a missing `city` or a null one means None, a
      missing `distance` means 100. */
  function FromConfig(row: QueryRow): (r: Result<Descriptor>)
    ensures r.Ok? <==> row.itemQuery.Str? && !row.city.Int?
    ensures r.Ok? ==> r.value.itemQuery == row.itemQuery.s
    ensures r.Ok? ==> (r.value.city.None? <==> row.city.Absent? || row.city.Null?)
    ensures r.Ok? && row.distance.Absent? ==> r.value.distance == DefaultDistance
  {
    if row.itemQuery.Absent? then Err(TypeError)
    else if !row.itemQuery.Str? then Err(AttributeError)
    else
      var city :- match row.city
        case Absent => Ok(None)
        case Null => Ok(None)
        case Str(c) => Ok(Some(c))
        case Int(_) => Err(AttributeError);
      var distance := match row.distance
        case Absent => DefaultDistance
        case Null => DistNone
        case Str(s) => DistStr(s)
        case Int(n) => DistInt(n);
      Ok(Descriptor(row.itemQuery.s, city, distance))
  }
}

=== FILE: url_join.dfy ===
/** `urllib.parse.urljoin` against the fixed base `https://www.olx.pl`, as
    Python 3.12 computes it. The reference is cut into scheme, authority,
    path, parameters, query and fragment (`urlparse`); a reference with a
    scheme other than the base's is returned exactly as given, one with an
    authority of its own is rebuilt from its parts, and any other one is
    put under the base's authority with the "." and ".." segments of its
    path resolved. The base has an empty path, query and fragment, which
    is what makes the resolution below so short. */
module UrlJoin {
  import opened Wrappers
  import opened Text
  import opened UrlBuilder

  const BaseScheme: string := "https"
  const BaseHost: string := "www.olx.pl"

  // ---------------------------------------------------------------------
  // Characters

  predicate IsAsciiLetter(c: char) {
    IsAsciiLower(c) || IsAsciiUpper(c)
  }

  /** `scheme_chars`: letters, digits, '+', '-' and '.'. */
  predicate IsSchemeChar(c: char) {
    IsAsciiLetter(c) || IsDigit(c) || c == '+' || c == '-' || c == '.'
  }

  /** `_WHATWG_C0_CONTROL_OR_SPACE`: the C0 controls and the space. */
  predicate IsC0OrSpace(c: char) {
    c <= ' '
  }

  /** `_UNSAFE_URL_BYTES_TO_REMOVE`: tab, carriage return, line feed. */
  predicate IsUnsafe(c: char) {
    c == '\t' || c == '\r' || c == '\n'
  }

  /** The characters that end an authority: '/', '?' and '#'. */
  predicate IsAuthorityEnd(c: char) {
    c == '/' || c == '?' || c == '#'
  }

  // ---------------------------------------------------------------------
  // Searching for one character

  /** `c not in s`. */
  predicate Lacks(s: string, c: char) {
    forall j :: 0 <= j < |s| ==> s[j] != c
  }

  /** `s.find(c)`: the first index holding `c`. */
  function FindChar(s: string, c: char): (r: Option<nat>)
    ensures r.None? <==> Lacks(s, c)
    ensures r.Some? ==> r.value < |s| && s[r.value] == c && forall j :: 0 <= j < r.value ==> s[j] != c
  {
    if |s| == 0 then None
    else if s[0] == c then Some(0)
    else
      match FindChar(s[1..], c)
      case None => assert s == [s[0]] + s[1..]; None
      case Some(i) => assert s[..i + 1] == [s[0]] + s[1..][..i]; Some(i + 1)
  }

  /** `s.rfind(c)`: the last index holding `c`. */
  function FindLast(s: string, c: char): (r: Option<nat>)
    ensures r.None? <==> Lacks(s, c)
    ensures r.Some? ==> r.value < |s| && s[r.value] == c && forall j :: r.value < j < |s| ==> s[j] != c
  {
    if |s| == 0 then None
    else if s[|s| - 1] == c then Some(|s| - 1)
    else
      var init := s[..|s| - 1];
      assert s == init + [s[|s| - 1]];
      match FindLast(init, c)
      case None => None
      case Some(i) =>
        assert s[i + 1..] == init[i + 1..] + [s[|s| - 1]];
        Some(i)
  }

  /** Where an authority ends: the first '/', '?' or '#', or the end. */
  function AuthorityEnd(s: string): (d: nat)
    ensures d <= |s|
    ensures forall i :: 0 <= i < d ==> !IsAuthorityEnd(s[i])
    ensures d < |s| ==> IsAuthorityEnd(s[d])
  {
    if |s| == 0 || IsAuthorityEnd(s[0]) then 0 else 1 + AuthorityEnd(s[1..])
  }

  /** `s.split(c, 1)` when `c in s`, otherwise `s` and an empty tail: the
      text before the first `c` and the text after it. */
  function SplitFirst(s: string, c: char): (r: (string, string))
    ensures Lacks(s, c) ==> r == (s, "")
    ensures !Lacks(s, c) ==> s == r.0 + [c] + r.1 && Lacks(r.0, c)
  {
    match FindChar(s, c)
    case None => (s, "")
    case Some(i) =>
      assert s == s[..i] + [c] + s[i + 1..];
      (s[..i], s[i + 1..])
  }

  // ---------------------------------------------------------------------
  // urlsplit / urlparse

  /** `url.lstrip(_WHATWG_C0_CONTROL_OR_SPACE)`. */
  function StripLeadingC0(s: string): (r: string)
    ensures |r| <= |s| && r == s[|s| - |r|..]
    ensures forall i :: 0 <= i < |s| - |r| ==> IsC0OrSpace(s[i])
    ensures r == "" || !IsC0OrSpace(r[0])
  {
    if |s| > 0 && IsC0OrSpace(s[0]) then StripLeadingC0(s[1..]) else s
  }

  /** Every tab, carriage return and line feed removed, the rest in order. */
  function DropUnsafe(s: string): (r: string)
    ensures |r| <= |s|
    ensures forall i :: 0 <= i < |r| ==> !IsUnsafe(r[i])
  {
    if |s| == 0 then ""
    else (if IsUnsafe(s[0]) then "" else [s[0]]) + DropUnsafe(s[1..])
  }

  /** What `urlsplit` works on once it has cleaned the input. */
  function Clean(url: string): string {
    DropUnsafe(StripLeadingC0(url))
  }

  /** The scheme `urlsplit` recognises: the text before the first ':' when
      it is non-empty, starts with an ASCII letter and holds scheme
      characters only. */
  function SchemeEnd(u: string): Option<nat> {
    match FindChar(u, ':')
    case None => None
    case Some(i) =>
      if i > 0 && IsAsciiLetter(u[0]) && forall j :: 0 <= j < i ==> IsSchemeChar(u[j]) then Some(i)
      else None
  }

  /** A URL that names its own scheme once cleaned. */
  predicate HasScheme(url: string) {
    SchemeEnd(Clean(url)).Some?
  }

  /** The scheme, lower-cased, and what follows its ':'; without one, the
      default scheme and the whole text. */
  function SplitScheme(u: string): (r: (string, string)) {
    match SchemeEnd(u)
    case Some(k) => (Lower(u[..k]), u[k + 1..])
    case None => (BaseScheme, u)
  }

  /** The authority behind a leading "//" (up to the first '/', '?' or '#')
      and the rest; no authority without the "//". */
  function SplitAuthority(s: string): (string, string) {
    if |s| >= 2 && s[..2] == "//" then
      var t := s[2..];
      var d := AuthorityEnd(t);
      (t[..d], t[d..])
    else
      ("", s)
  }

  /** `_splitparams`: the parameters start at the first ';' after the last
      '/', or at the first ';' when there is no '/'. */
  function SplitParams(path: string): (r: (string, string))
    requires !Lacks(path, ';')
  {
    match FindLast(path, '/')
    case None =>
      var i := FindChar(path, ';').value;
      (path[..i], path[i + 1..])
    case Some(l) =>
      match FindChar(path[l..], ';')
      case None => (path, "")
      case Some(j) => (path[..l + j], path[l + j + 1..])
  }

  datatype Parts = Parts(scheme: string, netloc: string, path: string, params: string, query: string, fragment: string)

  /** `urlparse(url, "https")`. `urlparse` splits parameters off for the
      schemes of `uses_params`; only `https` is among them that `urljoin`
      goes on to read the parts of here, so only `https` is listed. */
  function Parse(url: string): (p: Parts) {
    var scheme := SplitScheme(Clean(url));
    ParseRest(scheme.0, scheme.1)
  }

  /** What `urlsplit` and `urlparse` make of the text behind the scheme:
      the authority, then the fragment after the first '#', the query
      after the first '?', and the parameters of the path. */
  function ParseRest(scheme: string, rest: string): (p: Parts) {
    var authority := SplitAuthority(rest);
    var fragment := SplitFirst(authority.1, '#');
    var query := SplitFirst(fragment.0, '?');
    var params := if scheme == BaseScheme && !Lacks(query.0, ';') then SplitParams(query.0) else (query.0, "");
    Parts(scheme, authority.0, params.0, params.1, query.1, fragment.1)
  }

  // ---------------------------------------------------------------------
  // urlunparse

  /** The path with its parameters, as `urlunparse` glues them. */
  function PathWithParams(p: Parts): string {
    if p.params != "" then p.path + ";" + p.params else p.path
  }

  /** `urlunparse` of parts that carry an authority: a non-empty path not
      starting with '/' gets one, and an empty query or fragment leaves no
      separator behind. */
  function Unparse(p: Parts): (r: string)
    requires p.netloc != ""
  {
    p.scheme + "://" + p.netloc + AfterAuthority(p)
  }

  /** Everything `urlunparse` writes after the authority. */
  function AfterAuthority(p: Parts): string {
    var path := PathWithParams(p);
    var rooted := if path != "" && path[0] != '/' then "/" + path else path;
    rooted
    + (if p.query != "" then "?" + p.query else "")
    + (if p.fragment != "" then "#" + p.fragment else "")
  }

  // ---------------------------------------------------------------------
  // Removing dot segments

  predicate IsDotSegment(seg: string) {
    seg == "." || seg == ".."
  }

  /** `filter(None, xs)`: the non-empty strings, in order. */
  function NonEmpty(xs: seq<string>): (r: seq<string>)
    ensures |r| <= |xs|
    ensures forall k :: 0 <= k < |r| ==> r[k] != ""
  {
    if |xs| == 0 then []
    else (if xs[0] == "" then [] else [xs[0]]) + NonEmpty(xs[1..])
  }

  /** The segments `urljoin` walks: an absolute path split at '/'; a
      relative one behind the base's single empty segment, with the empty
      segments dropped from all but its last position. */
  function PathSegments(path: string): (r: seq<string>)
    ensures |r| >= 1
  {
    var parts := SplitSlash(path);
    if |path| > 0 && path[0] == '/' then parts else RelativeSegments(parts)
  }

  /** A relative path's pieces behind the base's empty segment, the empty
      ones dropped from all but the last position. */
  function RelativeSegments(parts: seq<string>): (r: seq<string>)
    requires |parts| >= 1
    ensures |r| >= 2 && r[0] == "" && r[|r| - 1] == parts[|parts| - 1]
  {
    [""] + NonEmpty(parts[..|parts| - 1]) + [parts[|parts| - 1]]
  }

  /** `s.split('/')`: the pieces between the slashes, in order. */
  function SplitSlash(s: string): (r: seq<string>)
    ensures |r| >= 1
    decreases |s|
  {
    match FindChar(s, '/')
    case None => [s]
    case Some(i) => [s[..i]] + SplitSlash(s[i + 1..])
  }

  /** The pieces hold no '/' and, joined with '/', give the text back. */
  lemma {:induction false} SplitSlashShape(s: string)
    ensures Join(SplitSlash(s), "/") == s
    ensures forall k :: 0 <= k < |SplitSlash(s)| ==> Lacks(SplitSlash(s)[k], '/')
    decreases |s|
  {
    match FindChar(s, '/')
    case None =>
    case Some(i) =>
      SplitSlashShape(s[i + 1..]);
      var rest := SplitSlash(s[i + 1..]);
      assert SplitSlash(s) == [s[..i]] + rest;
      assert ([s[..i]] + rest)[1..] == rest;
      assert s == s[..i] + "/" + s[i + 1..];
  }

  /** No segment holds a '/'. */
  lemma PathSegmentsShape(path: string)
    ensures forall k :: 0 <= k < |PathSegments(path)| ==> Lacks(PathSegments(path)[k], '/')
  {
    SplitSlashShape(path);
    if !(|path| > 0 && path[0] == '/') {
      RelativeSegmentsLack(SplitSlash(path), '/');
    }
  }

  /** The relative segments hold no character their pieces do not. */
  lemma RelativeSegmentsLack(parts: seq<string>, c: char)
    requires |parts| >= 1 && forall k :: 0 <= k < |parts| ==> Lacks(parts[k], c)
    ensures forall k :: 0 <= k < |RelativeSegments(parts)| ==> Lacks(RelativeSegments(parts)[k], c)
  {
    var init := parts[..|parts| - 1];
    assert forall k :: 0 <= k < |init| ==> init[k] == parts[k];
    NonEmptyLacks(init, c);
    var mid := NonEmpty(init);
    var r := RelativeSegments(parts);
    assert r == [""] + mid + [parts[|parts| - 1]];
    forall k | 0 <= k < |r| ensures Lacks(r[k], c) {
      if 0 < k < |r| - 1 { assert r[k] == mid[k - 1]; }
    }
  }

  /** Concatenation regroups freely. */
  lemma ConcatAssoc(a: string, b: string, c: string)
    ensures a + (b + c) == a + b + c
  {
  }

  /** Filtering out empty strings keeps a character absent. */
  lemma {:induction false} NonEmptyLacks(xs: seq<string>, c: char)
    requires forall k :: 0 <= k < |xs| ==> Lacks(xs[k], c)
    ensures forall k :: 0 <= k < |NonEmpty(xs)| ==> Lacks(NonEmpty(xs)[k], c)
    decreases |xs|
  {
    if |xs| > 0 {
      NonEmptyLacks(xs[1..], c);
    }
  }

  /** The resolving loop: ".." takes back the last kept segment when there
      is one, "." is skipped, and every other segment is kept. */
  function ResolveSegments(segs: seq<string>, kept: seq<string>): (r: seq<string>)
    decreases |segs|
  {
    if |segs| == 0 then kept
    else if segs[0] == ".." then ResolveSegments(segs[1..], if |kept| > 0 then kept[..|kept| - 1] else kept)
    else if segs[0] == "." then ResolveSegments(segs[1..], kept)
    else ResolveSegments(segs[1..], kept + [segs[0]])
  }

  /** The resolved segments; a path that ends in "." or ".." names a
      directory and keeps a trailing empty segment. */
  function ResolvedSegments(path: string): seq<string> {
    var segs := PathSegments(path);
    ResolveSegments(segs, []) + (if IsDotSegment(segs[|segs| - 1]) then [""] else [])
  }

  /** `'/'.join(resolved_path) or '/'`. */
  function RemoveDotSegments(path: string): (r: string)
    ensures r != ""
  {
    var resolved := ResolvedSegments(path);
    var joined := if |resolved| == 0 then "" else Join(resolved, "/");
    if joined == "" then "/" else joined
  }

  // ---------------------------------------------------------------------
  // urljoin

  /** `urljoin("https://www.olx.pl", url)`. */
  function JoinToOrigin(url: string): string {
    if url == "" then Origin
    else
      var p := Parse(url);
      if p.scheme != BaseScheme then url
      else if p.netloc != "" then Unparse(p)
      else if p.path == "" && p.params == "" then Unparse(p.(netloc := BaseHost))
      else Unparse(p.(netloc := BaseHost, path := RemoveDotSegments(p.path)))
  }

  /** The three outcomes of joining: the base for an empty reference, the
      reference itself under another scheme, and otherwise an `https` URL,
      under the base's own authority when the reference has none. */
  lemma JoinToOriginShape(url: string)
    ensures url == "" ==> JoinToOrigin(url) == Origin
    ensures url != "" && Parse(url).scheme != BaseScheme ==> JoinToOrigin(url) == url
    ensures url != "" && Parse(url).scheme == BaseScheme ==> StartsWith(JoinToOrigin(url), BaseScheme + "://")
    ensures url != "" && Parse(url).scheme == BaseScheme && Parse(url).netloc == "" ==> StartsWith(JoinToOrigin(url), Origin)
  {
    if url != "" {
      var p := Parse(url);
      if p.scheme == BaseScheme {
        OriginParts();
        if p.netloc != "" {
          UnparseStarts(p);
        } else if p.path == "" && p.params == "" {
          UnparseStarts(p.(netloc := BaseHost));
        } else {
          UnparseStarts(p.(netloc := BaseHost, path := RemoveDotSegments(p.path)));
        }
      }
    }
  }

  /** The base is its scheme and its authority. */
  lemma OriginParts()
    ensures Origin == BaseScheme + "://" + BaseHost
  {
  }

  /** A rebuilt URL starts with its scheme and authority. */
  lemma UnparseStarts(p: Parts)
    requires p.netloc != ""
    ensures StartsWith(Unparse(p), p.scheme + "://" + p.netloc)
    ensures StartsWith(Unparse(p), p.scheme + "://")
  {
    ConcatStartsWith(p.scheme + "://" + p.netloc, AfterAuthority(p));
    ConcatStartsWith(p.scheme + "://", p.netloc);
    StartsWithTrans(Unparse(p), p.scheme + "://" + p.netloc, p.scheme + "://");
  }

  // ---------------------------------------------------------------------
  // Building blocks

  /** Text without tabs, carriage returns or line feeds loses nothing. */
  lemma {:induction false} DropUnsafeKeepsSafe(s: string)
    requires forall i :: 0 <= i < |s| ==> !IsUnsafe(s[i])
    ensures DropUnsafe(s) == s
  {
    if |s| > 0 {
      DropUnsafeKeepsSafe(s[1..]);
      assert s == [s[0]] + s[1..];
    }
  }

  /** Cleaning text that starts with a visible character and holds no
      tab, carriage return or line feed changes nothing. */
  lemma CleanKeepsClean(s: string)
    requires s == "" || !IsC0OrSpace(s[0])
    requires forall i :: 0 <= i < |s| ==> !IsUnsafe(s[i])
    ensures Clean(s) == s
  {
    DropUnsafeKeepsSafe(s);
  }

  /** The first `c` of `a + b`, when `a` has none, is the first `c` of `b`. */
  lemma {:induction false} FindCharAfter(a: string, b: string, c: char)
    requires Lacks(a, c)
    ensures FindChar(a + b, c) == (match FindChar(b, c) case None => None case Some(j) => Some(|a| + j))
  {
    if |a| > 0 {
      assert (a + b)[1..] == a[1..] + b;
      assert Lacks(a[1..], c) by {
        forall i | 0 <= i < |a[1..]| ensures a[1..][i] != c {
          assert a[1..][i] == a[i + 1];
        }
      }
      FindCharAfter(a[1..], b, c);
    } else {
      assert a + b == b;
    }
  }

  /** Where an authority followed by its end character stops. */
  lemma {:induction false} AuthorityEndAt(host: string, rest: string)
    requires forall i :: 0 <= i < |host| ==> !IsAuthorityEnd(host[i])
    requires rest == "" || IsAuthorityEnd(rest[0])
    ensures AuthorityEnd(host + rest) == |host|
  {
    if |host| > 0 {
      assert (host + rest)[1..] == host[1..] + rest;
      AuthorityEndAt(host[1..], rest);
    } else {
      assert host + rest == rest;
    }
  }

  /** Text `urlsplit` leaves as it is and cuts nowhere: no control
      characters or spaces, and no '?', '#' or ';'. */
  predicate IsPlainText(s: string) {
    forall i :: 0 <= i < |s| ==> !IsC0OrSpace(s[i]) && s[i] != '?' && s[i] != '#' && s[i] != ';'
  }

  /** An absolute path of plain text without "." or ".." segments that is
      not a network-path reference. */
  predicate IsPlainPath(path: string) {
    |path| > 0 && path[0] == '/' && !StartsWith(path, "//") && IsPlainText(path)
    && forall k :: 0 <= k < |SplitSlash(path)| ==> !IsDotSegment(SplitSlash(path)[k])
  }

  /** A non-empty authority of visible characters that does not end early. */
  predicate IsPlainHost(host: string) {
    host != "" && forall i :: 0 <= i < |host| ==> !IsC0OrSpace(host[i]) && !IsAuthorityEnd(host[i])
  }

  /** Cutting the query, fragment and parameters off plain text leaves it whole. */
  lemma PlainTextHasNoTail(s: string)
    requires IsPlainText(s)
    ensures SplitFirst(s, '#') == (s, "")
    ensures SplitFirst(s, '?') == (s, "")
    ensures Lacks(s, ';')
  {
    assert Lacks(s, '#') && Lacks(s, '?');
  }

  // ---------------------------------------------------------------------
  // Resolution

  /** Segments that are neither "." nor ".." and hold no '/'. */
  predicate ResolvedShape(xs: seq<string>) {
    forall k :: 0 <= k < |xs| ==> !IsDotSegment(xs[k]) && Lacks(xs[k], '/')
  }

  /** The resolving loop never keeps a "." or ".." segment, nor one with a '/'. */
  lemma {:induction false} ResolveSegmentsClean(segs: seq<string>, kept: seq<string>)
    requires ResolvedShape(kept)
    requires forall k :: 0 <= k < |segs| ==> Lacks(segs[k], '/')
    ensures ResolvedShape(ResolveSegments(segs, kept))
    decreases |segs|
  {
    if |segs| > 0 {
      if segs[0] == ".." {
        var shorter := if |kept| > 0 then kept[..|kept| - 1] else kept;
        assert forall k :: 0 <= k < |shorter| ==> shorter[k] == kept[k];
        ResolveSegmentsClean(segs[1..], shorter);
        assert ResolveSegments(segs, kept) == ResolveSegments(segs[1..], shorter);
      } else if segs[0] == "." {
        ResolveSegmentsClean(segs[1..], kept);
      } else {
        ResolveSegmentsClean(segs[1..], kept + [segs[0]]);
      }
    }
  }

  /** Resolving a path leaves no "." or ".." segment and no segment holding
      a '/', so joining them back puts a '/' exactly between segments. */
  lemma ResolvedSegmentsClean(path: string)
    ensures ResolvedShape(ResolvedSegments(path))
  {
    var segs := PathSegments(path);
    PathSegmentsShape(path);
    ResolveSegmentsClean(segs, []);
    var loop := ResolveSegments(segs, []);
    var tail: seq<string> := if IsDotSegment(segs[|segs| - 1]) then [""] else [];
    assert forall k :: 0 <= k < |tail| ==> tail[k] == "";
    assert ResolvedSegments(path) == loop + tail;
  }

  /** Without dot segments the loop keeps every segment. */
  lemma {:induction false} ResolveSegmentsKeepsAll(segs: seq<string>, kept: seq<string>)
    requires forall k :: 0 <= k < |segs| ==> !IsDotSegment(segs[k])
    ensures ResolveSegments(segs, kept) == kept + segs
    decreases |segs|
  {
    if |segs| > 0 {
      ResolveSegmentsKeepsAll(segs[1..], kept + [segs[0]]);
      assert kept + [segs[0]] + segs[1..] == kept + segs;
    }
  }

  /** A plain absolute path resolves to itself. */
  lemma PlainPathResolved(path: string)
    requires IsPlainPath(path)
    ensures RemoveDotSegments(path) == path
  {
    var segs := SplitSlash(path);
    SplitSlashShape(path);
    assert PathSegments(path) == segs;
    ResolveSegmentsKeepsAll(segs, []);
    assert ResolvedSegments(path) == segs;
  }

  // ---------------------------------------------------------------------
  // What urljoin makes of typical references

  /** `urlparse` of a plain absolute path: only a path. */
  lemma ParsePlainPath(path: string)
    requires IsPlainPath(path)
    ensures Parse(path) == Parts(BaseScheme, "", path, "", "", "")
  {
    CleanKeepsClean(path);
    assert SplitScheme(path) == (BaseScheme, path);
    assert SplitAuthority(path) == ("", path);
    PlainTextHasNoTail(path);
  }

  /** Rebuilding plain parts glues them back together. */
  lemma UnparsePlain(scheme: string, host: string, path: string)
    requires host != "" && (path == "" || path[0] == '/')
    ensures Unparse(Parts(scheme, host, path, "", "", "")) == scheme + "://" + host + path
  {
  }

  /** A plain absolute path ends up under the base's authority unchanged:
      the usual `href` of a listing. */
  lemma PlainPathJoined(path: string)
    requires IsPlainPath(path)
    ensures JoinToOrigin(path) == Origin + path
  {
    ParsePlainPath(path);
    PlainPathResolved(path);
    UnparsePlain(BaseScheme, BaseHost, path);
    OriginParts();
  }

  /** Removing tabs and line breaks works piece by piece. */
  lemma {:induction false} DropUnsafeConcat(a: string, b: string)
    ensures DropUnsafe(a + b) == DropUnsafe(a) + DropUnsafe(b)
  {
    if |a| > 0 {
      assert (a + b)[1..] == a[1..] + b;
      DropUnsafeConcat(a[1..], b);
    } else {
      assert a + b == b;
    }
  }

  /** A run of scheme characters followed by ':' is where the scheme ends. */
  lemma SchemeEndAt(s: string, y: string)
    requires |s| > 0 && IsAsciiLetter(s[0]) && forall j :: 0 <= j < |s| ==> IsSchemeChar(s[j])
    ensures SchemeEnd(s + ":" + y) == Some(|s|)
  {
    var u := s + ":" + y;
    assert Lacks(s, ':');
    assert u == s + (":" + y);
    FindCharAfter(s, ":" + y, ':');
    assert forall j :: 0 <= j < |s| ==> u[j] == s[j];
  }

  /** A run of scheme characters before the first ':' is the scheme,
      lower-cased, and only the rest is cleaned further. */
  lemma SchemeSplitAt(s: string, x: string)
    requires |s| > 0 && IsAsciiLetter(s[0]) && forall j :: 0 <= j < |s| ==> IsSchemeChar(s[j])
    ensures SplitScheme(Clean(s + ":" + x)) == (Lower(s), DropUnsafe(x))
  {
    var head := s + ":";
    assert s + ":" + x == head + x;
    assert forall j :: 0 <= j < |head| ==> !IsUnsafe(head[j]) && head[j] == (if j < |s| then s[j] else ':');
    DropUnsafeKeepsSafe(head);
    DropUnsafeConcat(head, x);
    var u := s + ":" + DropUnsafe(x);
    assert Clean(s + ":" + x) == u;
    SchemeEndAt(s, DropUnsafe(x));
    assert u[..|s|] == s && u[|s| + 1..] == DropUnsafe(x);
  }

  /** An authority of plain characters followed by a plain path (or by
      nothing) is read back as exactly these two parts. */
  lemma ParseAuthorityPath(scheme: string, host: string, path: string)
    requires IsPlainHost(host)
    requires path == "" || (path[0] == '/' && IsPlainText(path))
    ensures ParseRest(scheme, "//" + host + path) == Parts(scheme, host, path, "", "", "")
  {
    var rest := "//" + host + path;
    assert rest[2..] == host + path;
    AuthorityEndAt(host, path);
    assert (host + path)[..|host|] == host && (host + path)[|host|..] == path;
    assert SplitAuthority(rest) == (host, path);
    PlainTextHasNoTail(path);
  }

  /** Text that starts with a visible character, has no tab or line break
      and whose start is not a scheme goes to `ParseRest` whole, under the
      default scheme. */
  lemma ParseWithoutScheme(url: string)
    requires |url| > 0 && !IsC0OrSpace(url[0]) && !IsAsciiLetter(url[0])
    requires forall i :: 0 <= i < |url| ==> !IsUnsafe(url[i])
    ensures Parse(url) == ParseRest(BaseScheme, url)
  {
    CleanKeepsClean(url);
  }

  /** A network-path reference `//host/path` takes the base's scheme and
      keeps its own authority and path. */
  lemma NetworkPathJoined(host: string, path: string)
    requires IsPlainHost(host)
    requires path == "" || (path[0] == '/' && IsPlainText(path))
    ensures JoinToOrigin("//" + host + path) == BaseScheme + "://" + host + path
  {
    var url := "//" + host + path;
    assert forall i :: 0 <= i < |url| ==> !IsUnsafe(url[i]) by {
      forall i | 0 <= i < |url| ensures !IsUnsafe(url[i]) {
        if i >= 2 + |host| { assert url[i] == path[i - 2 - |host|]; }
        else if i >= 2 { assert url[i] == host[i - 2]; }
      }
    }
    ParseWithoutScheme(url);
    ParseAuthorityPath(BaseScheme, host, path);
    UnparsePlain(BaseScheme, host, path);
  }

  /** An absolute `https` URL with a plain authority and path comes back
      exactly as given. */
  lemma AbsoluteUrlKept(host: string, path: string)
    requires IsPlainHost(host)
    requires path == "" || (path[0] == '/' && IsPlainText(path))
    ensures JoinToOrigin(BaseScheme + "://" + host + path) == BaseScheme + "://" + host + path
  {
    var url := BaseScheme + "://" + host + path;
    AbsoluteParse(host, path);
    JoinOfAuthority(url, host, path);
    UnparsePlain(BaseScheme, host, path);
  }

  /** An absolute `https` URL with a plain authority and path parses into
      exactly those parts. */
  lemma AbsoluteParse(host: string, path: string)
    requires IsPlainHost(host)
    requires path == "" || (path[0] == '/' && IsPlainText(path))
    ensures Parse(BaseScheme + "://" + host + path) == Parts(BaseScheme, host, path, "", "", "")
  {
    var url := BaseScheme + "://" + host + path;
    var rest := "//" + host + path;
    assert url == BaseScheme + ":" + rest;
    AuthorityPathSafe(host, path);
    SchemeSplitAt(BaseScheme, rest);
    DropUnsafeKeepsSafe(rest);
    BaseSchemeLower();
    ParseOfSplit(url, BaseScheme, rest);
    ParseAuthorityPath(BaseScheme, host, path);
  }

  /** The base's scheme is already lower-case. */
  lemma BaseSchemeLower()
    ensures Lower(BaseScheme) == BaseScheme
  {
  }

  /** Parsing goes on from wherever the scheme split leaves off. */
  lemma ParseOfSplit(url: string, scheme: string, rest: string)
    requires SplitScheme(Clean(url)) == (scheme, rest)
    ensures Parse(url) == ParseRest(scheme, rest)
  {
  }

  /** A plain authority and path hold no tab, carriage return or line feed. */
  lemma AuthorityPathSafe(host: string, path: string)
    requires IsPlainHost(host)
    requires path == "" || (path[0] == '/' && IsPlainText(path))
    ensures forall i :: 0 <= i < |"//" + host + path| ==> !IsUnsafe(("//" + host + path)[i])
  {
    var rest := "//" + host + path;
    forall i | 0 <= i < |rest| ensures !IsUnsafe(rest[i]) {
      if i >= 2 + |host| { assert rest[i] == path[i - 2 - |host|]; }
      else if i >= 2 { assert rest[i] == host[i - 2]; }
    }
  }

  /** A reference that names the base's scheme and its own authority is
      put back together from its parts. */
  lemma JoinOfAuthority(url: string, host: string, path: string)
    requires url != "" && host != "" && Parse(url) == Parts(BaseScheme, host, path, "", "", "")
    ensures JoinToOrigin(url) == Unparse(Parts(BaseScheme, host, path, "", "", ""))
  {
  }

  /** The scheme is compared without regard to case: `HTTPS:` behaves as `https:`. */
  lemma SchemeCaseIgnored(s: string, x: string)
    requires Lower(s) == BaseScheme
    ensures JoinToOrigin(s + ":" + x) == JoinToOrigin(BaseScheme + ":" + x)
  {
    assert forall j :: 0 <= j < |s| ==> IsAsciiLetter(s[j]) by {
      forall j | 0 <= j < |s| ensures IsAsciiLetter(s[j]) {
        assert LowerChar(s[j]) == BaseScheme[j];
      }
    }
    SchemeSplitAt(s, x);
    SchemeSplitAt(BaseScheme, x);
    LowerIdempotent(s);
    SameParseSameJoin(s + ":" + x, BaseScheme + ":" + x);
  }

  /** A reference under the base's scheme is joined through its parts alone. */
  lemma SameParseSameJoin(a: string, b: string)
    requires a != "" && b != "" && Parse(a) == Parse(b) && Parse(a).scheme == BaseScheme
    ensures JoinToOrigin(a) == JoinToOrigin(b)
  {
  }

  /** Splitting at '/' undoes joining with it when no part holds a '/'. */
  lemma {:induction false} SplitOfJoin(parts: seq<string>)
    requires |parts| >= 1 && forall k :: 0 <= k < |parts| ==> Lacks(parts[k], '/')
    ensures SplitSlash(Join(parts, "/")) == parts
  {
    if |parts| > 1 {
      var rest := Join(parts[1..], "/");
      var s := parts[0] + "/" + rest;
      FindCharAfter(parts[0], "/" + rest, '/');
      assert parts[0] + ("/" + rest) == s;
      assert s[..|parts[0]|] == parts[0] && s[|parts[0]| + 1..] == rest;
      SplitOfJoin(parts[1..]);
      assert parts == [parts[0]] + parts[1..];
    }
  }

  // ---------------------------------------------------------------------
  // Dot segments and a repeated scheme

  /** One segment of a path: plain text without '/' that is not "." or "..". */
  predicate IsSegment(x: string) {
    IsPlainText(x) && Lacks(x, '/') && !IsDotSegment(x)
  }

  /** A reference of plain text that names no scheme and no authority is a
      path only. */
  lemma ParsePathOnly(url: string)
    requires |url| > 0 && !IsAsciiLetter(url[0]) && !StartsWith(url, "//") && IsPlainText(url)
    ensures Parse(url) == Parts(BaseScheme, "", url, "", "", "")
  {
    ParseWithoutScheme(url);
    assert SplitAuthority(url) == ("", url);
    PlainTextHasNoTail(url);
  }

  /** A path-only reference is rebuilt under the base's authority from its
      resolved path. */
  lemma PathOnlyJoined(url: string)
    requires |url| > 0 && !IsAsciiLetter(url[0]) && !StartsWith(url, "//") && IsPlainText(url)
    ensures JoinToOrigin(url) == Unparse(Parts(BaseScheme, BaseHost, RemoveDotSegments(url), "", "", ""))
  {
    ParsePathOnly(url);
  }

  /** Gluing plain pieces gives plain text. */
  lemma PlainConcat(a: string, b: string)
    requires IsPlainText(a) && IsPlainText(b)
    ensures IsPlainText(a + b)
  {
    assert forall i :: 0 <= i < |a + b| ==> (a + b)[i] == if i < |a| then a[i] else b[i - |a|];
  }

  /** A rooted path rebuilt under the base's authority follows the base. */
  lemma UnderBase(path: string)
    requires path != "" && path[0] == '/'
    ensures Unparse(Parts(BaseScheme, BaseHost, path, "", "", "")) == Origin + path
  {
    UnparsePlain(BaseScheme, BaseHost, path);
    OriginParts();
  }

  /** One step of the loop on a segment that is kept. */
  lemma ResolveKeep(seg: string, rest: seq<string>, kept: seq<string>)
    requires !IsDotSegment(seg)
    ensures ResolveSegments([seg] + rest, kept) == ResolveSegments(rest, kept + [seg])
  {
    assert ([seg] + rest)[1..] == rest;
  }

  /** One step of the loop on "..": the last kept segment goes. */
  lemma ResolveUp(rest: seq<string>, kept: seq<string>)
    requires |kept| > 0
    ensures ResolveSegments([".."] + rest, kept) == ResolveSegments(rest, kept[..|kept| - 1])
  {
    assert ([".."] + rest)[1..] == rest;
  }

  /** One step of the loop on ".": nothing changes. */
  lemma ResolveSkip(rest: seq<string>, kept: seq<string>)
    ensures ResolveSegments(["."] + rest, kept) == ResolveSegments(rest, kept)
  {
    assert (["."] + rest)[1..] == rest;
  }

  /** Joining a part in front of at least one other. */
  lemma JoinCons(x: string, rest: seq<string>, sep: string)
    requires |rest| >= 1
    ensures Join([x] + rest, sep) == x + sep + Join(rest, sep)
  {
    assert ([x] + rest)[1..] == rest;
  }

  /** A reference under the base's scheme that is only a path is rebuilt
      under the base's authority from its resolved path. */
  lemma JoinOfPath(url: string, path: string)
    requires url != "" && path != "" && Parse(url) == Parts(BaseScheme, "", path, "", "", "")
    ensures JoinToOrigin(url) == Unparse(Parts(BaseScheme, BaseHost, RemoveDotSegments(path), "", "", ""))
  {
  }

  /** `/a/../b` splits into "", `a`, ".." and `b`. */
  lemma DotDotSegments(a: string, b: string)
    requires IsSegment(a) && IsSegment(b)
    ensures PathSegments("/" + a + "/../" + b) == [""] + ([a] + ([".."] + [b]))
  {
    var up := "..";
    var url := "/" + a + "/" + up + "/" + b;
    assert url == "/" + a + "/../" + b;
    JoinCons(up, [b], "/");
    JoinCons(a, [up] + [b], "/");
    JoinCons("", [a] + ([up] + [b]), "/");
    var parts := [""] + ([a] + ([up] + [b]));
    assert Join(parts, "/") == url;
    assert Lacks(up, '/');
    SplitOfJoin(parts);
  }

  /** The loop on "", `a`, "..", `b` keeps "" and `b`. */
  lemma DotDotResolved(a: string, b: string)
    requires !IsDotSegment(a) && !IsDotSegment(b)
    ensures ResolveSegments([""] + ([a] + ([".."] + [b])), []) == [""] + [b]
  {
    assert [] + [""] == [""];
    ResolveKeep("", [a] + ([".."] + [b]), []);
    ResolveKeep(a, [".."] + [b], [""]);
    ResolveUp([b], [""] + [a]);
    assert ([""] + [a])[..1] == [""];
    assert [b] == [b] + [];
    ResolveKeep(b, [], [""]);
  }

  /** A path-only reference whose path resolves to a rooted path ends up
      under the base with that path. */
  lemma PathJoinedAs(url: string, resolved: string)
    requires url != "" && Parse(url) == Parts(BaseScheme, "", url, "", "", "")
    requires RemoveDotSegments(url) == resolved && resolved[0] == '/'
    ensures JoinToOrigin(url) == Origin + resolved
  {
    JoinOfPath(url, url);
    UnderBase(resolved);
  }

  /** The path of `/a/../b` resolves to `/b`. */
  lemma DotDotPath(a: string, b: string)
    requires IsSegment(a) && IsSegment(b)
    ensures RemoveDotSegments("/" + a + "/../" + b) == "/" + b
  {
    var url := "/" + a + "/../" + b;
    DotDotSegments(a, b);
    var segs := [""] + ([a] + ([".."] + [b]));
    assert segs[|segs| - 1] == b;
    DotDotResolved(a, b);
    assert ResolvedSegments(url) == [""] + [b];
    JoinCons("", [b], "/");
    assert Join([""] + [b], "/") == "/" + b;
  }

  /** `/a/../b` is a path-only reference. */
  lemma DotDotIsPath(a: string, b: string)
    requires IsSegment(a) && a != "" && IsSegment(b)
    ensures var url := "/" + a + "/../" + b;
            Parse(url) == Parts(BaseScheme, "", url, "", "", "")
  {
    var url := "/" + a + "/../" + b;
    PlainConcat("/", a);
    PlainConcat("/" + a, "/../");
    PlainConcat("/" + a + "/../", b);
    assert url[1] == a[0];
    ParsePathOnly(url);
  }

  /** ".." takes back the segment before it: `/a/../b` is `/b`. */
  lemma DotDotDropsSegment(a: string, b: string)
    requires IsSegment(a) && a != "" && IsSegment(b)
    ensures JoinToOrigin("/" + a + "/../" + b) == Origin + "/" + b
  {
    DotDotIsPath(a, b);
    DotDotPath(a, b);
    PathJoinedAs("/" + a + "/../" + b, "/" + b);
    ConcatAssoc(Origin, "/", b);
  }

  /** The path of `./b` resolves to `/b`. */
  lemma DotPath(b: string)
    requires IsSegment(b)
    ensures RemoveDotSegments("./" + b) == "/" + b
  {
    var dot := ".";
    var url := dot + "/" + b;
    assert url == "./" + b;
    JoinCons(dot, [b], "/");
    assert Lacks(dot, '/');
    SplitOfJoin([dot] + [b]);
    var parts := SplitSlash(url);
    assert parts[..|parts| - 1] == [dot] && parts[|parts| - 1] == b;
    assert NonEmpty([dot]) == [dot] by {
      assert [dot][1..] == [];
    }
    assert PathSegments(url) == [""] + ([dot] + [b]);
    assert [] + [""] == [""];
    ResolveKeep("", [dot] + [b], []);
    ResolveSkip([b], [""]);
    assert [b] == [b] + [];
    ResolveKeep(b, [], [""]);
    assert ResolvedSegments(url) == [""] + [b];
    JoinCons("", [b], "/");
  }

  /** `./b` is a path-only reference. */
  lemma DotIsPath(b: string)
    requires IsSegment(b)
    ensures Parse("./" + b) == Parts(BaseScheme, "", "./" + b, "", "", "")
  {
    PlainConcat("./", b);
    ParsePathOnly("./" + b);
  }

  /** "." stands for the base's root: `./b` is `/b`. */
  lemma DotSegmentSkipped(b: string)
    requires IsSegment(b)
    ensures JoinToOrigin("./" + b) == Origin + "/" + b
  {
    DotIsPath(b);
    DotPath(b);
    PathJoinedAs("./" + b, "/" + b);
    ConcatAssoc(Origin, "/", b);
  }

  /** A single relative segment resolves to itself under the root. */
  lemma SegmentPath(b: string)
    requires IsSegment(b) && b != ""
    ensures RemoveDotSegments(b) == "/" + b
  {
    SplitOfJoin([b]);
    assert PathSegments(b) == [""] + [b];
    ResolveKeep("", [b], []);
    ResolveKeep(b, [], [""]);
    assert ResolvedSegments(b) == [""] + [b];
    JoinCons("", [b], "/");
  }

  /** `https:b` is the path `b` under the base's scheme. */
  lemma SameSchemePath(b: string)
    requires IsSegment(b) && b != ""
    ensures Parse(BaseScheme + ":" + b) == Parts(BaseScheme, "", b, "", "", "")
  {
    SameSchemeSplit(b);
    SegmentRest(b);
  }

  /** The scheme of `https:b` is the base's and `b` is left. */
  lemma SameSchemeSplit(b: string)
    requires IsPlainText(b)
    ensures SplitScheme(Clean(BaseScheme + ":" + b)) == (BaseScheme, b)
  {
    SchemeSplitAt(BaseScheme, b);
    DropUnsafeKeepsSafe(b);
    BaseSchemeLower();
  }

  /** A single segment behind a scheme is a path only. */
  lemma SegmentRest(b: string)
    requires IsSegment(b) && b != ""
    ensures ParseRest(BaseScheme, b) == Parts(BaseScheme, "", b, "", "", "")
  {
    if |b| >= 2 {
      assert b[..2][0] == b[0] != '/';
    }
    assert SplitAuthority(b) == ("", b);
    PlainTextHasNoTail(b);
  }

  /** Naming the base's own scheme without an authority still resolves
      against the base: `https:b` is `/b` under it. */
  lemma SameSchemeRelative(b: string)
    requires IsSegment(b) && b != ""
    ensures JoinToOrigin(BaseScheme + ":" + b) == Origin + "/" + b
  {
    SameSchemePath(b);
    JoinOfPath(BaseScheme + ":" + b, b);
    SegmentPath(b);
    UnderBase("/" + b);
    ConcatAssoc(Origin, "/", b);
  }

  // ---------------------------------------------------------------------
  // urlparse(url).geturl() of a URL on the site

  /** Path text `urlsplit` keeps whole: no tab or line break, and no '?',
      '#' or ';'. Spaces may occur. */
  predicate IsPathText(s: string) {
    forall i :: 0 <= i < |s| ==> !IsUnsafe(s[i]) && s[i] != '?' && s[i] != '#' && s[i] != ';'
  }

  /** Query text `urlsplit` keeps whole: no tab or line break and no '#'. */
  predicate IsQueryText(s: string) {
    forall i :: 0 <= i < |s| ==> !IsUnsafe(s[i]) && s[i] != '#'
  }

  lemma PathTextJoin(a: string, b: string)
    requires IsPathText(a) && IsPathText(b)
    ensures IsPathText(a + b)
  {
    forall i | 0 <= i < |a + b| ensures (a + b)[i] == (if i < |a| then a[i] else b[i - |a|]) {
    }
  }

  lemma QueryTextJoin(a: string, b: string)
    requires IsQueryText(a) && IsQueryText(b)
    ensures IsQueryText(a + b)
  {
    forall i | 0 <= i < |a + b| ensures (a + b)[i] == (if i < |a| then a[i] else b[i - |a|]) {
    }
  }

  /** `urlparse(url).geturl()` for a URL under the base: the URL is cut into
      its parts, which keep the base's authority, and put back together. */
  function SiteGetUrl(url: string): (r: string)
    requires StartsWith(url, Origin + "/")
    ensures StartsWith(r, Origin)
  {
    SiteUnparse(url);
    Unparse(Parse(url))
  }

  /** Rebuilding a URL under the base starts it with the base again. */
  lemma SiteUnparse(url: string)
    requires StartsWith(url, Origin + "/")
    ensures Parse(url).netloc != ""
    ensures StartsWith(Unparse(Parse(url)), Origin)
  {
    var p := Parse(url);
    SiteNetloc(url);
    UnparseStarts(p);
    OriginParts();
    assert p.scheme + "://" + p.netloc == Origin;
  }

  /** A URL under the base keeps the base's authority. */
  lemma SiteNetloc(url: string)
    requires StartsWith(url, Origin + "/")
    ensures Parse(url).scheme == BaseScheme
    ensures Parse(url).netloc == BaseHost
  {
    var x := url[|Origin| + 1..];
    assert url == Origin + "/" + x;
    SiteParse(x);
    SiteAuthority(DropUnsafe(x));
  }

  /** After the base and a '/', the scheme is the base's and only the text
      after the '/' loses its tabs and line breaks. */
  lemma SiteParse(x: string)
    ensures Parse(Origin + "/" + x) == ParseRest(BaseScheme, "//" + BaseHost + "/" + DropUnsafe(x))
  {
    OriginParts();
    assert IsPlainHost(BaseHost);
    HostParse(BaseHost, x);
  }

  /** The same for any plain authority under the base's scheme. */
  lemma HostParse(host: string, x: string)
    requires IsPlainHost(host)
    ensures Parse(BaseScheme + "://" + host + "/" + x) == ParseRest(BaseScheme, "//" + host + "/" + DropUnsafe(x))
  {
    var safe := "//" + host + "/";
    var rest := safe + x;
    var url := BaseScheme + "://" + host + "/" + x;
    assert url == BaseScheme + ":" + rest;
    AuthorityPathSafe(host, "/");
    SchemeSplitAt(BaseScheme, rest);
    BaseSchemeLower();
    DropUnsafeConcat(safe, x);
    DropUnsafeKeepsSafe(safe);
    ParseOfSplit(url, BaseScheme, DropUnsafe(rest));
  }

  /** The authority after "//" is the base's host when a '/' follows it. */
  lemma SiteAuthority(y: string)
    ensures SplitAuthority("//" + BaseHost + "/" + y) == (BaseHost, "/" + y)
    ensures ParseRest(BaseScheme, "//" + BaseHost + "/" + y).netloc == BaseHost
  {
    var rest := "//" + BaseHost + "/" + y;
    assert rest[2..] == BaseHost + ("/" + y);
    AuthorityEndAt(BaseHost, "/" + y);
    assert (BaseHost + ("/" + y))[..|BaseHost|] == BaseHost;
    assert (BaseHost + ("/" + y))[|BaseHost|..] == "/" + y;
  }

  /** Tabs, carriage returns and line feeds in the URL make no difference
      to what is requested: `urlsplit` drops them. */
  lemma SiteGetUrlIgnoresControls(x: string)
    ensures SiteGetUrl(Origin + "/" + x) == SiteGetUrl(Origin + "/" + DropUnsafe(x))
  {
    ConcatStartsWith(Origin + "/", x);
    ConcatStartsWith(Origin + "/", DropUnsafe(x));
    SiteParse(x);
    SiteParse(DropUnsafe(x));
    DropUnsafeKeepsSafe(DropUnsafe(x));
  }

  /** A URL under the base whose path and non-empty query `urlsplit` keeps
      whole comes back from `geturl` unchanged. */
  lemma SiteGetUrlKept(path: string, query: string)
    requires |path| > 0 && path[0] == '/' && IsPathText(path)
    requires query != "" && IsQueryText(query)
    ensures StartsWith(Origin + path + "?" + query, Origin + "/")
    ensures SiteGetUrl(Origin + path + "?" + query) == Origin + path + "?" + query
  {
    var x := path[1..] + "?" + query;
    assert path == "/" + path[1..];
    assert Origin + "/" + x == Origin + path + "?" + query;
    ConcatStartsWith(Origin + "/", x);
    OriginParts();
    assert IsPlainHost(BaseHost);
    HostGetUrlKept(BaseHost, path, query);
  }

  /** The same for any plain authority under the base's scheme. */
  lemma HostGetUrlKept(host: string, path: string, query: string)
    requires IsPlainHost(host)
    requires |path| > 0 && path[0] == '/' && IsPathText(path)
    requires query != "" && IsQueryText(query)
    ensures Parse(BaseScheme + "://" + host + path + "?" + query) == Parts(BaseScheme, host, path, "", query, "")
    ensures Unparse(Parts(BaseScheme, host, path, "", query, "")) == BaseScheme + "://" + host + path + "?" + query
  {
    var x := path[1..] + "?" + query;
    var url := BaseScheme + "://" + host + path + "?" + query;
    assert path == "/" + path[1..];
    assert BaseScheme + "://" + host + "/" + x == url;
    QueryTailSafe(path, query);
    DropUnsafeKeepsSafe(x);
    HostParse(host, x);
    TailRegroup("//" + host, path, query);
    RestWithQuery(host, path, query);
    UnparseWithQuery(host, path, query);
  }

  lemma TailRegroup(pre: string, path: string, query: string)
    requires |path| > 0 && path[0] == '/'
    ensures pre + "/" + (path[1..] + "?" + query) == pre + (path + "?" + query)
  {
    assert path == "/" + path[1..];
    assert "/" + (path[1..] + "?" + query) == path + "?" + query;
  }

  /** Behind "//", a plain authority, a path and a query are told apart. */
  lemma RestWithQuery(host: string, path: string, query: string)
    requires IsPlainHost(host)
    requires |path| > 0 && path[0] == '/' && IsPathText(path)
    requires query != "" && IsQueryText(query)
    ensures ParseRest(BaseScheme, "//" + host + (path + "?" + query)) == Parts(BaseScheme, host, path, "", query, "")
  {
    var t := path + "?" + query;
    var rest := "//" + host + t;
    assert rest[2..] == host + t;
    AuthorityEndAt(host, t);
    assert (host + t)[..|host|] == host;
    assert (host + t)[|host|..] == t;
    assert SplitAuthority(rest) == (host, t);
    SiteTailParts(path, query);
  }

  /** Rebuilding an authority, a rooted path and a non-empty query. */
  lemma UnparseWithQuery(host: string, path: string, query: string)
    requires host != "" && |path| > 0 && path[0] == '/' && query != ""
    ensures Unparse(Parts(BaseScheme, host, path, "", query, "")) == BaseScheme + "://" + host + path + "?" + query
  {
    var p := Parts(BaseScheme, host, path, "", query, "");
    assert AfterAuthority(p) == path + "?" + query;
  }

  /** Path text, a '?' and query text hold no tab or line break. */
  lemma QueryTailSafe(path: string, query: string)
    requires |path| > 0 && IsPathText(path) && IsQueryText(query)
    ensures forall i :: 0 <= i < |path[1..] + "?" + query| ==> !IsUnsafe((path[1..] + "?" + query)[i])
  {
    var x := path[1..] + "?" + query;
    forall i | 0 <= i < |x| ensures !IsUnsafe(x[i]) {
      if i >= |path| { assert x[i] == query[i - |path|]; }
      else if i < |path| - 1 { assert x[i] == path[i + 1]; }
    }
  }

  /** The part after the authority splits at its only '?'. */
  lemma SiteTailParts(path: string, query: string)
    requires |path| > 0 && path[0] == '/' && IsPathText(path)
    requires query != "" && IsQueryText(query)
    ensures SplitFirst(path + "?" + query, '#') == (path + "?" + query, "")
    ensures SplitFirst(path + "?" + query, '?') == (path, query)
    ensures Lacks(path, ';')
  {
    var t := path + "?" + query;
    assert Lacks(t, '#') by {
      forall i | 0 <= i < |t| ensures t[i] != '#' {
        if i > |path| { assert t[i] == query[i - |path| - 1]; }
        else if i < |path| { assert t[i] == path[i]; }
      }
    }
    assert Lacks(path, '?');
    FindCharAfter(path, "?" + query, '?');
    assert t == path + ("?" + query);
    assert t[..|path|] == path && t[|path| + 1..] == query;
  }
}

=== FILE: validation.dfy ===
/** The settings validators of `Resources/input_validation.py`. Each returns
    its argument unchanged or raises ValueError. */
module InputValidation {
  import opened Wrappers
  import opened Text

  /** The class `[a-zA-Z0-9_]`. */
  predicate IsWordChar(c: char) {
    IsAsciiLower(c) || IsAsciiUpper(c) || IsDigit(c) || c == '_'
  }

  predicate AllWord(s: string) {
    forall i :: 0 <= i < |s| ==> IsWordChar(s[i])
  }

  /** The end of the run of word characters starting at `i`. */
  function SkipWord(s: string, i: nat): (r: nat)
    requires i <= |s|
    decreases |s| - i
    ensures i <= r <= |s|
    ensures forall k :: i <= k < r ==> IsWordChar(s[k])
    ensures r == |s| || !IsWordChar(s[r])
  {
    if i == |s| || !IsWordChar(s[i]) then i else SkipWord(s, i + 1)
  }

  /** `re.match(r'^[a-zA-Z0-9_]+$', s)`. The greedy class run is followed by
      `$`, which holds at the end of the text or before a final line feed;
      giving characters back would leave a word character next, so the run
      must be maximal. */
  predicate FilenameMatches(s: string) {
    var j := SkipWord(s, 0);
    j >= 1 && (j == |s| || (j == |s| - 1 && s[j] == '\n'))
  }

  /** `validate_filename`. */
  function ValidateFilename(filename: string): (r: Result<string>)
    ensures r.Ok? ==> r.value == filename
    ensures r.Err? ==> r.error == ValueError
    ensures r.Ok? <==> FilenameMatches(filename)
  {
    if FilenameMatches(filename) then Ok(filename) else Err(ValueError)
  }

  /** The matcher accepts exactly the non-empty runs of word characters,
      optionally followed by one line feed. */
  lemma FilenameCharacterisation(s: string)
    ensures FilenameMatches(s) <==>
              (|s| >= 1 && AllWord(s)) || (|s| >= 2 && AllWord(s[..|s| - 1]) && s[|s| - 1] == '\n')
  {
    var j := SkipWord(s, 0);
    if |s| >= 1 && AllWord(s) {
      assert j == |s|;
    } else if |s| >= 2 && AllWord(s[..|s| - 1]) && s[|s| - 1] == '\n' {
      assert forall k :: 0 <= k < |s| - 1 ==> s[..|s| - 1][k] == s[k];
      assert !IsWordChar(s[|s| - 1]);
      assert j == |s| - 1;
    }
    if FilenameMatches(s) {
      if j == |s| {
        assert AllWord(s);
      } else {
        assert forall k :: 0 <= k < |s| - 1 ==> s[..|s| - 1][k] == s[k];
      }
    }
  }

  lemma FilenameExamples()
    ensures ValidateFilename("olx_results2024").Ok?
    ensures ValidateFilename("results\n") == Ok("results\n")
    ensures ValidateFilename("") == Err(ValueError)
    ensures ValidateFilename("my results") == Err(ValueError)
  {
    FilenameCharacterisation("olx_results2024");
    FilenameCharacterisation("results\n");
    FilenameCharacterisation("my results");
    assert !IsWordChar("my results"[2]);
  }

  /** `if not (lo <= value <= hi): raise ValueError`; `return value`. */
  function ValidateRange(value: int, lo: int, hi: int): (r: Result<int>)
    ensures r.Ok? <==> lo <= value <= hi
    ensures r.Ok? ==> r.value == value
    ensures r.Err? ==> r.error == ValueError
  {
    if lo <= value <= hi then Ok(value) else Err(ValueError)
  }

  /** `validate_page_limit`: 1 to 10 inclusive. */
  function ValidatePageLimit(pageLimit: int): (r: Result<int>)
    ensures r.Ok? <==> 1 <= pageLimit <= 10
    ensures r.Ok? ==> r.value == pageLimit
    ensures r.Err? ==> r.error == ValueError
  {
    ValidateRange(pageLimit, 1, 10)
  }

  /** `validate_dimension`: 100 to 3000 inclusive. */
  function ValidateDimension(value: int): (r: Result<int>)
    ensures r.Ok? <==> 100 <= value <= 3000
    ensures r.Ok? ==> r.value == value
    ensures r.Err? ==> r.error == ValueError
  {
    ValidateRange(value, 100, 3000)
  }

  /** `validate_fontsize`: 8 to 24 inclusive. */
  function ValidateFontsize(value: int): (r: Result<int>)
    ensures r.Ok? <==> 8 <= value <= 24
    ensures r.Ok? ==> r.value == value
    ensures r.Err? ==> r.error == ValueError
  {
    ValidateRange(value, 8, 24)
  }
}

=== FILE: wrappers.dfy ===
/** Failure-carrying results used throughout the model.
    Python exceptions that the source raises (and does not catch) become `Err`
    values naming the exception class. */
module Wrappers {

  datatype Option<+T> = None | Some(value: T)

  /** The Python exception classes the modelled code can raise. */
  datatype Error =
    | ValueError
    | TypeError
    | KeyError
    | IndexError
    | AttributeError
    | TransportError  // any exception raised by the HTTP client

  datatype Result<+T> = Ok(value: T) | Err(error: Error) {
    predicate IsFailure() { Err? }

    function PropagateFailure<U>(): Result<U>
      requires Err?
    {
      Err(error)
    }

    function Extract(): T
      requires Ok?
    {
      value
    }
  }

  /** Applies a failing step to every element in order; the first failure
      is the result (a list comprehension whose body may raise). */
  function MapAll<A, B>(xs: seq<A>, f: A -> Result<B>): (r: Result<seq<B>>)
    ensures r.Ok? <==> forall i :: 0 <= i < |xs| ==> f(xs[i]).Ok?
    ensures r.Ok? ==> |r.value| == |xs| && forall i :: 0 <= i < |xs| ==> f(xs[i]) == Ok(r.value[i])
    ensures r.Err? ==> exists i :: 0 <= i < |xs| && f(xs[i]) == Err(r.error)
                                   && forall j :: 0 <= j < i ==> f(xs[j]).Ok?
  {
    if |xs| == 0 then Ok([])
    else
      match f(xs[0])
      case Err(e) => Err(e)
      case Ok(head) =>
        var rest := MapAll(xs[1..], f);
        assert forall i :: 1 <= i < |xs| ==> xs[i] == xs[1..][i - 1];
        match rest
        case Err(e) =>
          ghost var i :| 0 <= i < |xs[1..]| && f(xs[1..][i]) == Err(e) && forall j :: 0 <= j < i ==> f(xs[1..][j]).Ok?;
          assert f(xs[i + 1]) == Err(e);
          Err(e)
        case Ok(tail) => Ok([head] + tail)
  }
}
